=== FILE: README.md ===
# Voxel greedy mesher and containers of the sogl engine, in Dafny

This project models the core of a small OpenGL voxel engine:

- **The binary greedy mesher of a chunk** (`ChunkMesh`).
  - Occupancy columns: one 64-bit word per column along each of the three axes.
  - Face masks derived from those columns by shift and complement.
  - Grouping of the exposed face bits into 64 x 64 planes, one per (face direction, block type, slice).
  - Greedy merging of each plane into rectangles (`GreedyMeshBinaryPlane`).
  - The four corners and the normal index emitted per rectangle.
- **The helpers the mesher uses**:
  - the trailing-zero and trailing-one counts;
  - the `FaceDirection` tables;
  - the voxel lookup of a chunk (`getVoxel`, `getVoxelNeighbours`).
- **The hand-written containers and utilities of the engine**:
  - the open-addressing `hashTable` and its FNV-1a style hash;
  - `Dictionary` and `Hasher::FNVHash`;
  - the node-based `linkedList`, the `queue` and `priorityQueue` built on it;
  - the array-of-nodes list of `linkedList.hpp`, here `ArrayList`;
  - `runLengthEncoding`, the bit stack `bitSet8_t`, the checked `Array`;
  - `clamp`, `sign` and `nextPowTwo`;
  - the byte arithmetic of `color32`;
  - the code-to-text mapping of `GLError`.

Each source file becomes a module. What the source mutates in place is a class with `modifies` clauses:

- the hash table, the dictionary, the lists, the queues, the run-length encoding, the bit stack, the array and a `color32`.

Value computations are functions, proved against specification functions:

- the greedy mesher's loops are methods over an `array` of plane rows;
- their invariants say which cells are covered by which quads.

Where the code does something its authors evidently did not intend, the model keeps two members. One is written as the code is and comes with a lemma that shows the defect on a concrete input. The other is the corrected member, which the rest of the model uses (see "## Findings").

Modelling choices:

- **Unsigned widths.** Hashes are `bv64`, so the FNV multiplication wraps modulo 2^64 as in C++. Chunk coordinates are `uint16_t`, reduced modulo 2^16 (`Chunk.ToU16`). `nextPowTwo` takes the bit width of its type as a parameter, and the final increment wraps to 0 when the next power does not fit.
- **Linked nodes.** The node chains of the lists are maps from node identities to nodes with a `next` link. A ghost spine lists the identities from head to tail, and the items of the list are read along that spine.
- **Null and throw.** A null result is an `Option` value. `Array.h` runs `throw;` with no exception being handled, which calls `std::terminate`: its `Thrown` outcome and the `null` of `Array.New` stand for that termination, not for an exception a caller could catch. The `std::range_error` of the array list's `get` is a real exception and is an `Outcome` value too.
- **Chunk shape.** The mesher uses one chunk side, `CHUNK_SIZE` = 64. This is the 64-bit width of its columns and the `dataLen` of its plane scan. `chunk.h` declares a 16 x 64 x 16 chunk for `getVoxel`, and `Chunk` models that lookup with those constants.
- **Lookup checks.** A chunk lookup is described as checking that all three coordinates lie in the chunk. `getVoxel` as written checks only the truncated linear index, and the model follows the code (see Findings).

## Model

| member | source | states |
|---|---|---|
| Bits.Tz | common/sogl/bitmanip.hpp:5-17 | the trailing-zero count is at most 64, every bit below it is clear and the bit at it is set when it is below 64 |
| Bits.TzUnique | common/sogl/bitmanip.hpp:5-17 | any count with those three properties is the trailing-zero count, so the count is determined by the word |
| Bits.TrailingZeroes | common/sogl/bitmanip.hpp:5-17 | the counting loop returns the trailing-zero count: zero bits below the result, a set bit at it, 64 for the zero word |
| Bits.To | common/sogl/bitmanip.hpp:19-31 | the trailing-one count is at most 64, every bit below it is set and the bit at it is clear when it is below 64 |
| Bits.ToUnique | common/sogl/bitmanip.hpp:19-31 | any count with those three properties is the trailing-one count |
| Bits.TrailingOnes | common/sogl/bitmanip.hpp:19-31 | the counting loop returns the trailing-one count: set bits below the result, a clear bit at it |
| Bits.CountsOfConstants | common/sogl/bitmanip.hpp:5-31 | trailing_zeroes(0) = 64, trailing_ones(0) = 0, trailing_ones(~0) = 64, trailing_zeroes(~0) = 0 |
| Bits.OnesAreZerosOfComplement | common/sogl/bitmanip.hpp:19-31 | counting ones from any bit equals counting zeros of the complement from that bit |
| Bits.TrailingOnesIsTrailingZerosOfNot | common/sogl/bitmanip.hpp:19-31 | trailing_ones(v) = trailing_zeroes(~v) |
| Bits.NoBitsIsZero | common/sogl/bitmanip.hpp:5-17 | a trailing-zero count of 64 means the word is zero, the stop condition of the mesher's scan loop |
| Bits.ClearLowestBit | common/sogl/world/data/src/chunkMesh.cpp:56-58 | for a nonzero column, `column & (column - 1)` clears exactly the bit at trailing_zeroes(column) and keeps every other bit |
| Bits.DecSubtractsOne | common/sogl/world/data/src/chunkMesh.cpp:56-58 | the `column - 1` of the mesher's loop is subtraction on `uint64_t`: one less for a non-zero word, 2^64 - 1 for zero |
| FaceDirections.Value | common/sogl/world/data/FaceDirection.hpp:6-13 | each direction has an enumerator value below 6 |
| FaceDirections.FromValue | common/sogl/world/data/FaceDirection.hpp:6-13 | values 0..5 map back to the direction with that value; any other value is `back`, as in the mesher's default case |
| FaceDirections.ValueRoundTrip | common/sogl/world/data/FaceDirection.hpp:6-13 | value and direction convert into each other both ways on 0..5 |
| FaceDirections.EnumeratorValues | common/sogl/world/data/FaceDirection.hpp:6-13 | down = 0, up = 1, left = 2, right = 3, forward = 4, back = 5 |
| FaceDirections.ReverseOrderOnePerAxis | common/sogl/world/data/FaceDirection.hpp:15-24 | ReverseOrder holds exactly for up, right and forward, and for exactly one of each pair of opposite directions |
| FaceDirections.NormalIndex | common/sogl/world/data/FaceDirection.hpp:26-41 | every direction's normal index is below 6 |
| FaceDirections.NormalIndexTable | common/sogl/world/data/FaceDirection.hpp:26-41 | left -> 0, right -> 1, down -> 2, up -> 3, forward -> 4, back -> 5 |
| FaceDirections.DirectionOfNormal | common/sogl/world/data/FaceDirection.hpp:26-41 | every index 0..5 is the normal index of some direction (the inverse table) |
| FaceDirections.NormalIndexBijective | common/sogl/world/data/FaceDirection.hpp:26-41 | NormalIndex is injective and DirectionOfNormal inverts it: a bijection of the six directions onto 0..5 |
| FaceDirections.Opposite | common/sogl/world/data/FaceDirection.hpp:6-13 | the opposite of a direction is a different direction on the same axis (the enumerators pair up as 0-1, 2-3, 4-5) |
| Chunk.ToU16 | common/sogl/world/data/src/chunk.cpp:98 | the conversion to `uint16_t` agrees with its argument modulo 2^16 |
| Chunk.GetVoxel | common/sogl/world/data/src/chunk.cpp:94-104 | null without a voxel array; otherwise null exactly when the truncated index z*X*Y + y*X + x is outside [0, 16*64*16), and the voxel at that index otherwise |
| Chunk.GetVoxelInBox | common/sogl/world/data/src/chunk.cpp:94-104 | every coordinate inside the 16 x 64 x 16 box finds its voxel, at an index below the voxel count, and the index decodes back to the coordinate |
| Chunk.CoordsOf | common/sogl/world/data/chunk.h:26-28 | every index below the voxel count decodes to a coordinate inside the box |
| Chunk.RowAliasing | common/sogl/world/data/src/chunk.cpp:98-103 | the coordinate (16, y, z), outside the box, passes the check and returns the voxel (0, y + 1, z) |
| Chunk.GetVoxelPastEnd | common/sogl/world/data/src/chunk.cpp:98-104 | the coordinate (65535, 1, 0) passes the truncated check with index 65551, past the 16384 voxels |
| Chunk.GetVoxelChecked | common/sogl/world/data/src/chunk.cpp:94-104 | corrected lookup: a voxel exactly for coordinates inside the box, at an index that decodes back to them |
| Chunk.GetVoxelCheckedInjective | common/sogl/world/data/src/chunk.cpp:94-104 | the corrected lookup never returns one voxel for two coordinates |
| Chunk.GetVoxelNeighbours | common/sogl/world/data/src/chunk.cpp:106-122 | false and the out-array untouched when the centre voxel is null; otherwise true and a fresh array of the six lookups +x, -x, +y, -y, +z, -z with coordinates wrapped to `uint16_t` |
| Chunk.InteriorNeighbours | common/sogl/world/data/src/chunk.cpp:112-121 | for a voxel strictly inside the box the six neighbours are the voxels at index +-1, +-X and +-X*Y |
| ChunkMesh.ConstructAxisBitset | common/sogl/world/data/src/chunkMesh.cpp:130-148 | bit y of word x+z*N, bit x of word N^2+z+y*N and bit z of word 2N^2+x+y*N are set iff voxel (x,y,z) is not AIR; the words past those three blocks stay zero |
| ChunkMesh.SetBit | common/sogl/world/data/src/chunkMesh.cpp:139-143 | `outBitset[j] \|= 1 << k` sets bit k of word j and changes no other bit of any word |
| ChunkMesh.PlusFaces | common/sogl/world/data/src/chunkMesh.cpp:44 | `col & ~(col >> 1)`: bit k is set iff voxel k is solid and voxel k+1 is not, or k is the last bit |
| ChunkMesh.MinusFaces | common/sogl/world/data/src/chunkMesh.cpp:45 | `col & ~(col << 1)`: bit k is set iff voxel k is solid and voxel k-1 is not, or k is bit 0 |
| ChunkMesh.FaceMask | common/sogl/world/data/src/chunkMesh.cpp:41-47 | every face mask is a subset of its occupancy column |
| ChunkMesh.MaskIndexDistinct | common/sogl/world/data/src/chunkMesh.cpp:44-45 | the face-mask words of different (direction, column) pairs are different words |
| ChunkMesh.ComputeFaceMasks | common/sogl/world/data/src/chunkMesh.cpp:40-47 | block 2a+1 holds the plus faces and block 2a the minus faces of the columns of axis a; the rest of the array stays zero |
| ChunkMesh.Neighbour | common/sogl/world/data/FaceDirection.hpp:6-13 | the neighbour in a direction differs from the voxel in exactly the coordinate of that direction's axis |
| ChunkMesh.NeighbourOfNeighbour | common/sogl/world/data/FaceDirection.hpp:6-13 | stepping to the neighbour and back in the opposite direction returns to the voxel |
| ChunkMesh.SamplePos | common/sogl/world/data/src/chunkMesh.cpp:59-72 | the `pos` switch maps every in-cube (x, y, z) of a face-mask column to an in-cube voxel |
| ChunkMesh.FaceMasksMarkExposedFaces | common/sogl/world/data/src/chunkMesh.cpp:40-47 | bit y of face-mask column x+z*N of direction d is set iff the face of voxel SamplePos(d,x,y,z) in direction d is exposed: solid, with its neighbour that way AIR or outside the chunk |
| ChunkMesh.EmptyPlane | common/sogl/world/data/src/chunkMesh.cpp:49 | a plane created on first use has 64 zero rows |
| ChunkMesh.AddFace | common/sogl/world/data/src/chunkMesh.cpp:74-77 | `d[x] \|= 1 << z` creates the plane if needed and leaves every other plane unchanged |
| ChunkMesh.ScatterColumn | common/sogl/world/data/src/chunkMesh.cpp:56-78 | visiting a column's set bits lowest first ORs, for each bit y, bit z into row x of the plane (direction, voxel type, y), and only those bits |
| ChunkMesh.GroupFaces | common/sogl/world/data/src/chunkMesh.cpp:49-81 | after the grouping loop, bit z of row x of plane (d, t, y) is set iff bit y of face-mask column x+z*N of direction d is set and that voxel has type t |
| ChunkMesh.ColIndexAsWrittenIsShifted | common/sogl/world/data/src/chunkMesh.cpp:54 | the index as written reads column (x+1, z+1), never column 0 of a direction; it lies past the six mask blocks exactly in direction 5 when z = 63, or when z = 62 and x = 63 |
| ChunkMesh.ColIndexAsWrittenInAllocation | common/sogl/world/data/src/chunkMesh.cpp:39-54 | every index as written stays inside the `3 * CHUNK_SIZE_3 * 2`-word allocation, and each one past the six mask blocks reads a zero-initialised word |
| ChunkMesh.ColIndexAsWritten | common/sogl/world/data/src/chunkMesh.cpp:54 | as written the index is CHUNK_SIZE + 1 words past the mask word of the intended column (x, z) |
| ChunkMesh.ColumnIndexBijective | common/sogl/world/data/src/chunkMesh.cpp:54 | the corrected index x + z*N maps the (x, z) square one-to-one onto the N^2 columns of a block |
| ChunkMesh.PlanesHoldExposedFaces | common/sogl/world/data/src/chunkMesh.cpp:49-81 | every plane bit is an exposed face of a voxel of the plane's type, every such face is a plane bit, and no plane holds AIR |
| ChunkMesh.WorldToSampleIsFaceOrigin | common/sogl/world/data/src/chunkMesh.cpp:179-194 | WorldToSample of plane point (x, y) in slice p is the near corner of the face of the voxel the grouping put at row x, bit y of that slice: up->(x,p+1,y), down->(x,p,y), left->(p,y,x), right->(p+1,y,x), forward->(x,y,p), back->(x,y,p+1) |
| ChunkMesh.QuadCorners | common/sogl/world/data/src/chunkMesh.cpp:196-200 | each quad yields exactly four corners |
| ChunkMesh.QuadCornersSpanFaces | common/sogl/world/data/src/chunkMesh.cpp:196-200 | the corners (x,y), (x+w,y+h), (x,y+h), (x+w,y) of a quad are the face corners of the plane cells at the quad's four corners |
| ChunkMesh.CornersAsWrittenIgnoreSlice | common/sogl/world/data/src/chunkMesh.cpp:114 | passing the direction index as `axis` puts the up face of a voxel in slice 10 at height 2 instead of 11 |
| ChunkMesh.AppendVertices | common/sogl/world/data/src/chunkMesh.cpp:196-202 | appends exactly the four corners of the quad, keeps the earlier vertices, and appends exactly one normal index, that of the direction |
| ChunkMesh.MeshPlane | common/sogl/world/data/src/chunkMesh.cpp:110-116 | meshing one plane appends to the quads already placed, keeping them; every new quad is well formed and tagged with the plane's key; for every cell, one new quad covers it when the plane's bit is set and none otherwise, with four vertices and one normal per quad |
| ChunkMesh.Assemble | common/sogl/world/data/src/chunkMesh.cpp:83-118 | every placed quad is well formed and its key is a plane of the data, with direction < 6 and slice < 64; every set bit of every plane is covered by exactly one quad of that plane, no clear bit by any; vertices and normals are in step with the quads |
| ChunkMesh.Build | common/sogl/world/data/src/chunkMesh.cpp:34-118 | every placed quad is well formed, with direction < 6 and slice < 64; every exposed face of every solid voxel is covered by exactly one quad of the plane of its direction, type and slice |
| ChunkMesh.BuiltQuadsOnFaces | common/sogl/world/data/src/chunkMesh.cpp:34-118 | every cell of every quad the mesher places is an exposed face of a solid voxel of the quad's type, facing the quad's direction in the quad's slice: no quad covers anything else |
| GreedyMesh.GreedyMeshBinaryPlane | common/sogl/world/data/src/chunkMesh.cpp:150-177 | every quad has w, h >= 1 and lies inside the 64 x 64 plane; every set bit of the input plane is covered by exactly one quad and no clear bit by any; each quad's height is the whole run of set bits starting at its first bit (`trailing_ones`), and its widening stopped at the plane's end or at a row missing part of its run; the quads come in scan order, by row and then by y; the plane keeps exactly the bits not cleared by a widening |
| GreedyMesh.FullPlaneOneQuad | common/sogl/world/data/src/chunkMesh.cpp:150-177 | for a plane with every bit set, a result with those properties is the single quad (0, 0, 64, 64) |
| GreedyMesh.SkipToRun | common/sogl/world/data/src/chunkMesh.cpp:155-158 | `y += trailing_zeroes(row >> y)` skips only clear bits and lands on a set bit or at 64 |
| GreedyMesh.RunAt | common/sogl/world/data/src/chunkMesh.cpp:160-162 | `h = trailing_ones(row >> y)` at a set bit is the length of the run there: h >= 1, y+h <= 64, bits y..y+h-1 set and bit y+h clear |
| GreedyMesh.ExtendWidth | common/sogl/world/data/src/chunkMesh.cpp:164-172 | widening clears only the run's bits, only in rows row+1..row+w-1, never touches row `row`, and stops at the plane's end or the first row missing part of the run |
| GreedyMesh.MeshRun | common/sogl/world/data/src/chunkMesh.cpp:160-174 | one quad is emitted at the run, the cursor moves past it, and the coverage invariant is kept |
| GreedyMesh.MeshStep | common/sogl/world/data/src/chunkMesh.cpp:154-175 | one pass of the row loop moves the cursor forward and keeps the coverage invariant |
| GreedyMesh.MeshRow | common/sogl/world/data/src/chunkMesh.cpp:152-176 | scanning one row leaves every cell up to that row covered exactly as often as its bit was set |
| GreedyMesh.ExactCoverInside | common/sogl/world/data/src/chunkMesh.cpp:150-177 | a cell any quad covers is inside the plane and was set in the input |
| GreedyMesh.ExactCoverDisjoint | common/sogl/world/data/src/chunkMesh.cpp:150-177 | no two quads cover a common cell |
| GreedyMesh.ExactCoverEmptyIff | common/sogl/world/data/src/chunkMesh.cpp:150-177 | the quad list is empty iff the input plane is all zero |
| HashTables.KeyLength | common/sogl/hashTable.hpp:22-35 | the key ends at the first NUL, or after 0xFFFF bytes; every byte before the end is nonzero |
| HashTables.FindBufferEnd | common/sogl/hashTable.hpp:22-35 | the scanning loop stops at the key's end as KeyLength defines it |
| HashTables.CompareKeys | common/sogl/hashTable.hpp:72-89 | true iff the key lengths are equal and all bytes match |
| Fnv.HashAppend | common/sogl/hashTable.hpp:59-70 | getHash folds byte by byte: the hash of a concatenation continues from the hash of its first part |
| Fnv.HashFrontFirst | common/sogl/hashTable.hpp:59-70 | the hash folds the bytes first to last: the empty string hashes to the offset basis, otherwise the first byte is mixed in first |
| Fnv.HashesOfSingleBytes | common/sogl/structure/Hasher.h:6-16 | the hashes of the one-byte strings 0, 65 ('A') and 97 ('a') |
| HashTables.Home | common/sogl/hashTable.hpp:149-152 | the starting slot, the hash reduced modulo the size, lies in the table |
| HashTables.StartAsWritten | common/sogl/hashTable.hpp:149-152 | as written the probe starts at the full 64-bit hash, below 2^64; reduced modulo any size it is the home slot |
| HashTables.Probe | common/sogl/hashTable.hpp:152-158 | the t-th probe (+1 mod size) lies in the table and returns to the start only after a full wrap |
| HashTables.Dist | common/sogl/hashTable.hpp:152-158 | every slot is reached by exactly one probe step from a given start |
| HashTables.ProbeNext | common/sogl/hashTable.hpp:152-158 | stepping a probe by +1 mod size is the next probe, or the start after the last |
| HashTables.LocateFrom | common/sogl/hashTable.hpp:203-223 | a probe result is a full slot holding the key |
| HashTables.LocateComplete | common/sogl/hashTable.hpp:203-223 | in a table that keeps the probing invariant, the probe from the key's start finds the key iff the table holds it |
| HashTables.LocateNoTombstones | common/sogl/hashTable.hpp:209-220 | without tombstones the probe stops at the first empty slot |
| HashTables.StoredUpdate | common/sogl/hashTable.hpp:160-166 | overwriting a slot removes that slot's entry from the contents and adds the new one |
| HashTables.IntactPlace | common/sogl/hashTable.hpp:152-166 | storing a key in the first non-full slot of its probe sequence keeps the probing invariant |
| HashTables.IntactDelete | common/sogl/hashTable.hpp:177-191 | turning a slot into a tombstone keeps the probing invariant |
| HashTables.Place | common/sogl/hashTable.hpp:149-166 | the probe finds a free slot, stores the key and value there, and adds exactly that entry |
| HashTables.HashTable.Copy | common/sogl/hashTable.hpp:94-111 | the doubled array holds exactly the entries of the old one, each placed by its probe sequence |
| HashTables.HashTable.constructor | common/sogl/hashTable.hpp:123-127 | size 32 below a request of 32, otherwise nextPowTwo(request); the table starts empty |
| HashTables.HashTable.AsWritten | common/sogl/hashTable.hpp:123-127 | as written the array has the requested length, so a request below 32 gives fewer slots than the size |
| HashTables.HashTable.Expand | common/sogl/hashTable.hpp:90-117 | the size doubles, the count and the contents are unchanged, and the probing invariant holds in the new array |
| HashTables.HashTable.Insert | common/sogl/hashTable.hpp:143-169 | the count grows by one and the table doubles when the count reaches the size; the stored key is the bytes before the NUL; the contents gain exactly that key and value, and the key is found afterwards |
| HashTables.HashTable.Store | common/sogl/hashTable.hpp:152-168 | with room left, the key and value are stored without growth and the contents gain exactly that entry |
| HashTables.HashTable.Contains | common/sogl/hashTable.hpp:203-223 | true and the stored value iff the table holds the key; otherwise false and the out-value untouched |
| HashTables.HashTable.Seek | common/sogl/hashTable.hpp:177-198 | the probe loop returns the slot of the key, or none |
| HashTables.HashTable.Remove | common/sogl/hashTable.hpp:171-201 | true iff the key was held: its slot becomes a tombstone, the count drops by one and the contents lose exactly that entry; otherwise nothing changes |
| HashTables.HashTable.RemoveAsWritten | common/sogl/hashTable.hpp:177-191 | as written the slot is emptied outright; the count still matches the contents |
| HashTables.HashTable.SeekAsWritten | common/sogl/hashTable.hpp:177-198 | the probe loop of `remove` as written, in a table without tombstones, finds the key's slot |
| HashTables.StartOutOfRange | common/sogl/hashTable.hpp:149-152 | the unreduced start for the key "A" is far past the 32 slots, while the reduced start is slot 12 |
| HashTables.RemoveLeavesHole | common/sogl/hashTable.hpp:177-191 | with "A" in slot 12 and "a" in slot 13, emptying slot 12 hides "a" from every lookup; a tombstone keeps it found |
| Fnv.Widen | common/sogl/structure/Hasher.h:12 | a signed `char` below 128 widens to itself; from 128 on its upper 56 bits are ones |
| Fnv.FnvHash | common/sogl/structure/Hasher.h:6-16 | the loop over `size` bytes returns the FNV hash of exactly those bytes from the offset basis 0xCBF29CE484222325, prime 0x100000001B3 |
| Fnv.FnvHashAsWritten | common/sogl/structure/Hasher.h:11-13 | as written the loop hashes only the first byte, whatever `size` is |
| Fnv.FirstByteOnly | common/sogl/structure/Hasher.h:11-15 | keys 0 and 256 get the same hash as written and different hashes over all four bytes |
| Dictionaries.KeyBytes | common/sogl/structure/Dictionary.h:43 | a key is hashed over its four bytes |
| Dictionaries.KeyBytesRoundTrip | common/sogl/structure/Dictionary.h:43 | the four bytes read back little-endian give the key, so different keys hash different bytes |
| Dictionaries.KeyHashAsWritten | common/sogl/structure/Hasher.h:11-13 | as written a key's hash is the FNV hash of its low byte alone |
| Dictionaries.Index | common/sogl/structure/Dictionary.h:42-44 | GetIndex lies below the capacity |
| Dictionaries.IndexDouble | common/sogl/structure/Dictionary.h:24-44 | after doubling the capacity a key's bucket is its old bucket or that plus the old capacity |
| Dictionaries.SplitPlaced | common/sogl/structure/Dictionary.h:24-40 | the rehash puts every entry in the bucket its key hashes to under the doubled capacity |
| Dictionaries.SplitBag | common/sogl/structure/Dictionary.h:24-40 | the rehash keeps exactly the entries, as a multiset |
| Dictionaries.Rehash | common/sogl/structure/Dictionary.h:24-40 | the rehash loop computes the split of every bucket into its two halves |
| Dictionaries.Dictionary.constructor | common/sogl/structure/Dictionary.h:49-53 | that many empty buckets and no entry |
| Dictionaries.Dictionary.AsWritten | common/sogl/structure/Dictionary.h:49-53 | the dictionary as written: that many empty buckets, no entry, and the one-byte hash as written |
| Dictionaries.Dictionary.Count | common/sogl/structure/Dictionary.h:47 | the count is the number of entries held |
| Dictionaries.Dictionary.ContainsKey | common/sogl/structure/Dictionary.h:94-103 | corrected lookup: true iff some entry has the key |
| Dictionaries.Dictionary.ContainsKeyAsWritten | common/sogl/structure/Dictionary.h:94-103 | as written: true iff one of the head entries of buckets 0..count-1 has the key |
| Dictionaries.Dictionary.Expand | common/sogl/structure/Dictionary.h:24-40 | with a rehash: capacity doubled, same count and entries, every entry in its key's bucket |
| Dictionaries.Dictionary.ExpandAsWritten | common/sogl/structure/Dictionary.h:24-40 | as written: the old buckets keep their indices and the new ones are empty |
| Dictionaries.Dictionary.Add | common/sogl/structure/Dictionary.h:55-76 | nothing changes when the key is present; otherwise the capacity doubles exactly when the count would exceed it, the entry is added, the count grows by one, and the key is present afterwards |
| Dictionaries.Dictionary.Append | common/sogl/structure/Dictionary.h:62-75 | the entry goes at the end of the chain of its key's bucket, no other bucket changes, the capacity is kept and the count grows by one |
| Dictionaries.Dictionary.AddAsWritten | common/sogl/structure/Dictionary.h:55-76 | as written: heads-only presence test and growth without rehash, then the entry at the end of its bucket's chain, with every other bucket as it was (after any growth) |
| Dictionaries.Dictionary.Remove | common/sogl/structure/Dictionary.h:78-83 | always false, nothing removed |
| Dictionaries.HeadsMissKey | common/sogl/structure/Dictionary.h:94-103 | with the hash as written, after Add(0, v) in 32 buckets the entry sits in bucket 31 and the heads-only test with count 1, which looks at bucket 0, misses it |
| Dictionaries.ExpandMisplaces | common/sogl/structure/Dictionary.h:24-40 | with the hash as written, after growth from 32 to 64 buckets without a rehash, key 65 is still in bucket 12 while GetIndex now says 44 |
| Dictionaries.IndexAsWritten | common/sogl/structure/Dictionary.h:42-44 | with the one-byte hash as written, key 0 goes to bucket 31 of 32 and of 64, key 65 to bucket 12 of 32 and 44 of 64 |
| LinkedLists.Insert | common/sogl/structure/linkedList.h:70-112 | inserting at i puts the item at i, keeps the items before i and shifts the rest by one |
| LinkedLists.Delete | common/sogl/structure/linkedList.h:114-190 | deleting at i drops exactly that item and shifts the rest down |
| LinkedLists.DeleteInsert | common/sogl/structure/linkedList.h:70-190 | deleting what was inserted gives back the list |
| LinkedLists.FirstIndex | common/sogl/structure/linkedList.h:114-155 | the position of the first equal item |
| LinkedLists.DeleteFirstIndex | common/sogl/structure/linkedList.h:114-155 | removing the first equal item removes one occurrence from the multiset of items |
| LinkedLists.InsertedItems | common/sogl/structure/linkedList.h:98-111 | linking a new node after node i-1 inserts its item at position i of the chain |
| LinkedLists.DeletedItems | common/sogl/structure/linkedList.h:176-189 | relinking node i-1 past node i deletes item i of the chain |
| LinkedLists.ChainDropHead | common/sogl/structure/linkedList.h:164-175 | moving the head to head->next drops item 0 |
| LinkedLists.LinkedList.constructor | common/sogl/structure/linkedList.h:28 | an empty list |
| LinkedLists.LinkedList.Size | common/sogl/structure/linkedList.h:34 | the count is the number of items |
| LinkedLists.LinkedList.Last | common/sogl/structure/linkedList.h:35-41 | the tail's item is the last item |
| LinkedLists.LinkedList.Add | common/sogl/structure/linkedList.h:43-62 | the item is appended at the tail and the count grows by one |
| LinkedLists.LinkedList.Emplace | common/sogl/structure/linkedList.h:70-112 | an index at or past the count appends; otherwise the item is inserted at the index (a new head at 0) |
| LinkedLists.LinkedList.EmplaceAsWritten | common/sogl/structure/linkedList.h:70-112 | as written, index count-1 (above 0) appends after the tail instead of inserting before the last item |
| LinkedLists.LinkedList.Remove | common/sogl/structure/linkedList.h:114-155 | true iff the item is present; then exactly its first occurrence is removed, otherwise nothing changes |
| LinkedLists.LinkedList.RemoveAt | common/sogl/structure/linkedList.h:157-190 | true iff the index is below the count; then exactly that item is removed (head->next becomes the head at 0), otherwise nothing changes |
| LinkedLists.LinkedList.RemoveLastAsWritten | common/sogl/structure/linkedList.h:176-189 | as written, removing the last node frees it but leaves `tail` and the previous node's link pointing at it; the count drops by one, and `head` and the next node id are unchanged |
| LinkedLists.LinkedList.RemoveTailItemAsWritten | common/sogl/structure/linkedList.h:135-152 | as written, removing the tail's item unlinks and frees the tail node but leaves `tail` pointing at it; the count drops by one, and `head` and the next node id are unchanged |
| LinkedLists.LinkedList.Clear | common/sogl/structure/linkedList.h:203-219 | the list is empty and every old node is freed |
| LinkedLists.LinkedList.ToArray | common/sogl/structure/linkedList.h:220-235 | the out-array is untouched on an empty list; otherwise a fresh array of the items in list order |
| LinkedLists.LinkedList.Get | common/sogl/structure/linkedList.h:252-262 | corrected indexing: the item at the index |
| LinkedLists.LinkedList.GetAsWritten | common/sogl/structure/linkedList.h:237-262 | as written the pre-increment walk returns the head for index 0 and 1 and item index-1 beyond |
| Queues.Queue.constructor | common/sogl/structure/queue.h:19 | an empty queue |
| Queues.Queue.Empty | common/sogl/structure/queue.h:21-23 | empty iff no item is queued |
| Queues.Queue.Enqueue | common/sogl/structure/queue.h:25-27 | the item joins at the back |
| Queues.Queue.Peek | common/sogl/structure/queue.h:29-36 | false and the out-value untouched when empty; otherwise true and the front item |
| Queues.Queue.Dequeue | common/sogl/structure/queue.h:38-42 | returns the front item and removes it |
| Queues.FirstInFirstOut | common/sogl/structure/queue.h:25-42 | on a new queue, enqueueing `xs` one by one and then dequeueing as many times as `xs` has items returns `xs` in order |
| PriorityQueues.Priorities | common/sogl/structure/priorityQueue.h:39-91 | the priorities of the queued nodes, front first |
| PriorityQueues.PriorityIndexPlacement | common/sogl/structure/priorityQueue.h:39-91 | in an ordered queue the priority index is unique, every entry from it on is strictly behind the new priority (FIFO among equals), and inserting there keeps the queue ordered |
| PriorityQueues.PrioritiesOfInsert | common/sogl/structure/priorityQueue.h:173-176 | inserting a node inserts its priority at the same position of the priority sequence |
| PriorityQueues.FrontIsExtreme | common/sogl/structure/priorityQueue.h:178-191 | the front of an ordered queue has the least priority in ascending mode and the greatest in descending mode |
| PriorityQueues.PriorityQueue.constructor | common/sogl/structure/priorityQueue.h:162-163 | an empty queue of the given mode |
| PriorityQueues.PriorityQueue.Empty | common/sogl/structure/priorityQueue.h:165-167 | empty iff nothing is queued |
| PriorityQueues.PriorityQueue.GetPriorityIndex | common/sogl/structure/priorityQueue.h:39-91 | the result is at most the size, every entry before it may precede the priority and the entry at it may not; 0 on an empty queue |
| PriorityQueues.PriorityQueue.AscendingIndex | common/sogl/structure/priorityQueue.h:48-69 | ascending mode: the position after the last entry with priority <= p |
| PriorityQueues.PriorityQueue.DescendingIndex | common/sogl/structure/priorityQueue.h:71-90 | descending mode: the position after the last entry with priority >= p |
| PriorityQueues.PriorityQueue.Enqueue | common/sogl/structure/priorityQueue.h:173-176 | the node is inserted at its priority index, so the queue grows by one and stays ordered |
| PriorityQueues.PriorityQueue.GetPriorityIndexAsWritten | common/sogl/structure/priorityQueue.h:39-91 | the scans as written, reading through the `operator[]` as written, return the intended priority index shifted: 0 stays 0, any other index moves one entry further on, never past the end |
| PriorityQueues.PriorityQueue.SkipEqualAsWritten | common/sogl/structure/priorityQueue.h:62-68 | the second scan as written, started after entries that all may precede the priority, returns the shifted intended index |
| PriorityQueues.PriorityQueue.EnqueueAsWritten | common/sogl/structure/priorityQueue.h:173-176 | as written the node goes to the shifted intended index through the `emplace` as written, which appends it when that index is count-1 |
| PriorityQueues.EnqueueAsWrittenUnordered | common/sogl/structure/priorityQueue.h:39-176 | priority 2 into ascending [1, 3, 5]: the intended index is 1, the scans as written give 2 = count-1, so the node is appended and [1, 3, 5, 2] is out of order, while inserting at 1 keeps the order; into [1, 3] the scans give 2 and the append is out of order too |
| PriorityQueues.PriorityQueue.Peek | common/sogl/structure/priorityQueue.h:178-185 | false when empty; otherwise the front item, whose priority may precede every queued priority |
| PriorityQueues.PriorityQueue.Dequeue | common/sogl/structure/priorityQueue.h:187-191 | returns the front item, which has the extreme priority, and removes it |
| ArrayLists.ArrayList.constructor | common/sogl/linkedList.hpp:102-117 | `cap` empty nodes chained by next, count 0 |
| ArrayLists.ArrayList.Expand | common/sogl/linkedList.hpp:42-68 | capacity doubled; items and managed flags kept in order, followed by empty nodes |
| ArrayLists.ArrayList.Add | common/sogl/linkedList.hpp:137-165 | the count grows by one, the capacity doubles when the list is full, and the item fills the first empty node |
| ArrayLists.AddedHoldsItem | common/sogl/linkedList.hpp:137-165 | after an add the item is held and one more node is occupied |
| ArrayLists.ArrayList.AddAsWritten | common/sogl/linkedList.hpp:145-160 | as written the filled node is replaced by a node with no next, which cuts the chain |
| ArrayLists.ArrayList.ReplaceNode | common/sogl/linkedList.hpp:152-158 | replacing any node but the last by a fresh node without a next link breaks the chain |
| ArrayLists.ArrayList.Find | common/sogl/linkedList.hpp:83-100 | corrected search: true iff some node holds the item, with the first such node as out-node |
| ArrayLists.ArrayList.FindAsWritten | common/sogl/linkedList.hpp:83-100 | as written the search crashes exactly when, in a non-empty list, it meets an empty node's null item before a node holding the item; otherwise it finds the item iff a compared node holds it, and the walk stops before the last node |
| ArrayLists.MatchBeforeNull | common/sogl/linkedList.hpp:86-96 | a node holding the item with no empty node in front of it is reached without a null dereference |
| ArrayLists.FindHitsHole | common/sogl/linkedList.hpp:86-90 | in a four-node list holding only a, in node 0, `find(z)` dereferences the null item of node 1 |
| ArrayLists.ArrayList.Remove | common/sogl/linkedList.hpp:180-196 | true iff the item is held; then its first node is emptied and the count drops by one, otherwise nothing changes |
| ArrayLists.ArrayList.RemoveAt | common/sogl/linkedList.hpp:210-229 | true iff the index is below the capacity and its node holds an item; then that node is emptied and the count drops by one |
| ArrayLists.ArrayList.RemoveAtAsWritten | common/sogl/linkedList.hpp:210-229 | as written the emptiness test looks at node 0, so emptying an empty node still drops the count |
| ArrayLists.ArrayList.Clear | common/sogl/linkedList.hpp:236-249 | every node emptied and the count 0 |
| ArrayLists.ArrayList.ClearAsWritten | common/sogl/linkedList.hpp:236-249 | as written every node is emptied but the count is kept |
| ArrayLists.ArrayList.Get | common/sogl/linkedList.hpp:251-257 | throws for an index at or past the capacity; otherwise the node's item |
| ArrayLists.OccupiedFull | common/sogl/linkedList.hpp:137-165 | all nodes occupied iff the occupied count equals the capacity |
| RunLength.RunLengthEncoding.Empty | common/sogl/structure/runLengthEncoding.h:30 | no runs and a total length of 0 |
| RunLength.RunLengthEncoding.FromArray | common/sogl/structure/runLengthEncoding.h:31-36 | the runs decode to the array, and adjacent runs differ |
| RunLength.RunLengthEncoding.Add | common/sogl/structure/runLengthEncoding.h:38-46 | the runs decode to the old objects plus the new one; the last run grows or one run is appended; the total counts every object |
| RunLength.AddAsWritten | common/sogl/structure/runLengthEncoding.h:38-45 | as written the runs stand for the old objects plus the new one and at most one run is added, but the total grows by the number of runs added, not by one |
| RunLength.AddAsWrittenUndercounts | common/sogl/structure/runLengthEncoding.h:38-45 | as written, adding x twice stands for two objects but records a total length of 1 |
| RunLength.RunLengthEncoding.Encode | common/sogl/structure/runLengthEncoding.h:48-70 | an empty array changes nothing; otherwise runs decoding to the array, adjacent ones different, are appended and the total grows by its length |
| RunLength.AppendRuns | common/sogl/structure/runLengthEncoding.h:56-69 | the scan emits runs that decode to the array, with adjacent runs different, and adds the array's length to the total |
| RunLength.RunLengthEncoding.EncodeAsWritten | common/sogl/structure/runLengthEncoding.h:48-70 | as written, with the element past the array read: the whole array is encoded only when that element differs from the last; otherwise the last run is lost |
| RunLength.AppendRunsAsWritten | common/sogl/structure/runLengthEncoding.h:56-69 | the scan as written emits the array, or the array without its last run when the element past it equals the last |
| RunLength.SingleRunDropped | common/sogl/structure/runLengthEncoding.h:56-69 | for a one-element array whose next memory equals it, nothing is encoded |
| RunLength.DecodeAppend | common/sogl/structure/runLengthEncoding.h:38-70 | decoding a concatenation of run lists concatenates the decodings |
| RunLength.LastRunStart | common/sogl/structure/runLengthEncoding.h:56-69 | the start of the array's last run: everything from it on equals the last element and the element before it does not |
| RunLength.EmittedBeforePast | common/sogl/structure/runLengthEncoding.h:56-69 | when the scan as written reaches the element past the array, its runs decode to the array if that element differs from the last, and to the array up to its last run otherwise |
| BitStack.ShiftIn | common/sogl/structure/bitSet.h:23-25 | `(bits << 1) \| val` in eight bits: bit 0 is val and every other bit moves up by one |
| BitStack.ShiftOut | common/sogl/structure/bitSet.h:29 | `bits >>= 1`: every bit moves down by one and bit 7 becomes 0 |
| BitStack.PushAsWritten | common/sogl/structure/bitSet.h:23-25 | as written bit 0 becomes the pushed bit, the other bits move up, and the count and size are unchanged |
| BitStack.PopAsWritten | common/sogl/structure/bitSet.h:26-31 | as written nothing changes and false is returned when the count is 0; otherwise bit 0 is returned, the bits move down with bit 7 cleared, and the count is not lowered |
| BitStack.PopAfterPushesAsWritten | common/sogl/structure/bitSet.h:23-31 | as written the count stays 0 through any pushes, so every pop reports false |
| BitStack.BitSet8.constructor | common/sogl/structure/bitSet.h:13-22 | size 4 below a request of 4, otherwise the 8-bit nextPowTwo (0 above 128); the stack starts empty |
| BitStack.BitSet8.Push | common/sogl/structure/bitSet.h:23-25 | the bit becomes the top of the stack and the count grows, up to the eight bits the byte holds |
| BitStack.BitSet8.Pop | common/sogl/structure/bitSet.h:26-31 | false and no change on an empty stack; otherwise the top bit, which leaves the stack |
| BoundedArray.AdmitsOnePastTheEnd | common/sogl/structure/Array.h:28 | the check as written admits exactly the valid indices plus the capacity itself |
| BoundedArray.AdmitsAsWritten | common/sogl/structure/Array.h:28-30 | as written the check admits exactly the indices up to and including the capacity |
| BoundedArray.Admits | common/sogl/structure/Array.h:27-33 | the corrected check admits exactly the indices below the capacity, each of which the check as written admits too |
| BoundedArray.Array.New | common/sogl/structure/Array.h:17-23 | null (the `throw;` that terminates) iff the capacity is below 1; otherwise a fresh array of that length |
| BoundedArray.Array.Init | common/sogl/structure/Array.h:17-23 | a buffer of the given capacity |
| BoundedArray.Array.Length | common/sogl/structure/Array.h:25 | the construction capacity |
| BoundedArray.Array.Get | common/sogl/structure/Array.h:27-33 | the element for an index below the capacity, termination by `throw;` otherwise |
| BoundedArray.Array.Set | common/sogl/structure/Array.h:27-33 | a write through the reference changes exactly that element, or terminates by `throw;` and changes nothing |
| MathUtil.Clamp | common/sogl/mathutil.hpp:10-13 | for min <= max the result is in [min, max] and equals the input inside the range; min below, max above |
| MathUtil.Sign | common/sogl/mathutil.hpp:59 | -1, 0 or 1, and 1 iff positive, -1 iff negative |
| MathUtil.SignTimesValue | common/sogl/mathutil.hpp:59 | sign(i) * i is the absolute value of i |
| MathUtil.CeilPow2 | common/sogl/mathutil.hpp:65-77 | a power of two at least n and below 2n |
| MathUtil.CeilPow2IsLeast | common/sogl/mathutil.hpp:65-77 | no power of two at least n is below it |
| MathUtil.CeilPow2OfPow2 | common/sogl/mathutil.hpp:65-77 | a power of two is its own result |
| MathUtil.NextPowTwo | common/sogl/mathutil.hpp:65-77 | for 1 < n below 2^width the smearing loop and increment return the least power of two >= n, or 0 when that power needs more than `width` bits; `hashTable.hpp` carries an identical copy (lines 8-20), used with width 64 by the hash table's constructor |
| Color32.Default | rendering/color32.hpp:30-35 | (0, 0, 0, 255) |
| Color32.FromRgb | rendering/color32.hpp:38-43 | the given channels with alpha 255 |
| Color32.Color32.constructor | rendering/color32.hpp:45-50 | the given four channels |
| Color32.Saturated | rendering/color32.hpp:59-67 | clamping a byte to [0, 255] changes nothing: the identity |
| Color32.Wrap | rendering/color32.hpp:79-98 | the `uint8_t` conversion: the value itself in range, otherwise congruent modulo 256 |
| Color32.AddAsWritten | rendering/color32.hpp:79-98 | as written each channel is the byte congruent to the channel sum modulo 256 |
| Color32.SubAsWritten | rendering/color32.hpp:123-142 | as written each channel is the byte congruent to the channel difference modulo 256 |
| Color32.SubAssignAsWritten | rendering/color32.hpp:145-162 | as written all four channels hold the red channel of the wrapped difference |
| Color32.Add | rendering/color32.hpp:79-98 | with the clamp applied each channel is its sum clamped to [0, 255] |
| Color32.Sub | rendering/color32.hpp:123-142 | with the clamp applied each channel is its difference clamped to [0, 255] |
| Color32.AddChannel | rendering/color32.hpp:79-98 | corrected channel sum: exact when it fits, 255 otherwise, never below either operand |
| Color32.SubChannel | rendering/color32.hpp:123-142 | corrected channel difference: exact when it is not negative, 0 otherwise, never above the minuend |
| Color32.AddWrapsPastWhite | rendering/color32.hpp:79-98 | as written white + white wraps to (254, 254, 254, 254); the clamped sum is white |
| Color32.SubWrapsBelowBlack | rendering/color32.hpp:123-142 | as written black - white wraps to (1, 1, 1, 0); the clamped difference is (0, 0, 0, 0) |
| Color32.SubAssignUsesRed | rendering/color32.hpp:145-162 | as written white -= blue gives white, as the red difference goes to every channel; the intended result is (255, 255, 0, 0) |
| Color32.ClampedAgreeInRange | rendering/color32.hpp:79-142 | where no channel overflows or underflows, the operators as written and the clamped ones agree |
| Color32.AddSubLaws | rendering/color32.hpp:79-142 | the clamped sum commutes, x - x is zero, and a sum that does not overflow gives back x when y is subtracted |
| Color32.Color32.AddAssignAsWritten | rendering/color32.hpp:102-120 | as written `+=` stores each channel's sum modulo 256, exactly the value `+` as written returns |
| Color32.Color32.AddAssign | rendering/color32.hpp:102-120 | the corrected `+=`: the color becomes the clamped sum |
| Color32.Color32.SubAssign | rendering/color32.hpp:145-162 | the color becomes the clamped difference, channel by channel |
| GLErrors.DescribeAsWritten | common/sogl/rendering/GLError.hpp:13-38 | as written, the text is "UNDEFINED ERROR" iff the code is not one of the five codes from INVALID_ENUM to STACK_UNDERFLOW |
| GLErrors.Describe | common/sogl/rendering/GLError.hpp:13-38 | with breaks, the text is "UNDEFINED ERROR" iff the code is not one of the seven named codes |
| GLErrors.FallThroughHidesTwoCodes | common/sogl/rendering/GLError.hpp:31-36 | as written OUT_OF_MEMORY, INVALID_FRAMEBUFFER_OPERATION and an unknown code get the same text; with breaks they differ |
| GLErrors.DescribeAgreesElsewhere | common/sogl/rendering/GLError.hpp:15-29 | for every other code both switches give the same text |
| GLErrors.DescribeInjective | common/sogl/rendering/GLError.hpp:15-36 | with breaks, different named codes get different texts |
| GLErrors.NewGLErrorAsWritten | common/sogl/rendering/GLError.hpp:13-38 | as written code() returns the constructor argument and what() is undefined iff the code is not one of the five from INVALID_ENUM to STACK_UNDERFLOW; on every code but the two that fall through it is the corrected error |
| GLErrors.NewGLError | common/sogl/rendering/GLError.hpp:13-43 | the corrected constructor, with a `break` after every case: code() returns the constructor argument, and what() is undefined iff the code is not named |
| GLErrors.GoodOnlyWithoutError | common/sogl/rendering/GLError.hpp:40 | good() iff the code is 0, whose text is the undefined one |

## Left out

- Memory release is not modelled. This covers the destructors (`hashTable.hpp:129-142`, `linkedList.hpp:119-126`) and `delete` of unmanaged values in `remove`, `removeAt` and `clear`. The managed flags are kept in the state, but freeing is not.
- `Dictionary::Clear` and `Dictionary::operator[]` are not modelled. `Clear` only deletes bucket heads. `operator[]` returns the head value of the key's bucket under an `assert`.
- `Dictionaries.Dictionary.constructor` requires a capacity of at least 1. A capacity of 0 makes every `GetIndex` divide by zero.
- The dictionary's key type is fixed to `uint32_t`, hashed over its four little-endian bytes.
- `HashTables.HashTable.Contains` does not model the `uint16_t` copy of the start slot (`hashTable.hpp:207`). With more than 65536 slots that copy never matches again, and only an empty slot ends the loop.
- `HashTables.HashTable.constructor` requires a request of at most 2^63. A larger 64-bit request makes `nextPowTwo` wrap to 0.
- HashTables.HashTable.Insert: takes a value, never a null pointer, and the model's probes stop at a slot without a key. `insert` (`hashTable.hpp:143-166`) also accepts `nullptr` as the value. The loop of `contains` (`hashTable.hpp:209`) runs only while the slot's value is not null, so it stops at such a slot. That key is then never found, and the keys probed after it are hidden. `insert(key, nullptr)` and this behaviour of `contains` are not modelled.
- Keys must hold a NUL within the buffer (`0 in buffer`).
- The hash table and the dictionary take the hash function as a constant field. The proofs are generic in it. The constructors set it to the FNV hash of the key; the dictionary's `AsWritten` constructor sets it to the hash as written, of the key's low byte alone.
- The float vertex packing into the GPU mesh (`chunkMesh.cpp:120-127`) is left out. Corners are integer triples.
- The mesher reads voxel types from a cube of side 64. Its calls to `Chunk::getVoxel` with the 16 x 64 x 16 chunk constants are not modelled.
- `runLengthEncoding::writeToFile` (file I/O) is left out. The comparer function is modelled as equality, so the null-comparer early return of the constructor is not modelled.
- `RunLength.RunLengthEncoding.Encode` computes the new runs on local values and installs them at the end. The model does not walk the `linkedList` of nodes.
- `priorityQueue`'s `getPriorityIndex(item, priorityFunc)` and `enqueue(item, priorityFunc)` (`priorityQueue.h:93-160`, `169-172`) are left out. They compare unsigned values against zero.
- The float parts of `color32` are left out: `lerp`, `operator*`, `*=` and the conversion to `color`. `saturate()` is a no-op on bytes and has no state to model.
- `Array`'s static `Length` over a C array (`Array.h:13-15`) is a compile-time size and is not modelled.
- `linkedList.h`'s `contains` and `addRange` (`linkedList.h:64-68`, `192-201`) are not modelled. They are not used by the queues.
- `HashTables.HashTable.Copy` reads the old slots as a sequence snapshot, not through the old array.
- HashTables.HashTable.Expand: does not model that `expand` copies each item shallowly (`hashTable.hpp:110`) and then runs `delete[] data` (`hashTable.hpp:113`), whose `~hashTableItem` (`hashTable.hpp:48-56`) frees every key. As written, every key of a grown table is freed memory, so later lookups read freed keys. The model keeps the keys.
- ArrayLists.ArrayList.constructor: requires a capacity of at least 1. For a capacity of 0 the source writes `m_nodes[0]` (`linkedList.hpp:108`) past a zero-length allocation, which is not modelled.
- ArrayLists.ArrayList.Remove: is the corrected removal, built on the corrected `find`. The `remove` as written calls `find` as written and crashes with it; `ArrayLists.ArrayList.FindAsWritten` states when.
- Counts are unbounded: the 32-bit wrap of `m_count`, `m_capacity` and `m_totalLength` is not modelled.
- `ArrayLists.ArrayList.RemoveAtAsWritten` reads `m_nodes->item` as the item of node 0. `m_nodes` is a `node**`, so the expression as written is ill-formed once `removeAt` is instantiated.
- `LinkedLists.LinkedList.RemoveLastAsWritten` and `LinkedLists.LinkedList.RemoveTailItemAsWritten` state the dangling `tail` only. The later misuse of the freed node is not modelled.

## Findings

| source | as written | input that shows it | evidently intended | confidence | as-written member | corrected member |
|---|---|---|---|---|---|---|
| common/sogl/hashTable.hpp:149-152 | `insert` and `remove` start probing at the unreduced 64-bit hash | key "A" in a new 32-slot table: start far past slot 31 | start at hash % size | high (not executed) | HashTables.StartOutOfRange | HashTables.Home |
| common/sogl/hashTable.hpp:123-127 | the slot array is allocated with the requested length, not the computed size | `hashTable(4)`: size 32, 4 slots | allocate `size` slots | high (not executed) | HashTables.HashTable.AsWritten | HashTables.HashTable.constructor |
| common/sogl/hashTable.hpp:177-191 | `remove` empties the slot, cutting the probe chain of later keys | "A" then "a" in 32 slots (both start at 12); remove "A"; "a" is no longer found | keep a tombstone | high (not executed) | HashTables.RemoveLeavesHole | HashTables.HashTable.Remove |
| common/sogl/structure/Hasher.h:11-13 | the loop runs from `begin` to `begin + 1`, hashing one byte | keys 0 and 256 hash alike | hash all `size` bytes | high (not executed) | Fnv.FirstByteOnly | Fnv.FnvHash |
| common/sogl/structure/Dictionary.h:94-103 | `ContainsKey` compares only the heads of buckets 0..count-1 | Add(0, v) in 32 buckets puts it in bucket 31; with count 1 only bucket 0 is looked at, so a second Add(0, v) adds a duplicate | search the key's bucket chain | high (not executed) | Dictionaries.HeadsMissKey | Dictionaries.Dictionary.ContainsKey |
| common/sogl/structure/Dictionary.h:24-40 | `Expand` copies buckets to the same indices without rehashing | key 65 stays in bucket 12 of 64 but GetIndex gives 44 | rehash every entry | high (not executed) | Dictionaries.ExpandMisplaces | Dictionaries.Dictionary.Expand |
| common/sogl/structure/runLengthEncoding.h:38-45 | `add` extending the last run does not count the object | add(x), add(x): total 1 for two objects | count every added object | high (not executed) | RunLength.AddAsWrittenUndercounts | RunLength.RunLengthEncoding.Add |
| common/sogl/structure/runLengthEncoding.h:56-69 | `encode` reads `objArray[arraySize]` and never emits the pending run | a one-element array whose next memory equals it encodes nothing | stop at the last element and flush the final run | high (not executed) | RunLength.SingleRunDropped | RunLength.RunLengthEncoding.Encode |
| common/sogl/structure/bitSet.h:23-31 | `push` never raises `m_count` and `pop` never lowers it, so `pop` always fails | push(true) then pop() returns false | count the pushed bits | high (not executed) | BitStack.PopAfterPushesAsWritten | BitStack.BitSet8.Push |
| common/sogl/structure/linkedList.h:91-97 | `emplace` at index count-1 links after the tail | emplace(x, 1) on a two-item list appends x | insert before the last item | high (not executed) | LinkedLists.LinkedList.EmplaceAsWritten | LinkedLists.LinkedList.Emplace |
| common/sogl/structure/priorityQueue.h:39-91 | the scans read `m_queue[lastIndex]` through the `operator[]` as written, which returns entry lastIndex-1, so they return the priority index one too far; `emplace` as written then appends at count-1 | priority 2 into ascending [1, 3, 5]: index 2 = count-1, giving [1, 3, 5, 2] | insert at the priority index | high (not executed) | PriorityQueues.EnqueueAsWrittenUnordered | PriorityQueues.PriorityQueue.Enqueue |
| common/sogl/structure/linkedList.h:176-189 | `removeAt` of the last node leaves `tail` at the freed node | removeAt(1) on a two-item list | move `tail` to the previous node | high (not executed) | LinkedLists.LinkedList.RemoveLastAsWritten | LinkedLists.LinkedList.RemoveAt |
| common/sogl/structure/linkedList.h:135-152 | `remove` of the tail's item leaves `tail` at the freed node | remove(y) on [x, y] | move `tail` to the previous node | high (not executed) | LinkedLists.LinkedList.RemoveTailItemAsWritten | LinkedLists.LinkedList.Remove |
| common/sogl/structure/linkedList.h:252-262 | `operator[]` walks with `++current < index` | index 2 returns item 1 | return item `index` | high (not executed) | LinkedLists.LinkedList.GetAsWritten | LinkedLists.LinkedList.Get |
| common/sogl/linkedList.hpp:145-160 | `add` replaces the free node with a node whose `next` is null | add into a two-node list with node 0 free | keep the node's link | high (not executed) | ArrayLists.ArrayList.ReplaceNode | ArrayLists.ArrayList.Add |
| common/sogl/linkedList.hpp:89-96 | `find` stops before examining the last node | a full two-node list holding the item only in node 1: not found | examine every node | high (not executed) | ArrayLists.ArrayList.FindAsWritten | ArrayLists.ArrayList.Find |
| common/sogl/linkedList.hpp:86-90 | `find` (and `remove`, which calls it) dereferences each node's item pointer with no null test | four nodes holding only a, in node 0; `find(z)` dereferences node 1's null item | skip empty nodes | high (not executed) | ArrayLists.FindHitsHole | ArrayLists.ArrayList.Find |
| common/sogl/linkedList.hpp:210-229 | `removeAt` tests node 0 instead of node `index` | removeAt(1) with node 0 full and node 1 empty drops the count | test node `index` | medium (not executed) | ArrayLists.ArrayList.RemoveAtAsWritten | ArrayLists.ArrayList.RemoveAt |
| common/sogl/linkedList.hpp:236-249 | `clear` empties every node but keeps `m_count` | clear() on a one-item list leaves count 1 | reset the count to 0 | high (not executed) | ArrayLists.ArrayList.ClearAsWritten | ArrayLists.ArrayList.Clear |
| common/sogl/structure/Array.h:28 | the check throws only for `index > capacity` | index == capacity reads past the buffer | throw for `index >= capacity` | high (not executed) | BoundedArray.AdmitsOnePastTheEnd | BoundedArray.Array.Get |
| rendering/color32.hpp:79-98 | the clamped sum is discarded and the `uint8_t` conversion wraps | white + white = (254, 254, 254, 254) | saturate at 255 | high (not executed) | Color32.AddWrapsPastWhite | Color32.AddChannel |
| rendering/color32.hpp:102-120 | `+=` discards its clamped sums too and stores the wrapped ones | white += white leaves (254, 254, 254, 254), by `Color32.AddWrapsPastWhite` | saturate at 255 | high (not executed) | Color32.Color32.AddAssignAsWritten | Color32.Color32.AddAssign |
| rendering/color32.hpp:123-142 | the clamped difference is discarded and the conversion wraps | black - white = (1, 1, 1, 0) | saturate at 0 | high (not executed) | Color32.SubWrapsBelowBlack | Color32.SubChannel |
| rendering/color32.hpp:145-162 | `-=` assigns the red difference to all four channels | white -= blue stays white | subtract channel by channel | high (not executed) | Color32.SubAssignUsesRed | Color32.Color32.SubAssign |
| common/sogl/rendering/GLError.hpp:31-36 | two cases fall through to `default` | OUT_OF_MEMORY gives "UNDEFINED ERROR" | a `break` after each case | high (not executed) | GLErrors.FallThroughHidesTwoCodes | GLErrors.DescribeInjective |
| common/sogl/world/data/src/chunk.cpp:98-103 | only the `uint16_t` linear index is range-checked | (16, y, z) returns voxel (0, y+1, z); (65535, 1, 0) passes with index 65551 | check each coordinate | high (not executed) | Chunk.GetVoxelPastEnd | Chunk.GetVoxelCheckedInjective |
| common/sogl/world/data/src/chunkMesh.cpp:54 | the column index is `1 + x + (z+1)*N` | column 0 of each direction is never read; in direction 5 every read with z = 63, and the one with x = 63, z = 62, is past the six mask blocks, in the zero-initialised tail of the `3 * CHUNK_SIZE_3 * 2`-word allocation (line 39), so those columns mesh nothing | index x + z*N | high (not executed) | ChunkMesh.ColIndexAsWrittenIsShifted | ChunkMesh.ColumnIndexBijective |
| common/sogl/world/data/src/chunkMesh.cpp:114 | `AppendVertices` gets the direction index as `axis` instead of the slice | the up face of a voxel in slice 10 is placed at height 2 | pass the slice index | high (not executed) | ChunkMesh.CornersAsWrittenIgnoreSlice | ChunkMesh.QuadCornersSpanFaces |

=== FILE: array.dfy ===
/** `Array<T>`: a heap buffer of fixed capacity with checked indexing.

    The source's checks run `throw;` with no exception being handled, which
    does not raise anything a caller could catch: it calls
    `std::terminate` and the program stops.  The `Thrown` outcome of an
    `Outcome` stands for that termination, and so does the `null` that the
    factory method for the construction returns. */
module BoundedArray {

  datatype Outcome<T> = Ok(value: T) | Thrown

  /** The index check of `operator[]` as written: it throws only for an
      index above the capacity, so the index equal to the capacity passes
      and reads one element past the buffer. */
  function AdmitsAsWritten(index: nat, capacity: nat): (ok: bool)
    ensures ok <==> index <= capacity
  {
    !(index < 0 || index > capacity)
  }

  /** The index check with the bound every index of the buffer obeys; it
      admits nothing the check as written refuses. */
  function Admits(index: nat, capacity: nat): (ok: bool)
    ensures ok <==> index < capacity
    ensures ok ==> AdmitsAsWritten(index, capacity)
  {
    index < capacity
  }

  /** The check as written lets exactly one index outside the buffer through:
      the capacity itself. */
  lemma AdmitsOnePastTheEnd(capacity: nat, index: nat)
    ensures AdmitsAsWritten(index, capacity) <==> Admits(index, capacity) || index == capacity
    ensures AdmitsAsWritten(capacity, capacity) && !Admits(capacity, capacity)
  {
  }

  class Array<T(0)> {
    const capacity: nat
    const values: array<T>

    ghost predicate Valid()
    {
      capacity >= 1 && values.Length == capacity
    }

    constructor Init(capacity: nat)
      requires capacity >= 1
      ensures Valid() && this.capacity == capacity && fresh(values)
    {
      this.capacity := capacity;
      values := new T[capacity];
    }

    /** `Array(capacity)`: throws (here: no array) when the capacity is below 1. */
    static method New(capacity: nat) returns (arr: Array?<T>)
      ensures capacity < 1 <==> arr == null
      ensures arr != null ==> fresh(arr) && fresh(arr.values) && arr.Valid() && arr.Length() == capacity
    {
      if capacity < 1 {
        return null;
      }
      arr := new Array.Init(capacity);
    }

    /** `Length()`: the capacity given at construction. */
    function Length(): (n: nat)
      requires Valid()
      ensures n == values.Length
    {
      capacity
    }

    /** Reading `operator[]`, with the index check every buffer index obeys. */
    method Get(index: nat) returns (r: Outcome<T>)
      requires Valid()
      ensures Admits(index, Length()) ==> r == Ok(values[index])
      ensures !Admits(index, Length()) ==> r == Thrown
    {
      if !Admits(index, capacity) {
        return Thrown;
      }
      return Ok(values[index]);
    }

    /** Writing through `operator[]`, with the same check. */
    method Set(index: nat, item: T) returns (thrown: bool)
      requires Valid()
      modifies values
      ensures thrown <==> !Admits(index, Length())
      ensures !thrown ==> values[..] == old(values[..])[index := item]
      ensures thrown ==> values[..] == old(values[..])
    {
      if !Admits(index, capacity) {
        return true;
      }
      values[index] := item;
      return false;
    }
  }
}

=== FILE: arraylist.dfy ===
/** `sogl::linkedList<T>` of `linkedList.hpp`: an array of `capacity`
    node pointers whose nodes are also chained by `next` in slot order.
    A node holds an item pointer, which may be null (an empty slot), and a
    `managed` flag.

    As in the singly linked list, the node heap is a map from node
    identities to nodes; the slot array `m_nodes` is the array `slots` of
    node identities.  An item pointer is an `Option`: `None` is null and
    `Some(x)` points at a value equal to `x`; comparisons `*item == x`
    compare those values. */
module ArrayLists {
  import opened LinkedLists
  import BoundedArray

  datatype Cell<T> = Cell(item: Option<T>, managed: bool)

  /** A fresh `node()`: no item, not managed. */
  function EmptyCell<T>(): Cell<T>
  {
    Cell(None, false)
  }

  /** The item pointers of the cells. */
  function ItemValues<T>(cells: seq<Cell<T>>): (s: seq<Option<T>>)
    ensures |s| == |cells| && forall k :: 0 <= k < |cells| ==> s[k] == cells[k].item
  {
    seq(|cells|, i requires 0 <= i < |cells| => cells[i].item)
  }

  /** The number of cells that hold an item. */
  function Occupied<T>(cells: seq<Cell<T>>): (n: nat)
    ensures n <= |cells|
  {
    if cells == [] then 0
    else Occupied(cells[..|cells| - 1]) + (if cells[|cells| - 1].item.Some? then 1 else 0)
  }

  /** The position of the first empty cell. */
  function FirstEmpty<T>(cells: seq<Cell<T>>): (i: nat)
    requires exists k :: 0 <= k < |cells| && cells[k].item.None?
    ensures i < |cells| && cells[i].item.None?
    ensures forall k :: 0 <= k < i ==> cells[k].item.Some?
  {
    if cells[0].item.None? then 0
    else
      assert exists k :: 0 <= k < |cells[1..]| && cells[1..][k].item.None? by {
        var k :| 0 <= k < |cells| && cells[k].item.None?;
        assert cells[1..][k - 1] == cells[k];
      }
      1 + FirstEmpty(cells[1..])
  }

  /** Emptying a full cell takes one from the count, filling an empty cell
      adds one. */
  lemma {:induction false} OccupiedUpdate<T>(cells: seq<Cell<T>>, k: nat, c: Cell<T>)
    requires k < |cells|
    ensures Occupied(cells[k := c]) ==
            Occupied(cells) - (if cells[k].item.Some? then 1 else 0) + (if c.item.Some? then 1 else 0)
  {
    var n := |cells| - 1;
    if k < n {
      assert cells[k := c][..n] == cells[..n][k := c];
      OccupiedUpdate(cells[..n], k, c);
    } else {
      assert cells[k := c][..n] == cells[..n];
    }
  }

  /** Every cell is full exactly when the count reaches the length. */
  lemma {:induction false} OccupiedFull<T>(cells: seq<Cell<T>>)
    ensures Occupied(cells) == |cells| <==> forall k :: 0 <= k < |cells| ==> cells[k].item.Some?
  {
    if cells != [] {
      var n := |cells| - 1;
      OccupiedFull(cells[..n]);
      assert forall k :: 0 <= k < n ==> cells[..n][k] == cells[k];
    }
  }

  /** No cell is full exactly when the count is zero. */
  lemma {:induction false} OccupiedNone<T>(cells: seq<Cell<T>>)
    ensures Occupied(cells) == 0 <==> forall k :: 0 <= k < |cells| ==> cells[k].item.None?
  {
    if cells != [] {
      var n := |cells| - 1;
      OccupiedNone(cells[..n]);
      assert forall k :: 0 <= k < n ==> cells[..n][k] == cells[k];
    }
  }

  /** Empty cells appended do not change the count. */
  lemma {:induction false} OccupiedEmptyTail<T>(cells: seq<Cell<T>>, m: nat)
    ensures Occupied(cells + seq(m, _ => EmptyCell())) == Occupied(cells)
  {
    if m > 0 {
      var s := cells + seq(m, _ => EmptyCell());
      assert s[..|s| - 1] == cells + seq(m - 1, _ => EmptyCell());
      OccupiedEmptyTail(cells, m - 1);
    } else {
      assert cells + seq(m, _ => EmptyCell()) == cells;
    }
  }

  /** An empty cell is never marked managed: `remove`, `removeAt` and
      `clear` reset the flag when they empty a cell. */
  predicate Tidy<T>(cells: seq<Cell<T>>)
  {
    forall k :: 0 <= k < |cells| && cells[k].item.None? ==> !cells[k].managed
  }

  lemma TidyEmptyTail<T>(cells: seq<Cell<T>>, m: nat)
    requires Tidy(cells)
    ensures Tidy(cells + seq(m, _ => EmptyCell()))
  {
    var s := cells + seq(m, _ => EmptyCell());
    forall k | 0 <= k < |s| && s[k].item.None?
      ensures !s[k].managed
    {
      if k >= |cells| {
        assert s[k] == EmptyCell();
      }
    }
  }

  /** Fresh empty cells hold no item and are not managed. */
  lemma EmptyCells<T>(m: nat)
    ensures Occupied(seq(m, _ => EmptyCell<T>())) == 0 && Tidy(seq(m, _ => EmptyCell<T>()))
  {
    OccupiedNone(seq(m, _ => EmptyCell<T>()));
    TidyEmptyTail<T>([], m);
    assert [] + seq(m, _ => EmptyCell<T>()) == seq(m, _ => EmptyCell<T>());
  }

  /** The walk of `clear()` empties one more cell. */
  lemma EmptiedOneMore<T>(items: seq<Cell<T>>, cells0: seq<Cell<T>>, k: nat)
    requires k < |cells0| && items == seq(k, _ => EmptyCell()) + cells0[k..]
    ensures items[k := EmptyCell()] == seq(k + 1, _ => EmptyCell()) + cells0[k + 1..]
  {
  }

  /** The cells once `add` has made room: unchanged while some cell is
      empty, otherwise doubled with empty cells. */
  function Grown<T>(cells: seq<Cell<T>>): (g: seq<Cell<T>>)
    requires |cells| >= 1
    ensures exists k :: 0 <= k < |g| && g[k].item.None?
  {
    if exists k :: 0 <= k < |cells| && cells[k].item.None? then cells
    else
      var g := cells + seq(|cells|, _ => EmptyCell());
      assert g[|cells|].item.None?;
      g
  }

  /** What `add(item, isManaged)` leaves in the cells: the first empty cell,
      after making room, takes the item. */
  function Added<T>(cells: seq<Cell<T>>, c: Cell<T>): seq<Cell<T>>
    requires |cells| >= 1
  {
    var g := Grown(cells);
    g[FirstEmpty(g) := c]
  }

  /** An added item can be found again: it is the content of some cell and
      every cell before it is full. */
  lemma AddedHoldsItem<T>(cells: seq<Cell<T>>, x: T, managed: bool)
    requires |cells| >= 1
    ensures var r := Added(cells, Cell(Some(x), managed));
            Some(x) in ItemValues(r) && Occupied(r) == Occupied(cells) + 1
  {
    var c := Cell(Some(x), managed);
    var g := Grown(cells);
    if g != cells {
      OccupiedEmptyTail(cells, |cells|);
    }
    var i := FirstEmpty(g);
    OccupiedUpdate(g, i, c);
    assert ItemValues(g[i := c])[i] == Some(x);
  }

  /** Changing the cell of the node at position `k` of a chain. */
  lemma ChainSetCell<T>(nodes: map<nat, Node<Cell<T>>>, spine: seq<nat>, k: nat, c: Cell<T>)
    requires Chain(nodes, spine) && k < |spine|
    ensures var nodes' := nodes[spine[k] := nodes[spine[k]].(item := c)];
            Chain(nodes', spine) && ItemsOf(nodes', spine) == ItemsOf(nodes, spine)[k := c]
  {
    var nodes' := nodes[spine[k] := nodes[spine[k]].(item := c)];
    forall i | 0 <= i < |spine|
      ensures spine[i] in nodes' && nodes'[spine[i]].next == Link(spine, i + 1)
    {
      assert spine[i] in nodes && nodes[spine[i]].next == Link(spine, i + 1);
    }
  }

  /** The step shared by the constructor and `expand`: a new node for slot
      `i`, linked from the node in slot `i - 1`. */
  method AppendNode<T>(arr: array<nat>, i: nat, nodes: map<nat, Node<Cell<T>>>, nextId: nat, c: Cell<T>)
    returns (nodes': map<nat, Node<Cell<T>>>, nextId': nat)
    requires 0 < i < arr.Length
    requires Chain(nodes, arr[..i]) && forall id :: id in nodes ==> id < nextId
    modifies arr
    ensures arr[..i + 1] == old(arr[..i]) + [nextId]
    ensures Chain(nodes', arr[..i + 1]) && ItemsOf(nodes', arr[..i + 1]) == ItemsOf(nodes, old(arr[..i])) + [c]
    ensures nextId' == nextId + 1 && forall id :: id in nodes' ==> id < nextId'
    ensures forall id :: id in nodes && id != arr[i - 1] ==> id in nodes' && nodes'[id] == nodes[id]
  {
    ghost var spine := arr[..i];
    var previous := arr[i - 1];
    ChainInsert(nodes, spine, i, nextId, c);
    assert spine[..i] + [nextId] + spine[i..] == spine + [nextId];
    assert Insert(ItemsOf(nodes, spine), i, c) == ItemsOf(nodes, spine) + [c];
    arr[i] := nextId;
    nodes' := nodes[previous := nodes[previous].(next := Some(nextId))][nextId := Node(c, None)];
    nextId' := nextId + 1;
    assert arr[..i + 1] == spine + [nextId];
  }

  /** The loop of the constructor: `cap` new empty nodes, each linked from
      the one in the slot before it. */
  method EmptyChain<T>(cap: nat) returns (arr: array<nat>, ns: map<nat, Node<Cell<T>>>, next: nat)
    requires cap >= 1
    ensures fresh(arr) && arr.Length == cap
    ensures Chain(ns, arr[..]) && forall id :: id in ns ==> id < next
    ensures ItemsOf(ns, arr[..]) == seq(cap, _ => EmptyCell())
  {
    arr := new nat[cap];
    arr[0] := 0;
    ns := map[0 := Node(EmptyCell(), None)];
    next := 1;
    var i := 1;
    assert arr[..1] == [0];
    while i < cap
      invariant 1 <= i <= cap
      invariant Chain(ns, arr[..i]) && forall id :: id in ns ==> id < next
      invariant ItemsOf(ns, arr[..i]) == seq(i, _ => EmptyCell())
    {
      ns, next := AppendNode(arr, i, ns, next, EmptyCell());
      i := i + 1;
    }
    assert arr[..] == arr[..cap];
  }

  /** Whether a search that dereferences the items of the first `searched`
      cells in order meets a null item before any cell holding `item`. */
  predicate DerefsNull<T(==)>(cs: seq<Option<T>>, item: T, searched: nat)
  {
    exists j :: 0 <= j < searched && j < |cs| && cs[j] == None && Some(item) !in cs[..j]
  }

  /** A match with no null item in front of it is reached safely. */
  lemma MatchBeforeNull<T>(cs: seq<Option<T>>, item: T, k: nat, searched: nat)
    requires k < |cs| && cs[k] == Some(item)
    requires forall j :: 0 <= j < k ==> cs[j] != None
    ensures !DerefsNull(cs, item, searched)
  {
    forall j | 0 <= j < searched && j < |cs| && cs[j] == None
      ensures Some(item) in cs[..j]
    {
      assert cs[..j][k] == Some(item);
    }
  }

  /** Four slots holding only `a`, in slot 0: a search for any other item
      compares slot 0 and then dereferences the null item of slot 1. */
  lemma FindHitsHole<T>(a: T, z: T)
    requires a != z
    ensures DerefsNull([Some(a), None, None, None], z, 3)
  {
    var cs := [Some(a), None, None, None];
    assert cs[..1] == [Some(a)];
    assert cs[1] == None && Some(z) !in cs[..1];
  }

  class ArrayList<T(==)> {
    var count: int
    var capacity: nat
    var slots: array<nat>
    var nodes: map<nat, Node<Cell<T>>>
    /** The identity the next `new node` receives. */
    var nextId: nat

    /** Every slot names a node of the heap. */
    ghost predicate Placed()
      reads this, slots
    {
      && capacity >= 1 && slots.Length == capacity
      && (forall k :: 0 <= k < slots.Length ==> slots[k] in nodes)
      && (forall id :: id in nodes ==> id < nextId)
    }

    /** The slots hold a chain of `capacity` distinct nodes in slot order. */
    ghost predicate Linked()
      reads this, slots
    {
      Placed() && Chain(nodes, slots[..])
    }

    /** Linked, `m_count` is the number of slots holding an item, and an
        empty slot is never marked managed. */
    ghost predicate Valid()
      reads this, slots
    {
      Linked() && count == Occupied(Cells()) && Tidy(Cells())
    }

    /** The cells of the slots, in slot order. */
    ghost function Cells(): (cells: seq<Cell<T>>)
      reads this, slots
      requires Placed()
      ensures |cells| == capacity
    {
      ItemsOf(nodes, slots[..])
    }

    /** The item pointers of the slots, in slot order. */
    ghost function Contents(): (s: seq<Option<T>>)
      reads this, slots
      requires Placed()
      ensures |s| == capacity
    {
      ItemValues(Cells())
    }

    /** `linkedList(cap)`: `cap` empty nodes chained in slot order. The
        source writes slot 0 before looking at `cap`, so a capacity of at
        least 1 is required. */
    constructor (cap: nat)
      requires cap >= 1
      ensures Valid() && fresh(slots) && capacity == cap && count == 0
      ensures Cells() == seq(cap, _ => EmptyCell())
    {
      var arr, ns, next := EmptyChain<T>(cap);
      EmptyCells<T>(cap);
      capacity := cap;
      count := 0;
      slots := arr;
      nodes := ns;
      nextId := next;
    }

    /** `expand()`: twice the slots; the first half holds copies of the old
        nodes' items and flags, the second half empty nodes, all chained in
        slot order. */
    method Expand()
      requires Valid()
      modifies this
      ensures Valid() && fresh(slots) && capacity == 2 * old(capacity) && count == old(count)
      ensures Cells() == old(Cells()) + seq(old(capacity), _ => EmptyCell())
    {
      ghost var cells0 := Cells();
      var temp, ns, next := CopyChain(slots, nodes, nextId, 2 * capacity);
      ns, next := FillEmpty(temp, capacity, ns, next, cells0);
      OccupiedEmptyTail(cells0, capacity);
      TidyEmptyTail(cells0, capacity);
      Install(temp, ns, next, cells0 + seq(capacity, _ => EmptyCell()));
    }

    /** The new slots and nodes take the place of the old ones. */
    method Install(temp: array<nat>, ns: map<nat, Node<Cell<T>>>, next: nat, ghost cells: seq<Cell<T>>)
      requires temp.Length >= 1 && Chain(ns, temp[..]) && forall id :: id in ns ==> id < next
      requires ItemsOf(ns, temp[..]) == cells && count == Occupied(cells) && Tidy(cells)
      modifies this
      ensures Valid() && slots == temp && capacity == temp.Length && count == old(count)
      ensures Cells() == cells
    {
      slots := temp;
      nodes := ns;
      nextId := next;
      capacity := temp.Length;
    }

    /** The first slot without an item. The source's loop falls through to
        an unreachable `m_count--; return false` when every slot is full;
        `add` has made room before it searches. */
    method FirstEmptySlot() returns (i: nat)
      requires Placed() && exists k :: 0 <= k < capacity && Cells()[k].item.None?
      ensures i == FirstEmpty(Cells())
    {
      i := 0;
      while i < capacity
        invariant 0 <= i <= FirstEmpty(Cells())
      {
        if nodes[slots[i]].item.item.None? {
          assert Cells()[i].item.None?;
          return i;
        }
        assert Cells()[i].item.Some?;
        i := i + 1;
      }
      assert false;
    }

    /** The capacity check of `add`: when the new count would exceed the
        capacity, every node is full and `expand` doubles it. */
    method MakeRoom()
      requires Valid()
      modifies this
      ensures Valid() && count == old(count) && count < capacity
      ensures slots == old(slots) || fresh(slots)
      ensures Cells() == Grown(old(Cells()))
      ensures capacity == if old(count) < old(capacity) then old(capacity) else 2 * old(capacity)
    {
      OccupiedFull(Cells());
      if count + 1 > capacity {
        Expand();
      }
    }

    /** `add(item, isManaged)`: one more item, placed in the first empty
        node, the capacity doubled first when every node is full.  The
        item is stored in that node in place, so the chain is kept. */
    method Add(x: T, managed: bool) returns (added: bool)
      requires Valid()
      modifies this
      ensures Valid() && added && count == old(count) + 1
      ensures Cells() == Added(old(Cells()), Cell(Some(x), managed))
      ensures capacity == if old(count) < old(capacity) then old(capacity) else 2 * old(capacity)
    {
      MakeRoom();
      var i := FirstEmptySlot();
      Occupy(i, Cell(Some(x), managed));
      return true;
    }

    /** The item stored in place in the empty node of slot `i`. */
    method Occupy(i: nat, c: Cell<T>)
      requires Valid() && i < capacity && Cells()[i].item.None? && c.item.Some?
      modifies this
      ensures Valid() && slots == old(slots) && capacity == old(capacity) && count == old(count) + 1
      ensures Cells() == old(Cells())[i := c]
    {
      OccupiedUpdate(Cells(), i, c);
      ChainSetCell(nodes, slots[..], i, c);
      nodes := nodes[slots[i] := nodes[slots[i]].(item := c)];
      count := count + 1;
    }

    /** `add` as written: the empty node found is replaced by a new node
        whose `next` is null, so the chain stops at the new item and every
        later node is cut off from `find` and `clear`. */
    method AddAsWritten(x: T, managed: bool) returns (added: bool)
      requires Valid()
      modifies this, slots
      ensures Placed() && added && count == old(count) + 1
      ensures Cells() == Added(old(Cells()), Cell(Some(x), managed))
      ensures exists i :: 0 <= i < capacity && nodes[slots[i]] == Node(Cell(Some(x), managed), None)
                            && (i + 1 < capacity ==> !Chain(nodes, slots[..]))
    {
      MakeRoom();
      var i := FirstEmptySlot();
      ReplaceNode(i, Cell(Some(x), managed));
      count := count + 1;
      assert 0 <= i < capacity && nodes[slots[i]] == Node(Cell(Some(x), managed), None);
      return true;
    }

    /** `m_nodes[i] = new node(item, isManaged)` and the link from the
        previous node to it. */
    method ReplaceNode(i: nat, c: Cell<T>)
      requires Linked() && i < capacity
      modifies this, slots
      ensures Placed() && capacity == old(capacity) && slots == old(slots) && count == old(count)
      ensures Cells() == old(Cells())[i := c]
      ensures nodes[slots[i]] == Node(c, None)
      ensures i + 1 < capacity ==> !Chain(nodes, slots[..])
    {
      ghost var before := Cells();
      var id := nextId;
      nodes := nodes[id := Node(c, None)];
      if i > 0 {
        var previous := slots[i - 1];
        nodes := nodes[previous := nodes[previous].(next := Some(id))];
      }
      slots[i] := id;
      nextId := nextId + 1;
      assert Cells() == before[i := c] by {
        forall k | 0 <= k < capacity
          ensures Cells()[k] == before[i := c][k]
        {
        }
      }
      assert slots[..][i] == slots[i];
    }

    /** The search of `find(item, outNode)`: the node of the first slot
        holding the item, following the chain; when the list is empty the
        caller's `outNode` is left as it was, otherwise a miss gives null. */
    method Find(item: T, outNode: Option<nat>) returns (found: bool, node: Option<nat>)
      requires Valid()
      ensures found <==> Some(item) in Contents()
      ensures found ==> node == Some(slots[FirstIndex(Contents(), Some(item))])
      ensures !found ==> node == if count == 0 then outNode else None
    {
      if count == 0 {
        OccupiedNone(Cells());
        return false, outNode;
      }
      var cur := slots[0];
      ghost var k := 0;
      while true
        invariant 0 <= k < capacity && cur == slots[k]
        invariant forall j :: 0 <= j < k ==> Contents()[j] != Some(item)
        decreases capacity - k
      {
        if nodes[cur].item.item == Some(item) {
          assert Contents()[k] == Some(item);
          return true, Some(cur);
        }
        assert nodes[slots[..][k]].next == Link(slots[..], k + 1);
        match nodes[cur].next
        case None =>
          break;
        case Some(n) =>
          cur := n;
          k := k + 1;
      }
      return false, None;
    }

    /** The number of slots `find` as written looks at: it compares the
        first node, then every node that has a successor, so the last node
        is compared only when it is also the first. */
    function Searched(): nat
      reads this
    {
      if capacity <= 1 then 1 else capacity - 1
    }

    /** `find(item, outNode)` as written: the loop stops when the current
        node has no successor, before comparing it, and every comparison
        dereferences the node's item pointer without a null test, so the
        first empty slot met before a match crashes the search. */
    method FindAsWritten(item: T, outNode: Option<nat>) returns (crashed: bool, found: bool, node: Option<nat>)
      requires Valid()
      ensures Searched() <= capacity
      ensures crashed <==> count > 0 && DerefsNull(Contents(), item, Searched())
      ensures crashed ==> !found
      ensures !crashed ==> (found <==> Some(item) in Contents()[..Searched()])
      ensures found ==> node == Some(slots[FirstIndex(Contents(), Some(item))])
      ensures !crashed && !found ==> node == if count == 0 then outNode else None
    {
      if count == 0 {
        OccupiedNone(Cells());
        return false, false, outNode;
      }
      var cur := slots[0];
      ghost var k := 0;
      if nodes[cur].item.item == None {
        assert Contents()[0] == None && Contents()[..0] == [];
        return true, false, None;
      }
      if nodes[cur].item.item == Some(item) {
        assert Contents()[0] == Some(item);
        MatchBeforeNull(Contents(), item, 0, Searched());
        return false, true, Some(cur);
      }
      while nodes[cur].next != None
        invariant 0 <= k < capacity && cur == slots[k]
        invariant Contents()[0] != Some(item) && Contents()[0] != None
        invariant forall j :: 0 <= j < k ==> Contents()[j] != Some(item) && Contents()[j] != None
        decreases capacity - k
      {
        assert nodes[slots[..][k]].next == Link(slots[..], k + 1);
        if nodes[cur].item.item == None {
          assert Contents()[k] == None;
          assert Some(item) !in Contents()[..k];
          return true, false, None;
        }
        if nodes[cur].item.item == Some(item) {
          assert Contents()[k] == Some(item);
          MatchBeforeNull(Contents(), item, k, Searched());
          return false, true, Some(cur);
        }
        cur := nodes[cur].next.value;
        k := k + 1;
      }
      assert nodes[slots[..][k]].next == Link(slots[..], k + 1);
      assert Some(item) !in Contents()[..Searched()] by {
        forall j | 0 <= j < Searched()
          ensures Contents()[..Searched()][j] != Some(item)
        {
        }
      }
      assert !DerefsNull(Contents(), item, Searched());
      return false, false, None;
    }

    /** `remove(item)`: the first slot holding the item is emptied and
        unmarked, and the count drops by one; false when no slot holds it. */
    method Remove(item: T) returns (removed: bool)
      requires Valid()
      modifies this
      ensures Valid() && capacity == old(capacity) && slots == old(slots)
      ensures removed <==> Some(item) in old(Contents())
      ensures removed ==> Cells() == old(Cells())[FirstIndex(old(Contents()), Some(item)) := EmptyCell()]
                          && count == old(count) - 1
      ensures !removed ==> Cells() == old(Cells()) && count == old(count)
    {
      var found, n := Find(item, None);
      if found {
        ghost var k := FirstIndex(Contents(), Some(item));
        assert slots[..][k] == n.value;
        Vacate(k, n.value);
      }
      return found;
    }

    /** The node `n` of slot `k` loses its item and its managed mark in place. */
    method Vacate(ghost k: nat, n: nat)
      requires Valid() && k < capacity && slots[k] == n && Cells()[k].item.Some?
      modifies this
      ensures Valid() && capacity == old(capacity) && slots == old(slots) && count == old(count) - 1
      ensures Cells() == old(Cells())[k := EmptyCell()]
    {
      OccupiedUpdate(Cells(), k, EmptyCell());
      ChainSetCell(nodes, slots[..], k, EmptyCell());
      nodes := nodes[n := nodes[n].(item := EmptyCell())];
      count := count - 1;
    }

    /** `removeAt(index)` with the item of the node at `index` checked:
        false on an empty list, an index past the capacity or an empty
        slot; otherwise that slot is emptied and the count drops by one. */
    method RemoveAt(index: nat) returns (removed: bool)
      requires Valid()
      modifies this
      ensures Valid() && capacity == old(capacity) && slots == old(slots)
      ensures removed <==> index < capacity && old(Contents())[index].Some?
      ensures removed ==> Cells() == old(Cells())[index := EmptyCell()] && count == old(count) - 1
      ensures !removed ==> Cells() == old(Cells()) && count == old(count)
    {
      if count <= 0 || index >= capacity {
        OccupiedNone(Cells());
        return false;
      }
      var n := slots[index];
      if nodes[n].item.item.None? {
        return false;
      }
      Vacate(index, n);
      return true;
    }

    /** `removeAt(index)` as written: it tests the item of the first node
        (`m_nodes->item`) instead of the node at `index`, so with an item in
        slot 0 it lowers the count even when slot `index` is empty, and with
        slot 0 empty it removes nothing. */
    method RemoveAtAsWritten(index: nat) returns (removed: bool)
      requires Valid()
      modifies this
      ensures Linked() && capacity == old(capacity) && slots == old(slots)
      ensures removed <==> old(count) > 0 && index < capacity && old(Contents())[0].Some?
      ensures removed ==> Cells() == old(Cells())[index := EmptyCell()] && count == old(count) - 1
      ensures removed && old(Contents())[index].None? ==> count != Occupied(Cells())
      ensures !removed ==> Cells() == old(Cells()) && count == old(count)
    {
      if count <= 0 || index >= capacity {
        return false;
      }
      var n := slots[index];
      if nodes[slots[0]].item.item.None? {
        return false;
      }
      count := count - 1;
      OccupiedUpdate(Cells(), index, EmptyCell());
      ChainSetCell(nodes, slots[..], index, EmptyCell());
      nodes := nodes[n := nodes[n].(item := EmptyCell())];
      return true;
    }

    /** The walk of `clear()`: every node along the chain loses its item
        and its managed mark. */
    method EmptyAll()
      requires Linked()
      modifies this
      ensures Linked() && capacity == old(capacity) && slots == old(slots) && count == old(count)
      ensures Cells() == seq(capacity, _ => EmptyCell())
    {
      ghost var spine := slots[..];
      ghost var cells0 := Cells();
      var ns := nodes;
      var cur := slots[0];
      ghost var k := 0;
      while true
        invariant unchanged(this)
        invariant 0 <= k < |spine| && cur == spine[k]
        invariant Chain(ns, spine) && forall id :: id in ns ==> id in nodes
        invariant ItemsOf(ns, spine) == seq(k, _ => EmptyCell()) + cells0[k..]
        decreases |spine| - k
      {
        ChainSetCell(ns, spine, k, EmptyCell());
        EmptiedOneMore(ItemsOf(ns, spine), cells0, k);
        ns := ns[cur := ns[cur].(item := EmptyCell())];
        match ns[cur].next
        case None =>
          break;
        case Some(n) =>
          cur := n;
          k := k + 1;
      }
      assert k + 1 == |spine|;
      nodes := ns;
    }

    /** `clear()` with the count reset: every slot empty and unmarked, and
        the count zero, so the list is empty and stays consistent. */
    method Clear()
      requires Valid()
      modifies this
      ensures Valid() && capacity == old(capacity) && slots == old(slots) && count == 0
      ensures Cells() == seq(capacity, _ => EmptyCell())
    {
      if count == 0 {
        OccupiedNone(Cells());
        assert Cells() == seq(capacity, _ => EmptyCell());
        return;
      }
      EmptyAll();
      count := 0;
      OccupiedNone(Cells());
    }

    /** `clear()` as written: the items go but `m_count` keeps its value, so
        a list that held items claims to hold them still. */
    method ClearAsWritten()
      requires Valid()
      modifies this
      ensures Linked() && capacity == old(capacity) && slots == old(slots) && count == old(count)
      ensures forall k :: 0 <= k < capacity ==> Contents()[k] == None
      ensures old(count) > 0 ==> count != Occupied(Cells())
    {
      if count == 0 {
        OccupiedNone(Cells());
        return;
      }
      EmptyAll();
      OccupiedNone(Cells());
    }

    /** Reading `operator[](index)`: the item pointer in slot `index`,
        or a `range_error` for an index past the capacity. */
    method Get(index: nat) returns (r: BoundedArray.Outcome<Option<T>>)
      requires Placed()
      ensures index < capacity ==> r == BoundedArray.Ok(Contents()[index])
      ensures index >= capacity ==> r == BoundedArray.Thrown
    {
      if index >= capacity {
        return BoundedArray.Thrown;
      }
      return BoundedArray.Ok(nodes[slots[index]].item.item);
    }
  }

  /** The first loop of `expand()`: a new array of `size` slots whose first
      `source.Length` slots hold new nodes with the items of the old ones. */
  method CopyChain<T>(source: array<nat>, sourceNodes: map<nat, Node<Cell<T>>>, nextId: nat, size: nat)
    returns (temp: array<nat>, ns: map<nat, Node<Cell<T>>>, next: nat)
    requires 1 <= source.Length <= size
    requires Chain(sourceNodes, source[..]) && forall id :: id in sourceNodes ==> id < nextId
    ensures fresh(temp) && temp.Length == size
    ensures Chain(ns, temp[..source.Length]) && ItemsOf(ns, temp[..source.Length]) == ItemsOf(sourceNodes, source[..])
    ensures forall id :: id in ns ==> id < next
  {
    ghost var cells0 := ItemsOf(sourceNodes, source[..]);
    temp := new nat[size];
    ns := sourceNodes[nextId := Node(sourceNodes[source[0]].item, None)];
    temp[0] := nextId;
    next := nextId + 1;
    assert temp[..1] == [nextId];
    var i := 1;
    while i < source.Length
      invariant 1 <= i <= source.Length
      invariant Chain(ns, temp[..i]) && forall id :: id in ns ==> id < next
      invariant ItemsOf(ns, temp[..i]) == cells0[..i]
    {
      var cell := sourceNodes[source[i]].item;
      ns, next := AppendNode(temp, i, ns, next, cell);
      assert cells0[..i + 1] == cells0[..i] + [cell];
      i := i + 1;
    }
    assert cells0[..i] == cells0;
  }

  /** The second loop of `expand()`: empty nodes in the remaining slots. */
  method FillEmpty<T>(temp: array<nat>, from: nat, ns0: map<nat, Node<Cell<T>>>, next0: nat, ghost cells: seq<Cell<T>>)
    returns (ns: map<nat, Node<Cell<T>>>, next: nat)
    requires 1 <= from <= temp.Length
    requires Chain(ns0, temp[..from]) && ItemsOf(ns0, temp[..from]) == cells
    requires forall id :: id in ns0 ==> id < next0
    modifies temp
    ensures Chain(ns, temp[..]) && ItemsOf(ns, temp[..]) == cells + seq(temp.Length - from, _ => EmptyCell())
    ensures forall id :: id in ns ==> id < next
  {
    ns, next := ns0, next0;
    var i := from;
    while i < temp.Length
      invariant from <= i <= temp.Length
      invariant Chain(ns, temp[..i]) && forall id :: id in ns ==> id < next
      invariant ItemsOf(ns, temp[..i]) == cells + seq(i - from, _ => EmptyCell())
    {
      ns, next := AppendNode(temp, i, ns, next, EmptyCell());
      assert seq(i + 1 - from, _ => EmptyCell<T>()) == seq(i - from, _ => EmptyCell<T>()) + [EmptyCell()];
      i := i + 1;
    }
    assert temp[..] == temp[..i];
  }
}

=== FILE: bits.dfy ===
/** 64-bit machine words and the trailing-bit counters of bitmanip.hpp.

    A word is modelled as its 64 bits, least significant first: bit `k` of a
    `uint64_t` value is `w[k]`.  The C++ operators the mesher applies to words
    (`>>`, `<<`, `&`, `|`, `~`, `x - 1`, `(1 << h) - 1`) are functions here with
    the meaning they have on `uint64_t`: shifts bring in zero bits and drop the
    bits that leave the word. */
module Bits {
  import MathUtil

  const WIDTH: nat := 64

  type Word = w: seq<bool> | |w| == WIDTH witness seq(WIDTH, _ => false)

  /** `0` */
  function Zero(): (r: Word)
    ensures forall k :: 0 <= k < WIDTH ==> !r[k]
  {
    seq(WIDTH, _ => false)
  }

  /** `~0ull` */
  function Ones(): (r: Word)
    ensures forall k :: 0 <= k < WIDTH ==> r[k]
  {
    seq(WIDTH, _ => true)
  }

  /** `~a` */
  function Not(a: Word): (r: Word)
    ensures forall k :: 0 <= k < WIDTH ==> r[k] == !a[k]
  {
    seq(WIDTH, k requires 0 <= k < WIDTH => !a[k])
  }

  /** `a & b` */
  function And(a: Word, b: Word): (r: Word)
    ensures forall k :: 0 <= k < WIDTH ==> r[k] == (a[k] && b[k])
  {
    seq(WIDTH, k requires 0 <= k < WIDTH => a[k] && b[k])
  }

  /** `a | b` */
  function Or(a: Word, b: Word): (r: Word)
    ensures forall k :: 0 <= k < WIDTH ==> r[k] == (a[k] || b[k])
  {
    seq(WIDTH, k requires 0 <= k < WIDTH => a[k] || b[k])
  }

  /** `a >> s` for a shift amount below the word width: bit k of the result
      is bit k + s of `a`, and the top s bits are zero. */
  function Shr(a: Word, s: nat): (r: Word)
    requires s < WIDTH
    ensures forall k :: 0 <= k < WIDTH ==> r[k] == (k + s < WIDTH && a[k + s])
  {
    seq(WIDTH, k requires 0 <= k < WIDTH => k + s < WIDTH && a[k + s])
  }

  /** `a << s` for a shift amount below the word width: bit k of the result
      is bit k - s of `a`, and the low s bits are zero. */
  function Shl(a: Word, s: nat): (r: Word)
    requires s < WIDTH
    ensures forall k :: 0 <= k < WIDTH ==> r[k] == (s <= k && a[k - s])
  {
    seq(WIDTH, k requires 0 <= k < WIDTH => s <= k && a[k - s])
  }

  /** `1ull << k`: the word whose only set bit is bit k. */
  function Single(k: nat): (r: Word)
    requires k < WIDTH
    ensures forall j :: 0 <= j < WIDTH ==> r[j] == (j == k)
  {
    seq(WIDTH, j requires 0 <= j < WIDTH => j == k)
  }

  /** The run mask of chunkMesh.cpp: `(1 << h) - 1` when h < 64 and `~0`
      when h = 64, i.e. the word whose set bits are exactly bits 0 .. h-1. */
  function LowMask(h: nat): (r: Word)
    requires h <= WIDTH
    ensures forall k :: 0 <= k < WIDTH ==> r[k] == (k < h)
  {
    seq(WIDTH, k requires 0 <= k < WIDTH => k < h)
  }

  // ---------------------------------------------------------------------
  // Trailing-bit counts (the specification of bitmanip.hpp)

  /** Number of zero bits of `w` at positions i, i+1, ... before the first
      set bit (or the end of the word). */
  function ZerosFrom(w: Word, i: nat): (n: nat)
    requires i <= WIDTH
    ensures i <= n <= WIDTH
    ensures forall j :: i <= j < n ==> !w[j]
    ensures n < WIDTH ==> w[n]
    decreases WIDTH - i
  {
    if i == WIDTH then WIDTH
    else if w[i] then i
    else ZerosFrom(w, i + 1)
  }

  /** The number of trailing zero bits of `w`: 64 for the zero word,
      otherwise the position of its lowest set bit. */
  function Tz(w: Word): (n: nat)
    ensures n <= WIDTH
    ensures forall j :: 0 <= j < n ==> !w[j]
    ensures n < WIDTH ==> w[n]
  {
    ZerosFrom(w, 0)
  }

  /** Number of set bits of `w` at positions i, i+1, ... before the first
      clear bit (or the end of the word). */
  function OnesFrom(w: Word, i: nat): (n: nat)
    requires i <= WIDTH
    ensures i <= n <= WIDTH
    ensures forall j :: i <= j < n ==> w[j]
    ensures n < WIDTH ==> !w[n]
    decreases WIDTH - i
  {
    if i == WIDTH then WIDTH
    else if !w[i] then i
    else OnesFrom(w, i + 1)
  }

  /** The number of trailing one bits of `w`. */
  function To(w: Word): (n: nat)
    ensures n <= WIDTH
    ensures forall j :: 0 <= j < n ==> w[j]
    ensures n < WIDTH ==> !w[n]
  {
    OnesFrom(w, 0)
  }

  /** The two clauses of Tz's contract single out one count. */
  lemma TzUnique(w: Word, n: nat)
    requires n <= WIDTH
    requires forall j :: 0 <= j < n ==> !w[j]
    requires n < WIDTH ==> w[n]
    ensures n == Tz(w)
  {
    var t := Tz(w);
  }

  /** The two clauses of To's contract single out one count. */
  lemma ToUnique(w: Word, n: nat)
    requires n <= WIDTH
    requires forall j :: 0 <= j < n ==> w[j]
    requires n < WIDTH ==> !w[n]
    ensures n == To(w)
  {
    var t := To(w);
  }

  /** trailing_zeroes(0) = 64 and trailing_ones(0) = 0; trailing_ones(~0) = 64. */
  lemma CountsOfConstants()
    ensures Tz(Zero()) == WIDTH
    ensures To(Zero()) == 0
    ensures To(Ones()) == WIDTH
    ensures Tz(Ones()) == 0
  {
  }

  /** trailing_ones(v) = trailing_zeroes(~v). */
  lemma {:induction false} OnesAreZerosOfComplement(w: Word, i: nat)
    requires i <= WIDTH
    ensures OnesFrom(w, i) == ZerosFrom(Not(w), i)
    decreases WIDTH - i
  {
    if i < WIDTH && w[i] {
      OnesAreZerosOfComplement(w, i + 1);
    }
  }

  lemma TrailingOnesIsTrailingZerosOfNot(w: Word)
    ensures To(w) == Tz(Not(w))
  {
    OnesAreZerosOfComplement(w, 0);
  }

  /** A word with no set bit is the zero word. */
  lemma NoBitsIsZero(w: Word)
    requires Tz(w) == WIDTH
    ensures w == Zero()
  {
  }

  /** `x - 1` (mod 2^64): the bits below the lowest set bit become ones, the
      lowest set bit becomes zero and the rest are kept; `0 - 1` is `~0`. */
  function Dec(w: Word): (r: Word)
  {
    var t := Tz(w);
    seq(WIDTH, k requires 0 <= k < WIDTH => if k < t then true else if k == t then false else w[k])
  }

  /** The number bits `i ..` of `w` stand for, bit `i` being the units. */
  function NumberFrom(w: seq<bool>, i: nat): (v: nat)
    requires i <= |w|
    ensures v < MathUtil.Pow2(|w| - i)
    decreases |w| - i
  {
    if i == |w| then 0 else (if w[i] then 1 else 0) + 2 * NumberFrom(w, i + 1)
  }

  /** The `uint64_t` value of a word. */
  function Number(w: Word): nat
  {
    NumberFrom(w, 0)
  }

  /** Words that agree from bit `i` on stand for the same number there. */
  lemma {:induction false} NumberFromSame(a: Word, b: Word, i: nat)
    requires i <= WIDTH
    requires forall k :: i <= k < WIDTH ==> a[k] == b[k]
    ensures NumberFrom(a, i) == NumberFrom(b, i)
    decreases WIDTH - i
  {
    if i < WIDTH {
      NumberFromSame(a, b, i + 1);
    }
  }

  /** Bits `i ..` all set stand for 2^(64 - i) - 1. */
  lemma {:induction false} NumberFromOnes(w: Word, i: nat)
    requires i <= WIDTH
    requires forall k :: i <= k < WIDTH ==> w[k]
    ensures NumberFrom(w, i) == MathUtil.Pow2(WIDTH - i) - 1
    decreases WIDTH - i
  {
    if i < WIDTH {
      NumberFromOnes(w, i + 1);
    }
  }

  /** From any bit at or below the lowest set bit, `Dec` stands for one less. */
  lemma {:induction false} NumberFromDec(w: Word, i: nat)
    requires i <= Tz(w) < WIDTH
    ensures NumberFrom(Dec(w), i) + 1 == NumberFrom(w, i)
    decreases WIDTH - i
  {
    if i < Tz(w) {
      NumberFromDec(w, i + 1);
    } else {
      NumberFromSame(Dec(w), w, i + 1);
    }
  }

  /** `Dec` is `x - 1` on `uint64_t`, subtraction of one modulo 2^64: one
      less for a non-zero word, and 2^64 - 1 for zero. */
  lemma DecSubtractsOne(w: Word)
    ensures Number(w) > 0 ==> Number(Dec(w)) == Number(w) - 1
    ensures Number(w) == 0 ==> Number(Dec(w)) == MathUtil.Pow2(WIDTH) - 1
  {
    if Tz(w) == WIDTH {
      NoBitsIsZero(w);
      NumberFromOnes(Dec(w), 0);
      NumberFromSame(w, Zero(), 0);
      NumberFromZero(0);
    } else {
      NumberFromDec(w, 0);
    }
  }

  /** The zero word stands for 0. */
  lemma {:induction false} NumberFromZero(i: nat)
    requires i <= WIDTH
    ensures NumberFrom(Zero(), i) == 0
    decreases WIDTH - i
  {
    if i < WIDTH {
      NumberFromZero(i + 1);
    }
  }

  /** `x & (x - 1)` clears exactly the lowest set bit of a non-zero word. */
  lemma ClearLowestBit(w: Word)
    requires w != Zero()
    ensures Tz(w) < WIDTH
    ensures forall k :: 0 <= k < WIDTH ==> And(w, Dec(w))[k] == (w[k] && k != Tz(w))
  {
    if Tz(w) == WIDTH {
      NoBitsIsZero(w);
    }
  }

  // ---------------------------------------------------------------------
  // The loops of bitmanip.hpp

  /** bitmanip.hpp trailing_zeroes: counts zero bits from bit 0 upwards and
      stops at the first set bit. */
  method TrailingZeroes(value: Word) returns (bits: nat)
    ensures bits <= WIDTH
    ensures forall j :: 0 <= j < bits ==> !value[j]
    ensures bits < WIDTH ==> value[bits]
    ensures bits == Tz(value)
  {
    bits := 0;
    var i := 0;
    while i < WIDTH
      invariant 0 <= i <= WIDTH
      invariant bits == i
      invariant forall j :: 0 <= j < i ==> !value[j]
    {
      if !value[i] {
        bits := bits + 1;
      } else {
        break;
      }
      i := i + 1;
    }
    TzUnique(value, bits);
  }

  /** bitmanip.hpp trailing_ones: counts set bits from bit 0 upwards and
      stops at the first clear bit. */
  method TrailingOnes(value: Word) returns (bits: nat)
    ensures bits <= WIDTH
    ensures forall j :: 0 <= j < bits ==> value[j]
    ensures bits < WIDTH ==> !value[bits]
    ensures bits == To(value)
  {
    bits := 0;
    var i := 0;
    while i < WIDTH
      invariant 0 <= i <= WIDTH
      invariant bits == i
      invariant forall j :: 0 <= j < i ==> value[j]
    {
      if value[i] {
        bits := bits + 1;
      } else {
        break;
      }
      i := i + 1;
    }
    ToUnique(value, bits);
  }
}

=== FILE: bitset.dfy ===
/** `bitSet8_t`: a stack of single bits kept in one `uint8_t`.

    The byte `m_start` is modelled as its eight bits, least significant
    first; `push` shifts it left and puts the new bit in bit 0, `pop` takes
    bit 0 and shifts right.  The top of the stack is bit 0. */
module BitStack {
  import MathUtil

  type Byte = x: nat | x < 256

  const BITS: nat := 8

  type Bits8 = s: seq<bool> | |s| == BITS witness seq(BITS, _ => false)

  /** `(m_start << 1) | val`, truncated to eight bits. */
  function ShiftIn(start: Bits8, val: bool): (r: Bits8)
    ensures r[0] == val
    ensures forall k :: 1 <= k < BITS ==> r[k] == start[k - 1]
  {
    [val] + start[..BITS - 1]
  }

  /** `m_start >>= 1` */
  function ShiftOut(start: Bits8): (r: Bits8)
    ensures forall k :: 0 <= k < BITS - 1 ==> r[k] == start[k + 1]
    ensures !r[BITS - 1]
  {
    start[1..] + [false]
  }

  /** The three fields as the source keeps them. */
  datatype BitSetFields = BitSetFields(size: Byte, count: Byte, start: Bits8)

  /** `push` as written: the bit is shifted in but `m_count` is left alone. */
  function PushAsWritten(s: BitSetFields, val: bool): (r: BitSetFields)
    ensures r.count == s.count && r.size == s.size
    ensures r.start[0] == val
    ensures forall k :: 1 <= k < BITS ==> r.start[k] == s.start[k - 1]
  {
    s.(start := ShiftIn(s.start, val))
  }

  /** `pop` as written: nothing while `m_count` is 0, else bit 0 shifted
      out; `m_count` is not lowered either. */
  function PopAsWritten(s: BitSetFields): (r: (bool, BitSetFields))
    ensures s.count == 0 ==> r == (false, s)
    ensures s.count != 0 ==> r.0 == s.start[0] && r.1.count == s.count && r.1.size == s.size
    ensures s.count != 0 ==> !r.1.start[BITS - 1] &&
                             forall k :: 0 <= k < BITS - 1 ==> r.1.start[k] == s.start[k + 1]
  {
    if s.count == 0 then (false, s) else (s.start[0], s.(start := ShiftOut(s.start)))
  }

  /** As written, `m_count` starts at 0 and nothing raises it, so every
      `pop` after any number of pushes reports false: a pushed `true` is
      never returned. */
  lemma {:induction false} PopAfterPushesAsWritten(s: BitSetFields, pushed: seq<bool>)
    requires s.count == 0
    ensures PushAll(s, pushed).count == 0
    ensures PopAsWritten(PushAll(s, pushed)).0 == false
  {
    if pushed != [] {
      PopAfterPushesAsWritten(s, pushed[..|pushed| - 1]);
    }
  }

  function PushAll(s: BitSetFields, pushed: seq<bool>): BitSetFields
  {
    if pushed == [] then s else PushAsWritten(PushAll(s, pushed[..|pushed| - 1]), pushed[|pushed| - 1])
  }

  /** The bit stack with `push` counting the bits it holds (at most the
      eight the byte can keep). */
  class BitSet8 {
    var size: Byte
    var count: nat
    var start: Bits8

    ghost predicate Valid()
      reads this
    {
      count <= BITS
    }

    /** The bits on the stack, top first. */
    ghost function Contents(): seq<bool>
      reads this
      requires Valid()
    {
      start[..count]
    }

    /** `bitSet8_t(startingSize)`: the size is 4 for a request below 4 and
        otherwise the 8-bit `nextPowTwo` of the request, which wraps to 0
        above 128; the stack starts empty. */
    constructor (startingSize: Byte)
      ensures Valid() && Contents() == []
      ensures startingSize < 4 ==> size == 4
      ensures 4 <= startingSize <= 128 ==> size == MathUtil.CeilPow2(startingSize)
      ensures startingSize > 128 ==> size == 0
    {
      if startingSize < 4 {
        size := 4;
      } else {
        assert MathUtil.Pow2(8) == 256;
        var s := MathUtil.NextPowTwo(startingSize, 8);
        assert MathUtil.Pow2(7) == 128;
        size := s;
      }
      count := 0;
      start := seq(BITS, _ => false);
    }

    /** `push(val)`: `val` becomes the top; when eight bits are already held
        the bottom one is lost. */
    method Push(val: bool)
      requires Valid()
      modifies this
      ensures Valid() && size == old(size)
      ensures count == if old(count) < BITS then old(count) + 1 else BITS
      ensures Contents() == ([val] + old(Contents()))[..count]
    {
      start := ShiftIn(start, val);
      if count < BITS {
        count := count + 1;
      }
    }

    /** `pop()`: false and no change on an empty stack; otherwise the top
        bit, which leaves the stack. */
    method Pop() returns (hasBit: bool)
      requires Valid()
      modifies this
      ensures Valid() && size == old(size)
      ensures old(count) == 0 ==> !hasBit && count == 0 && start == old(start)
      ensures old(count) > 0 ==> hasBit == old(Contents())[0] && Contents() == old(Contents())[1..]
    {
      if count == 0 {
        return false;
      }
      hasBit := start[0];
      start := ShiftOut(start);
      count := count - 1;
    }
  }
}

=== FILE: chunk.dfy ===
/** Voxel storage of one chunk (chunk.h, chunk.cpp): voxel types, the
    linear index of a voxel and the bounds-checked lookup. */
module Chunk {

  /** `uint8_t` */
  type Byte = x: int | 0 <= x < 256

  /** `uint16_t` */
  type U16 = x: int | 0 <= x < 0x1_0000

  /** Conversion of an `int` to `uint16_t` (reduction modulo 2^16). */
  function ToU16(i: int): (r: U16)
    ensures r % 0x1_0000 == i % 0x1_0000
  {
    i % 0x1_0000
  }

  // voxelType, stored in one byte
  const AIR: Byte := 0
  const STONE: Byte := 1
  const DIRT: Byte := 2
  const GRASS: Byte := 3
  const COBBLESTONE: Byte := 4

  const CHUNK_SIZE_X: nat := 16
  const CHUNK_SIZE_Y: nat := 64
  const CHUNK_SIZE_Z: nat := 16
  const VOXEL_COUNT: nat := CHUNK_SIZE_X * CHUNK_SIZE_Y * CHUNK_SIZE_Z

  datatype Option<T> = None | Some(value: T)

  /** A `voxel*`: None is the null pointer, Some(i) points at element i. */
  type VoxelRef = Option<int>

  /** The `int` index getVoxel computes: z * X * Y + y * X + x. */
  function LinearIndex(x: U16, y: U16, z: U16): int
  {
    z * CHUNK_SIZE_X * CHUNK_SIZE_Y + y * CHUNK_SIZE_X + x
  }

  /** indexInRange: its parameter is a `uint16_t`, so the `int` index is
      truncated to 16 bits before it is compared with the voxel count. */
  predicate IndexInRange(index: int)
  {
    ToU16(index) < VOXEL_COUNT
  }

  /** getVoxel: null (None) when the voxel array is null or when the
      truncated index is out of range, otherwise the element at the
      untruncated index (Some(index)). */
  function GetVoxel(hasVoxels: bool, x: U16, y: U16, z: U16): (r: Option<int>)
    ensures !hasVoxels ==> r == None
    ensures hasVoxels ==> (r == None <==> ToU16(LinearIndex(x, y, z)) >= VOXEL_COUNT)
    ensures r.Some? ==> r.value == LinearIndex(x, y, z) && 0 <= r.value
  {
    if !hasVoxels then None
    else
      var index := LinearIndex(x, y, z);
      if !IndexInRange(index) then None else Some(index)
  }

  /** The coordinates of the voxel stored at a linear index. */
  function CoordsOf(i: nat): (c: (U16, U16, U16))
    requires i < VOXEL_COUNT
    ensures c.0 < CHUNK_SIZE_X && c.1 < CHUNK_SIZE_Y && c.2 < CHUNK_SIZE_Z
  {
    (i % CHUNK_SIZE_X, (i / CHUNK_SIZE_X) % CHUNK_SIZE_Y, i / (CHUNK_SIZE_X * CHUNK_SIZE_Y))
  }

  /** Inside the 16 x 64 x 16 box, getVoxel finds the voxel at
      z*X*Y + y*X + x, and that index is read back into the same coordinates. */
  lemma GetVoxelInBox(x: U16, y: U16, z: U16)
    requires x < CHUNK_SIZE_X && y < CHUNK_SIZE_Y && z < CHUNK_SIZE_Z
    ensures GetVoxel(true, x, y, z) == Some(LinearIndex(x, y, z))
    ensures 0 <= LinearIndex(x, y, z) < VOXEL_COUNT
    ensures CoordsOf(LinearIndex(x, y, z)) == (x, y, z)
  {
    var i := LinearIndex(x, y, z);
    assert i == x + 16 * y + 1024 * z;
    assert i % 16 == x && i / 16 == y + 64 * z;
    assert (i / 16) % 64 == y;
    assert i / 1024 == z;
  }

  /** The range check looks at the linear index only: one step past the end
      of a row in x lands on the first voxel of the next row. */
  lemma RowAliasing(y: U16, z: U16)
    requires y + 1 < CHUNK_SIZE_Y && z < CHUNK_SIZE_Z
    ensures GetVoxel(true, CHUNK_SIZE_X, y, z) == GetVoxel(true, 0, y + 1, z)
    ensures GetVoxel(true, CHUNK_SIZE_X, y, z).Some?
  {
  }

  /** getVoxelNeighbours: false (and the out-array untouched) when the centre
      voxel is null; otherwise a fresh array of the six neighbour lookups in
      the order +x, -x, +y, -y, +z, -z, each coordinate computed in `int`
      and passed back as `uint16_t`. */
  method GetVoxelNeighbours(hasVoxels: bool, x: U16, y: U16, z: U16, outNeighbours: array?<VoxelRef>)
    returns (ok: bool, neighbours: array?<VoxelRef>)
    ensures ok <==> GetVoxel(hasVoxels, x, y, z).Some?
    ensures !ok ==> neighbours == outNeighbours
    ensures ok ==> neighbours != null && fresh(neighbours) && neighbours.Length == 6
    ensures ok ==> neighbours[..] == NeighbourLookups(hasVoxels, x, y, z)
  {
    var v := GetVoxel(hasVoxels, x, y, z);
    if v == None {
      return false, outNeighbours;
    }
    neighbours := new VoxelRef[6];
    neighbours[0] := GetVoxel(hasVoxels, ToU16(x + 1), y, z);
    neighbours[1] := GetVoxel(hasVoxels, ToU16(x - 1), y, z);
    neighbours[2] := GetVoxel(hasVoxels, x, ToU16(y + 1), z);
    neighbours[3] := GetVoxel(hasVoxels, x, ToU16(y - 1), z);
    neighbours[4] := GetVoxel(hasVoxels, x, y, ToU16(z + 1));
    neighbours[5] := GetVoxel(hasVoxels, x, y, ToU16(z - 1));
    ok := true;
  }

  /** The six lookups getVoxelNeighbours performs, in its order. */
  function NeighbourLookups(hasVoxels: bool, x: U16, y: U16, z: U16): seq<VoxelRef>
  {
    [GetVoxel(hasVoxels, ToU16(x + 1), y, z), GetVoxel(hasVoxels, ToU16(x - 1), y, z),
     GetVoxel(hasVoxels, x, ToU16(y + 1), z), GetVoxel(hasVoxels, x, ToU16(y - 1), z),
     GetVoxel(hasVoxels, x, y, ToU16(z + 1)), GetVoxel(hasVoxels, x, y, ToU16(z - 1))]
  }

  /** For a voxel strictly inside the box, the six neighbours are the voxels
      one step away along each axis: their indices differ from the centre's
      by +-1, +-X and +-X*Y. */
  lemma InteriorNeighbours(x: U16, y: U16, z: U16)
    requires 0 < x < CHUNK_SIZE_X - 1 && 0 < y < CHUNK_SIZE_Y - 1 && 0 < z < CHUNK_SIZE_Z - 1
    ensures var i := LinearIndex(x, y, z);
      NeighbourLookups(true, x, y, z)
        == [Some(i + 1), Some(i - 1),
            Some(i + CHUNK_SIZE_X), Some(i - CHUNK_SIZE_X),
            Some(i + CHUNK_SIZE_X * CHUNK_SIZE_Y), Some(i - CHUNK_SIZE_X * CHUNK_SIZE_Y)]
  {
    assert ToU16(x + 1) == x + 1 && ToU16(x - 1) == x - 1;
    assert ToU16(y + 1) == y + 1 && ToU16(y - 1) == y - 1;
    assert ToU16(z + 1) == z + 1 && ToU16(z - 1) == z - 1;
    GetVoxelInBox(x + 1, y, z);
    GetVoxelInBox(x - 1, y, z);
    GetVoxelInBox(x, y + 1, z);
    GetVoxelInBox(x, y - 1, z);
    GetVoxelInBox(x, y, z + 1);
    GetVoxelInBox(x, y, z - 1);
  }

  // ---------------------------------------------------------------------
  // Finding: the range check admits indices past the end of the array.

  /** As written, a coordinate whose linear index exceeds 2^16 passes the
      truncated range check and getVoxel hands out an element beyond the
      16384-voxel array: x = 65535 (what `x - 1` becomes at x = 0) with
      y = 1 gives index 65551, truncated to 15. */
  lemma GetVoxelPastEnd()
    ensures GetVoxel(true, 0xFFFF, 1, 0) == Some(65551)
    ensures 65551 >= VOXEL_COUNT
  {
  }

  /** The evidently intended lookup: null unless every coordinate is inside
      the chunk, as getVoxel's callers assume. */
  function GetVoxelChecked(hasVoxels: bool, x: U16, y: U16, z: U16): (r: Option<int>)
    ensures r.Some? <==> hasVoxels && x < CHUNK_SIZE_X && y < CHUNK_SIZE_Y && z < CHUNK_SIZE_Z
    ensures r.Some? ==> 0 <= r.value < VOXEL_COUNT && CoordsOf(r.value) == (x, y, z)
  {
    if hasVoxels && x < CHUNK_SIZE_X && y < CHUNK_SIZE_Y && z < CHUNK_SIZE_Z then
      GetVoxelInBox(x, y, z);
      Some(LinearIndex(x, y, z))
    else None
  }

  /** The checked lookup never aliases: distinct coordinates find distinct voxels. */
  lemma GetVoxelCheckedInjective(x: U16, y: U16, z: U16, x': U16, y': U16, z': U16)
    requires GetVoxelChecked(true, x, y, z).Some?
    requires GetVoxelChecked(true, x, y, z) == GetVoxelChecked(true, x', y', z')
    ensures x == x' && y == y' && z == z'
  {
    var i := GetVoxelChecked(true, x, y, z).value;
    assert CoordsOf(i) == (x, y, z) == (x', y', z');
  }
}

=== FILE: color32.dfy ===
/** `color32`: a colour of four 8-bit channels.

    The value operators (`operator+`, `operator-`, `saturated`) build new
    colours and are functions on `Rgba`; the compound assignments (`+=`,
    `-=`) update the four fields of a colour in place and are methods of
    the class `Color32`.  Each channel is a `uint8_t`: a value stored into
    it is reduced modulo 256, which `Wrap` writes out. */
module Color32 {
  import MathUtil

  type Byte = x: int | 0 <= x < 256

  datatype Rgba = Rgba(r: Byte, g: Byte, b: Byte, a: Byte)

  /** The conversion of an integer to `uint8_t`. */
  function Wrap(x: int): (r: Byte)
    ensures 0 <= x < 256 ==> r == x
    ensures (r - x) % 256 == 0
  {
    x % 256
  }

  /** `color32()`: black with full alpha. */
  function Default(): (c: Rgba)
    ensures c.r == 0 && c.g == 0 && c.b == 0 && c.a == 255
  {
    Rgba(0, 0, 0, 255)
  }

  /** `color32(r, g, b)`: the three channels given, full alpha. */
  function FromRgb(r: Byte, g: Byte, b: Byte): (c: Rgba)
    ensures c.r == r && c.g == g && c.b == b && c.a == 255
  {
    Rgba(r, g, b, 255)
  }

  /** `saturated()`: each channel clamped to [0, 255], which leaves a byte
      as it is. */
  function Saturated(c: Rgba): (s: Rgba)
    ensures s == c
  {
    Rgba(MathUtil.Clamp(c.r, 0, 255), MathUtil.Clamp(c.g, 0, 255),
         MathUtil.Clamp(c.b, 0, 255), MathUtil.Clamp(c.a, 0, 255))
  }

  /** Byte `s` is what a `uint8_t` holds after being assigned `v`: the one
      byte congruent to `v` modulo 256. */
  predicate Wrapped(v: int, s: Byte)
  {
    (s - v) % 256 == 0
  }

  /** Byte `s` is `v` clamped to [0, 255]. */
  predicate Clamped(v: int, s: Byte)
  {
    if v < 0 then s == 0 else if v > 255 then s == 255 else s == v
  }

  /** `operator+` as written: the channel sums are formed in 16 bits, the
      results of the four `clamp` calls are discarded, and the sums are cast
      back to 8 bits, so each channel is its sum modulo 256. */
  function AddAsWritten(x: Rgba, y: Rgba): (c: Rgba)
    ensures Wrapped(x.r + y.r, c.r) && Wrapped(x.g + y.g, c.g)
    ensures Wrapped(x.b + y.b, c.b) && Wrapped(x.a + y.a, c.a)
  {
    Rgba(Wrap(x.r + y.r), Wrap(x.g + y.g), Wrap(x.b + y.b), Wrap(x.a + y.a))
  }

  /** `operator-` as written: the differences go through `int8_t`, the
      `clamp` results are discarded, and the cast to 8 bits wraps them, so
      each channel is its difference modulo 256. */
  function SubAsWritten(x: Rgba, y: Rgba): (c: Rgba)
    ensures Wrapped(x.r - y.r, c.r) && Wrapped(x.g - y.g, c.g)
    ensures Wrapped(x.b - y.b, c.b) && Wrapped(x.a - y.a, c.a)
  {
    Rgba(Wrap(x.r - y.r), Wrap(x.g - y.g), Wrap(x.b - y.b), Wrap(x.a - y.a))
  }

  /** `operator-=` as written: all four channels receive the red difference. */
  function SubAssignAsWritten(x: Rgba, y: Rgba): (c: Rgba)
    ensures c.g == c.r && c.b == c.r && c.a == c.r
    ensures c == SubAsWritten(x, y).(g := c.r, b := c.r, a := c.r)
  {
    var d := Wrap(x.r - y.r);
    Rgba(d, d, d, d)
  }

  /** A channel sum clamped to 255, as the comment on `operator+` promises. */
  function AddChannel(p: Byte, q: Byte): (s: Byte)
    ensures s == p + q || (s == 255 && p + q > 255)
    ensures p <= s && q <= s
  {
    MathUtil.Clamp(p + q, 0, 255)
  }

  /** A channel difference clamped to 0, as the comment on `operator-` promises. */
  function SubChannel(p: Byte, q: Byte): (s: Byte)
    ensures s == p - q || (s == 0 && p < q)
    ensures s <= p
  {
    MathUtil.Clamp(p - q, 0, 255)
  }

  /** `operator+` with the clamp applied: each channel is its sum clamped
      to 255. */
  function Add(x: Rgba, y: Rgba): (c: Rgba)
    ensures Clamped(x.r + y.r, c.r) && Clamped(x.g + y.g, c.g)
    ensures Clamped(x.b + y.b, c.b) && Clamped(x.a + y.a, c.a)
  {
    Rgba(AddChannel(x.r, y.r), AddChannel(x.g, y.g), AddChannel(x.b, y.b), AddChannel(x.a, y.a))
  }

  /** `operator-` with the clamp applied: each channel is its difference
      clamped to 0. */
  function Sub(x: Rgba, y: Rgba): (c: Rgba)
    ensures Clamped(x.r - y.r, c.r) && Clamped(x.g - y.g, c.g)
    ensures Clamped(x.b - y.b, c.b) && Clamped(x.a - y.a, c.a)
  {
    Rgba(SubChannel(x.r, y.r), SubChannel(x.g, y.g), SubChannel(x.b, y.b), SubChannel(x.a, y.a))
  }

  /** As written, white plus white wraps to (254, 254, 254, 254); clamped,
      it stays white. */
  lemma AddWrapsPastWhite()
    ensures AddAsWritten(FromRgb(255, 255, 255), FromRgb(255, 255, 255)) == Rgba(254, 254, 254, 254)
    ensures Add(FromRgb(255, 255, 255), FromRgb(255, 255, 255)) == FromRgb(255, 255, 255)
  {
    assert Wrap(510) == 254;
  }

  /** As written, black minus white wraps to (1, 1, 1, 0); clamped, it is
      transparent black. */
  lemma SubWrapsBelowBlack()
    ensures SubAsWritten(Default(), FromRgb(255, 255, 255)) == Rgba(1, 1, 1, 0)
    ensures Sub(Default(), FromRgb(255, 255, 255)) == Rgba(0, 0, 0, 0)
  {
    assert Wrap(-255) == 1;
  }

  /** As written, white minus opaque blue copies the red difference 255
      into every channel and leaves opaque white; channel by channel the
      result is transparent yellow. */
  lemma SubAssignUsesRed()
    ensures SubAssignAsWritten(FromRgb(255, 255, 255), FromRgb(0, 0, 255)) == Rgba(255, 255, 255, 255)
    ensures Sub(FromRgb(255, 255, 255), FromRgb(0, 0, 255)) == Rgba(255, 255, 0, 0)
  {
  }

  /** The clamped operators agree with the ones as written whenever no
      channel leaves [0, 255]. */
  lemma ClampedAgreeInRange(x: Rgba, y: Rgba)
    ensures (x.r + y.r < 256 && x.g + y.g < 256 && x.b + y.b < 256 && x.a + y.a < 256)
            ==> Add(x, y) == AddAsWritten(x, y)
    ensures (y.r <= x.r && y.g <= x.g && y.b <= x.b && y.a <= x.a)
            ==> Sub(x, y) == SubAsWritten(x, y)
  {
  }

  /** Adding clamps at 255 and is commutative; subtracting clamps at 0 and
      undoes an addition that did not clamp. */
  lemma AddSubLaws(x: Rgba, y: Rgba)
    ensures Add(x, y) == Add(y, x)
    ensures Sub(x, x) == Rgba(0, 0, 0, 0)
    ensures (x.r + y.r < 256 && x.g + y.g < 256 && x.b + y.b < 256 && x.a + y.a < 256)
            ==> Sub(Add(x, y), y) == x
  {
  }

  /** A colour whose channels the compound assignments update in place. */
  class Color32 {
    var r: Byte
    var g: Byte
    var b: Byte
    var a: Byte

    function Value(): Rgba
      reads this
    {
      Rgba(r, g, b, a)
    }

    /** `color32(r, g, b, a)` */
    constructor (r: Byte, g: Byte, b: Byte, a: Byte)
      ensures Value() == Rgba(r, g, b, a)
    {
      this.r := r;
      this.g := g;
      this.b := b;
      this.a := a;
    }

    /** `operator+=` as written: as in `operator+`, the results of the
        `clamp` calls are discarded, so each channel takes its 16-bit sum
        cast back to 8 bits. */
    method AddAssignAsWritten(col: Rgba)
      modifies this
      ensures Value() == AddAsWritten(old(Value()), col)
    {
      var r16 := r + col.r;
      var g16 := g + col.g;
      var b16 := b + col.b;
      var a16 := a + col.a;
      r := Wrap(r16);
      g := Wrap(g16);
      b := Wrap(b16);
      a := Wrap(a16);
    }

    /** `operator+=` with the clamp applied. */
    method AddAssign(col: Rgba)
      modifies this
      ensures Value() == Add(old(Value()), col)
    {
      var r16 := r + col.r;
      var g16 := g + col.g;
      var b16 := b + col.b;
      var a16 := a + col.a;
      r := MathUtil.Clamp(r16, 0, 255);
      g := MathUtil.Clamp(g16, 0, 255);
      b := MathUtil.Clamp(b16, 0, 255);
      a := MathUtil.Clamp(a16, 0, 255);
    }

    /** `operator-=` with the clamp applied and each channel assigned its
        own difference. */
    method SubAssign(col: Rgba)
      modifies this
      ensures Value() == Sub(old(Value()), col)
    {
      var rSigned := r - col.r;
      var gSigned := g - col.g;
      var bSigned := b - col.b;
      var aSigned := a - col.a;
      r := MathUtil.Clamp(rSigned, 0, 255);
      g := MathUtil.Clamp(gSigned, 0, 255);
      b := MathUtil.Clamp(bSigned, 0, 255);
      a := MathUtil.Clamp(aSigned, 0, 255);
    }
  }
}

=== FILE: dictionary.dfy ===
/** `sogl::Dictionary<TKey, TValue>`: an array of `m_capacity` buckets,
    each a chain of key/value entries, indexed by the FNV hash of the key's
    bytes modulo the capacity.

    The key type is a 32-bit unsigned integer, hashed over its four bytes
    as they lie in memory (least significant first); each bucket's chain
    of `KeyValuePair` nodes is the sequence of its entries, head first. */
module Dictionaries {
  import Fnv
  import MathUtil

  type Key = x: nat | x < 0x1_0000_0000

  datatype Entry<V> = Entry(key: Key, value: V)

  type Bucket<V> = seq<Entry<V>>

  /** The bytes of a key in memory, least significant first. */
  function KeyBytes(key: Key): (bytes: seq<Fnv.Byte>)
    ensures |bytes| == 4
  {
    [key % 256, key / 256 % 256, key / 256 / 256 % 256, key / 256 / 256 / 256]
  }

  /** The bytes of a key, read back as a little-endian number, give the
      key, so different keys have different bytes. */
  lemma KeyBytesRoundTrip(key: Key)
    ensures var b := KeyBytes(key); b[0] as int + 256 * (b[1] as int + 256 * (b[2] as int + 256 * b[3] as int)) == key
  {
    var q1 := key / 256;
    var q2 := q1 / 256;
    assert key == key % 256 + 256 * q1;
    assert q1 == q1 % 256 + 256 * q2;
    assert q2 == q2 % 256 + 256 * (q2 / 256);
  }

  /** The 64-bit FNV hash of the key's bytes, as a number. */
  function KeyHash(key: Key): nat
  {
    Fnv.Hash(KeyBytes(key)) as nat
  }

  /** The hash `GetIndex` gets from `Hasher::FNVHash` as written, which
      reads only the key's first byte in memory, its low byte. */
  function KeyHashAsWritten(key: Key): (h: nat)
    ensures h == Fnv.Hash([key % 256]) as nat
  {
    assert KeyBytes(key)[..1] == [key % 256];
    Fnv.Hash(KeyBytes(key)[..1]) as nat
  }

  /** `GetIndex(key)`: the key's hash modulo the capacity.  The bucket
      arithmetic below holds for any hash function, so it takes the hash
      as a parameter: `KeyHash` for the dictionary, `KeyHashAsWritten`
      for the dictionary as written. */
  function Index(hash: Key -> nat, key: Key, capacity: nat): (i: nat)
    requires capacity >= 1
    ensures i < capacity
  {
    hash(key) % capacity
  }

  /** All entries of all buckets. */
  ghost function Bag<V>(buckets: seq<Bucket<V>>): multiset<Entry<V>>
  {
    if buckets == [] then multiset{}
    else Bag(buckets[..|buckets| - 1]) + multiset(buckets[|buckets| - 1])
  }

  /** An entry is in the dictionary exactly when some bucket holds it. */
  lemma {:induction false} BagMember<V>(buckets: seq<Bucket<V>>, e: Entry<V>)
    ensures e in Bag(buckets) <==> exists b :: 0 <= b < |buckets| && e in buckets[b]
  {
    if buckets != [] {
      var n := |buckets| - 1;
      BagMember(buckets[..n], e);
      if e in Bag(buckets[..n]) {
        var b :| 0 <= b < n && e in buckets[..n][b];
        assert e in buckets[b];
      }
      if exists b :: 0 <= b < |buckets| && e in buckets[b] {
        var b :| 0 <= b < |buckets| && e in buckets[b];
        if b < n {
          assert e in buckets[..n][b];
        }
      }
    }
  }

  /** Appending an entry to one bucket adds exactly that entry. */
  lemma {:induction false} BagAppendTo<V>(buckets: seq<Bucket<V>>, b: nat, e: Entry<V>)
    requires b < |buckets|
    ensures Bag(buckets[b := buckets[b] + [e]]) == Bag(buckets) + multiset{e}
  {
    var n := |buckets| - 1;
    var updated := buckets[b := buckets[b] + [e]];
    if b < n {
      assert updated[..n] == buckets[..n][b := buckets[..n][b] + [e]];
      BagAppendTo(buckets[..n], b, e);
    } else {
      assert updated[..n] == buckets[..n];
    }
  }

  /** The entries of two runs of buckets together. */
  lemma {:induction false} BagConcat<V>(xs: seq<Bucket<V>>, ys: seq<Bucket<V>>)
    ensures Bag(xs + ys) == Bag(xs) + Bag(ys)
  {
    if ys == [] {
      assert xs + ys == xs;
    } else {
      var n := |ys| - 1;
      assert (xs + ys)[..|xs + ys| - 1] == xs + ys[..n];
      BagConcat(xs, ys[..n]);
    }
  }

  /** `n` buckets with null heads. */
  function NoBuckets<V>(n: nat): (r: seq<Bucket<V>>)
    ensures |r| == n && forall b :: 0 <= b < n ==> r[b] == []
  {
    seq(n, _ => [])
  }

  /** Empty buckets hold no entries. */
  lemma {:induction false} BagEmpty<V>(n: nat)
    ensures Bag(NoBuckets<V>(n)) == multiset{}
  {
    if n > 0 {
      assert NoBuckets<V>(n)[..n - 1] == NoBuckets<V>(n - 1);
      BagEmpty<V>(n - 1);
    }
  }

  /** Two rows of buckets whose buckets together hold, position by
      position, the buckets of a third row hold its entries. */
  lemma {:induction false} BagPairwise<V>(xs: seq<Bucket<V>>, ys: seq<Bucket<V>>, zs: seq<Bucket<V>>)
    requires |xs| == |ys| == |zs|
    requires forall i :: 0 <= i < |zs| ==> multiset(xs[i]) + multiset(ys[i]) == multiset(zs[i])
    ensures Bag(xs) + Bag(ys) == Bag(zs)
  {
    if zs != [] {
      var n := |zs| - 1;
      BagPairwise(xs[..n], ys[..n], zs[..n]);
      assert Bag(xs) == Bag(xs[..n]) + multiset(xs[n]);
      assert Bag(ys) == Bag(ys[..n]) + multiset(ys[n]);
      assert Bag(zs) == Bag(zs[..n]) + multiset(zs[n]);
      Regroup(Bag(xs[..n]), multiset(xs[n]), Bag(ys[..n]), multiset(ys[n]));
    }
  }

  lemma Regroup<T>(a: multiset<T>, b: multiset<T>, c: multiset<T>, d: multiset<T>)
    ensures (a + b) + (c + d) == (a + c) + (b + d)
  {
    forall e
      ensures ((a + b) + (c + d))[e] == ((a + c) + (b + d))[e]
    {
    }
  }

  /** Every entry sits in the bucket its key hashes to. */
  ghost predicate Placed<V>(buckets: seq<Bucket<V>>, hash: Key -> nat)
  {
    forall b, j :: 0 <= b < |buckets| && 0 <= j < |buckets[b]| ==> Index(hash, buckets[b][j].key, |buckets|) == b
  }

  /** Appending an entry to the bucket its key hashes to keeps every entry
      in place. */
  lemma PlacedAppend<V>(buckets: seq<Bucket<V>>, hash: Key -> nat, b: nat, e: Entry<V>)
    requires Placed(buckets, hash) && b < |buckets| && Index(hash, e.key, |buckets|) == b
    ensures Placed(buckets[b := buckets[b] + [e]], hash)
  {
  }

  /** Buckets that are all empty but one, which holds a single entry that
      hashes to it. */
  lemma SinglePlaced<V>(n: nat, hash: Key -> nat, b: nat, e: Entry<V>)
    requires b < n && Index(hash, e.key, n) == b
    ensures Placed(NoBuckets<V>(n)[b := [e]], hash)
  {
    var buckets: seq<Bucket<V>> := NoBuckets<V>(n)[b := [e]];
    forall b', j | 0 <= b' < n && 0 <= j < |buckets[b']|
      ensures Index(hash, buckets[b'][j].key, n) == b'
    {
      assert b' == b;
    }
  }

  /** Some entry of the dictionary has the key. */
  ghost predicate HasKey<V>(buckets: seq<Bucket<V>>, key: Key)
  {
    exists e :: e in Bag(buckets) && e.key == key
  }

  /** What `ContainsKey` as written inspects: the head entries of the first
      `n` buckets. */
  ghost predicate HeadsHold<V>(buckets: seq<Bucket<V>>, n: nat, key: Key)
    requires n <= |buckets|
  {
    exists i :: 0 <= i < n && buckets[i] != [] && buckets[i][0].key == key
  }

  /** The entries of `chain` whose key hashes to bucket `target` of `capacity`. */
  function Keep<V>(chain: Bucket<V>, target: nat, capacity: nat, hash: Key -> nat): (r: Bucket<V>)
    requires capacity >= 1
    ensures forall j :: 0 <= j < |r| ==> Index(hash, r[j].key, capacity) == target
  {
    if chain == [] then []
    else
      var rest := Keep(chain[1..], target, capacity, hash);
      if Index(hash, chain[0].key, capacity) == target then [chain[0]] + rest else rest
  }

  /** Doubling the modulus keeps a residue or moves it up by the old modulus. */
  lemma ModDouble(h: nat, c: nat)
    requires c >= 1
    ensures h % (2 * c) == h % c || h % (2 * c) == h % c + c
  {
    var q, r := MathUtil.DivideWithRemainder(h, 2 * c);
    HalveQuotient(h, c, q, r);
    if r < c {
      MathUtil.ModUnique(h, c, 2 * q, r);
    } else {
      MathUtil.ModUnique(h, c, 2 * q + 1, r - c);
    }
  }

  lemma HalveQuotient(h: nat, c: nat, q: nat, r: nat)
    requires h == (2 * c) * q + r
    ensures h == (2 * q) * c + r && h == (2 * q + 1) * c + (r - c)
  {
    assert (2 * c) * q == (2 * q) * c;
    assert (2 * q + 1) * c == (2 * q) * c + c;
  }

  /** A key of bucket `i` of `c` goes to bucket `i` or `i + c` of `2c`. */
  lemma IndexDouble(hash: Key -> nat, key: Key, c: nat)
    requires c >= 1
    ensures Index(hash, key, 2 * c) == Index(hash, key, c) || Index(hash, key, 2 * c) == Index(hash, key, c) + c
  {
    ModDouble(hash(key), c);
  }

  /** Splitting a bucket between its two successors loses and duplicates
      nothing. */
  lemma {:induction false} KeepSplit<V>(chain: Bucket<V>, i: nat, c: nat, hash: Key -> nat)
    requires c >= 1
    requires forall j :: 0 <= j < |chain| ==> Index(hash, chain[j].key, c) == i
    ensures multiset(Keep(chain, i, 2 * c, hash)) + multiset(Keep(chain, i + c, 2 * c, hash)) == multiset(chain)
  {
    if chain != [] {
      var e, rest := chain[0], chain[1..];
      IndexDouble(hash, e.key, c);
      KeepSplit(rest, i, c, hash);
      assert chain == [e] + rest;
      assert multiset(chain) == multiset{e} + multiset(rest);
    }
  }

  /** The old bucket whose entries may move to bucket `b` of `2c`. */
  function Origin(b: nat, c: nat): nat
  {
    if b < c then b else b - c
  }

  /** The buckets after a rehashing `Expand`: bucket `b` of `2c` takes the
      entries of its origin bucket that hash to it. */
  function Split<V>(buckets: seq<Bucket<V>>, hash: Key -> nat): (r: seq<Bucket<V>>)
    requires |buckets| >= 1
    ensures |r| == 2 * |buckets|
  {
    var c := |buckets|;
    seq(2 * c, b requires 0 <= b < 2 * c => Keep(buckets[Origin(b, c)], b, 2 * c, hash))
  }

  /** Rehashing into twice the buckets places each entry in the bucket
      its key hashes to. */
  lemma SplitPlaced<V>(buckets: seq<Bucket<V>>, hash: Key -> nat)
    requires |buckets| >= 1
    ensures Placed(Split(buckets, hash), hash)
  {
    var s: seq<Bucket<V>> := Split(buckets, hash);
    forall b, j | 0 <= b < |s| && 0 <= j < |s[b]|
      ensures Index(hash, s[b][j].key, |s|) == b
    {
      assert s[b] == Keep(buckets[Origin(b, |buckets|)], b, |s|, hash);
    }
  }

  /** Rehashing into twice the buckets keeps every entry exactly once. */
  lemma SplitBag<V>(buckets: seq<Bucket<V>>, hash: Key -> nat)
    requires |buckets| >= 1 && Placed(buckets, hash)
    ensures Bag(Split(buckets, hash)) == Bag(buckets)
  {
    var c := |buckets|;
    var s: seq<Bucket<V>> := Split(buckets, hash);
    var lows, highs := s[..c], s[c..];
    assert s == lows + highs;
    BagConcat(lows, highs);
    forall i | 0 <= i < c
      ensures multiset(lows[i]) + multiset(highs[i]) == multiset(buckets[i])
    {
      SliceAt(s, c, i);
      SplitPair(buckets, hash, i);
    }
    BagPairwise(lows, highs, buckets);
  }

  lemma SliceAt<T>(s: seq<T>, c: nat, i: nat)
    requires i < c <= |s| && i + c < |s|
    ensures s[..c][i] == s[i] && s[c..][i] == s[i + c]
  {
  }

  /** Old bucket `i` is divided between new buckets `i` and `i + c`. */
  lemma SplitPair<V>(buckets: seq<Bucket<V>>, hash: Key -> nat, i: nat)
    requires |buckets| >= 1 && Placed(buckets, hash) && i < |buckets|
    ensures var s := Split(buckets, hash);
            multiset(s[i]) + multiset(s[i + |buckets|]) == multiset(buckets[i])
  {
    var c := |buckets|;
    assert Origin(i + c, c) == i;
    KeepSplit(buckets[i], i, c, hash);
  }

  /** The loop of a rehashing `Expand`: bucket by bucket, each old chain
      is divided between its two successors. */
  method Rehash<V>(source: seq<Bucket<V>>, hash: Key -> nat) returns (temp: seq<Bucket<V>>)
    requires |source| >= 1
    ensures temp == Split(source, hash)
  {
    var c := |source|;
    temp := NoBuckets(2 * c);
    var i := 0;
    while i < c
      invariant 0 <= i <= c && |temp| == 2 * c
      invariant forall b :: 0 <= b < 2 * c ==> temp[b] == if Origin(b, c) < i then Split(source, hash)[b] else []
    {
      temp := temp[i := Keep(source[i], i, 2 * c, hash)][i + c := Keep(source[i], i + c, 2 * c, hash)];
      i := i + 1;
    }
  }

  class Dictionary<V> {
    var buckets: seq<Bucket<V>>
    var count: nat
    var capacity: nat
    /** The hash `GetIndex` applies to a key. */
    const hash: Key -> nat

    /** The shape every operation relies on: one bucket per unit of
        capacity, and no more entries counted than buckets. */
    ghost predicate Shaped()
      reads this
    {
      capacity >= 1 && |buckets| == capacity && count <= capacity
    }

    /** Shaped, every entry in its key's bucket, and `m_count` the number
        of entries. */
    ghost predicate Valid()
      reads this
    {
      Shaped() && Placed(buckets, hash) && count == |Bag(buckets)|
    }

    /** `Dictionary(initialCapacity)`: that many empty buckets.  A capacity
        of 0 would make every `GetIndex` divide by zero. */
    constructor (initialCapacity: nat)
      requires initialCapacity >= 1
      ensures Valid() && capacity == initialCapacity && Bag(buckets) == multiset{}
      ensures hash == KeyHash
    {
      hash := KeyHash;
      buckets := NoBuckets(initialCapacity);
      capacity := initialCapacity;
      count := 0;
      BagEmpty<V>(initialCapacity);
    }

    /** `Dictionary(initialCapacity)` as written: the same empty buckets,
        indexed by the hash of the key's first byte only. */
    constructor AsWritten(initialCapacity: nat)
      requires initialCapacity >= 1
      ensures Valid() && capacity == initialCapacity && Bag(buckets) == multiset{}
      ensures hash == KeyHashAsWritten
    {
      hash := KeyHashAsWritten;
      buckets := NoBuckets(initialCapacity);
      capacity := initialCapacity;
      count := 0;
      BagEmpty<V>(initialCapacity);
    }

    /** `Count()`: the number of entries. */
    function Count(): (n: nat)
      reads this
      requires Valid()
      ensures n == |Bag(buckets)|
    {
      count
    }

    /** `ContainsKey(key)` looking where `Add` puts the key: the whole
        chain of the key's bucket. */
    method ContainsKey(key: Key) returns (found: bool)
      requires Valid()
      ensures found <==> HasKey(buckets, key)
    {
      var b := Index(hash, key, capacity);
      var chain := buckets[b];
      var j := 0;
      while j < |chain|
        invariant 0 <= j <= |chain|
        invariant forall k :: 0 <= k < j ==> chain[k].key != key
      {
        if chain[j].key == key {
          BagMember(buckets, chain[j]);
          return true;
        }
        j := j + 1;
      }
      forall e | e in Bag(buckets) && e.key == key
        ensures false
      {
        BagMember(buckets, e);
      }
      return false;
    }

    /** `ContainsKey(key)` as written: it compares only the head entry of
        each of the first `m_count` buckets. */
    method ContainsKeyAsWritten(key: Key) returns (found: bool)
      requires Shaped()
      ensures found <==> HeadsHold(buckets, count, key)
    {
      var i := 0;
      while i < count
        invariant 0 <= i <= count
        invariant forall k :: 0 <= k < i ==> !(buckets[k] != [] && buckets[k][0].key == key)
      {
        if buckets[i] != [] && buckets[i][0].key == key {
          return true;
        }
        i := i + 1;
      }
      return false;
    }

    /** `Expand()` with a rehash: twice the buckets, every entry moved to
        the bucket its key hashes to under the new capacity. */
    method Expand()
      requires Valid()
      modifies this
      ensures Valid() && capacity == 2 * old(capacity) && count == old(count)
      ensures Bag(buckets) == old(Bag(buckets))
    {
      var c := capacity;
      var source := buckets;
      var temp := Rehash(source, hash);
      SplitPlaced(source, hash);
      SplitBag(source, hash);
      buckets := temp;
      capacity := 2 * c;
    }

    /** `Expand()` as written: the old buckets keep their indices and the
        new ones are empty, with no rehash. */
    method ExpandAsWritten()
      requires Shaped()
      modifies this
      ensures Shaped() && capacity == 2 * old(capacity) && count == old(count)
      ensures buckets == old(buckets) + NoBuckets(old(capacity))
      ensures Bag(buckets) == old(Bag(buckets))
    {
      var c := capacity;
      BagConcat(buckets, NoBuckets(c));
      BagEmpty<V>(c);
      buckets := buckets + NoBuckets(c);
      capacity := 2 * c;
    }

    /** `Add(key, value)`: nothing when the key is present; otherwise one
        more entry, appended to the chain of the key's bucket, after the
        capacity is doubled if the count would exceed it. */
    method Add(key: Key, value: V)
      requires Valid()
      modifies this
      ensures Valid() && HasKey(buckets, key)
      ensures old(HasKey(buckets, key)) ==> buckets == old(buckets) && count == old(count) && capacity == old(capacity)
      ensures !old(HasKey(buckets, key)) ==>
                Bag(buckets) == old(Bag(buckets)) + multiset{Entry(key, value)} && count == old(count) + 1
                && capacity == (if old(count) < old(capacity) then old(capacity) else 2 * old(capacity))
    {
      var found := ContainsKey(key);
      if found {
        return;
      }
      if count + 1 > capacity {
        Expand();
      }
      Append(key, value);
    }

    /** The part of `Add(key, value)` after the growth check: the entry
        goes at the end of its bucket's chain. */
    method Append(key: Key, value: V)
      requires Valid() && !HasKey(buckets, key) && count < capacity
      modifies this
      ensures Valid() && HasKey(buckets, key) && capacity == old(capacity)
      ensures Bag(buckets) == old(Bag(buckets)) + multiset{Entry(key, value)} && count == old(count) + 1
      ensures buckets == old(buckets)[Index(hash, key, capacity) := old(buckets)[Index(hash, key, capacity)] + [Entry(key, value)]]
    {
      var index := Index(hash, key, capacity);
      var e := Entry(key, value);
      BagAppendTo(buckets, index, e);
      PlacedAppend(buckets, hash, index, e);
      buckets := buckets[index := buckets[index] + [e]];
      count := count + 1;
      assert e in Bag(buckets);
    }

    /** `Add(key, value)` as written: the presence test is the heads-only
        `ContainsKey`, and the growth is the `Expand` without rehash. */
    method AddAsWritten(key: Key, value: V)
      requires Shaped()
      modifies this
      ensures Shaped()
      ensures old(HeadsHold(buckets, count, key)) ==>
                buckets == old(buckets) && count == old(count) && capacity == old(capacity)
      ensures !old(HeadsHold(buckets, count, key)) ==>
                Bag(buckets) == old(Bag(buckets)) + multiset{Entry(key, value)} && count == old(count) + 1
                && capacity == (if old(count) < old(capacity) then old(capacity) else 2 * old(capacity))
                && buckets == old(if count < capacity then buckets else buckets + NoBuckets(capacity))[Index(hash, key, capacity) := old(if count < capacity then buckets else buckets + NoBuckets(capacity))[Index(hash, key, capacity)] + [Entry(key, value)]]
    {
      var found := ContainsKeyAsWritten(key);
      if found {
        return;
      }
      if count + 1 > capacity {
        ExpandAsWritten();
      }
      var index := Index(hash, key, capacity);
      var e := Entry(key, value);
      BagAppendTo(buckets, index, e);
      buckets := buckets[index := buckets[index] + [e]];
      count := count + 1;
    }

    /** `Remove(key)` as written: it looks up the key's bucket and then
        reports failure without removing anything. */
    method Remove(key: Key) returns (removed: bool)
      requires Shaped()
      ensures !removed
    {
      var index := Index(hash, key, capacity);
      var head := buckets[index];
      return false;
    }
  }

  /** With the one-byte hash as written, key 0 lands in bucket 31 of both
      32 and 64 buckets, and key 65 in bucket 12 of 32 but 44 of 64. */
  lemma IndexAsWritten()
    ensures Index(KeyHashAsWritten, 0, 32) == 31 && Index(KeyHashAsWritten, 0, 64) == 31
    ensures Index(KeyHashAsWritten, 65, 32) == 12 && Index(KeyHashAsWritten, 65, 64) == 44
  {
    Fnv.HashesOfSingleBytes();
    assert [0 % 256] == [0] && [65 % 256] == [65];
    var h0, h65 := KeyHashAsWritten(0), KeyHashAsWritten(65);
    assert h0 == 12638153115695167455;
    assert h65 == 12638222384927744748;
  }

  /** A dictionary as written of 32 buckets after `Add(0, v)`: the entry
      sits in bucket 31, but the heads-only `ContainsKey` with a count of 1
      looks only at bucket 0, so a second `Add(0, v)` appends a duplicate. */
  lemma HeadsMissKey<V>(v: V)
    ensures var buckets := NoBuckets(32)[31 := [Entry(0, v)]];
            Placed(buckets, KeyHashAsWritten) && HasKey(buckets, 0) && !HeadsHold(buckets, 1, 0)
  {
    var buckets := NoBuckets<V>(32)[31 := [Entry(0, v)]];
    IndexAsWritten();
    SinglePlaced(32, KeyHashAsWritten, 31, Entry(0, v));
    BagMember(buckets, Entry(0, v));
    assert Entry(0, v) in buckets[31];
    assert Entry(0, v) in Bag(buckets);
    assert buckets[0] == [];
  }

  /** After the `Expand` without rehash from 32 to 64 buckets, the entry of
      key 65 is still in bucket 12 while its key now hashes to bucket 44. */
  lemma ExpandMisplaces<V>(v: V)
    ensures var buckets := NoBuckets(32)[12 := [Entry(65, v)]];
            Placed(buckets, KeyHashAsWritten) && !Placed(buckets + NoBuckets(32), KeyHashAsWritten)
  {
    var buckets := NoBuckets<V>(32)[12 := [Entry(65, v)]];
    IndexAsWritten();
    SinglePlaced(32, KeyHashAsWritten, 12, Entry(65, v));
    var grown := buckets + NoBuckets<V>(32);
    assert |grown| == 64 && grown[12] == [Entry(65, v)];
    Misplaced(grown, KeyHashAsWritten, 12, 0);
  }

  /** An entry outside the bucket its key hashes to breaks `Placed`. */
  lemma Misplaced<V>(buckets: seq<Bucket<V>>, hash: Key -> nat, b: nat, j: nat)
    requires b < |buckets| && j < |buckets[b]|
    requires Index(hash, buckets[b][j].key, |buckets|) != b
    ensures !Placed(buckets, hash)
  {
  }
}

=== FILE: facedirection.dfy ===
/** The six cube face directions of FaceDirection.hpp and its two lookups. */
module FaceDirections {

  datatype FaceDirection = Down | Up | Left | Right | Forward | Back

  /** The numeric value of each enumerator (`enum class FaceDirection`). */
  function Value(d: FaceDirection): (v: nat)
    ensures v < 6
  {
    match d
    case Down => 0
    case Up => 1
    case Left => 2
    case Right => 3
    case Forward => 4
    case Back => 5
  }

  /** The direction with a given enumerator value; the mesher's switch over
      its direction loop variable (chunkMesh.cpp) maps 0..4 the same way and
      every other value to `back`. */
  function FromValue(v: nat): (d: FaceDirection)
    ensures v < 6 ==> Value(d) == v
    ensures v >= 6 ==> d == Back
  {
    if v == 0 then Down
    else if v == 1 then Up
    else if v == 2 then Left
    else if v == 3 then Right
    else if v == 4 then Forward
    else Back
  }

  /** ReverseOrder: true for up, right and forward, false otherwise. */
  predicate ReverseOrder(d: FaceDirection)
  {
    d == Up || d == Right || d == Forward
  }

  /** NormalIndex: left 0, right 1, down 2, up 3, forward 4, back 5. */
  function NormalIndex(d: FaceDirection): (n: nat)
    ensures n < 6
  {
    match d
    case Left => 0
    case Right => 1
    case Down => 2
    case Up => 3
    case Forward => 4
    case Back => 5
  }

  /** The direction on the other side of the same axis. */
  function Opposite(d: FaceDirection): (o: FaceDirection)
    ensures o != d
    ensures Value(o) / 2 == Value(d) / 2
  {
    match d
    case Down => Up
    case Up => Down
    case Left => Right
    case Right => Left
    case Forward => Back
    case Back => Forward
  }

  /** The enumerator values are distinct and enumerate 0..5. */
  lemma ValueRoundTrip(d: FaceDirection, v: nat)
    ensures FromValue(Value(d)) == d
    ensures v < 6 ==> Value(FromValue(v)) == v
  {
  }

  lemma EnumeratorValues()
    ensures Value(Down) == 0 && Value(Up) == 1 && Value(Left) == 2
    ensures Value(Right) == 3 && Value(Forward) == 4 && Value(Back) == 5
  {
  }

  /** Exactly one direction of each axis pair is in reverse order. */
  lemma ReverseOrderOnePerAxis(d: FaceDirection)
    ensures ReverseOrder(d) != ReverseOrder(Opposite(d))
    ensures ReverseOrder(d) <==> d in {Up, Right, Forward}
  {
  }

  /** The normal index used for a direction, read back into the direction. */
  function DirectionOfNormal(n: nat): (d: FaceDirection)
    requires n < 6
    ensures NormalIndex(d) == n
  {
    if n == 0 then Left
    else if n == 1 then Right
    else if n == 2 then Down
    else if n == 3 then Up
    else if n == 4 then Forward
    else Back
  }

  /** NormalIndex is a bijection from the six directions onto 0..5. */
  lemma NormalIndexBijective(d: FaceDirection, e: FaceDirection)
    ensures NormalIndex(d) == NormalIndex(e) ==> d == e
    ensures DirectionOfNormal(NormalIndex(d)) == d
  {
  }

  lemma NormalIndexTable()
    ensures NormalIndex(Left) == 0 && NormalIndex(Right) == 1 && NormalIndex(Down) == 2
    ensures NormalIndex(Up) == 3 && NormalIndex(Forward) == 4 && NormalIndex(Back) == 5
  {
  }
}

=== FILE: fnv.dfy ===
/** The 64-bit FNV-1a style hash shared by the hash table's `getHash` and
    the dictionary's `Hasher::FNVHash`.

    The hash is a `uint64_t`, so it is a `bv64` here and its multiplication
    wraps modulo 2^64 as in the source.  The bytes are C++ `char`s, which
    are signed: before the XOR a byte of 128 or more is sign-extended to 64
    bits, so its upper 56 bits are ones. */
module Fnv {

  type Byte = x: nat | x < 256

  const OFFSET_BASIS: bv64 := 0xCBF2_9CE4_8422_2325
  const PRIME: bv64 := 0x0000_0100_0000_01B3

  /** A signed `char` converted to `uint64_t`. */
  function Widen(c: Byte): (w: bv64)
    ensures c < 128 ==> w == c as bv64
    ensures c >= 128 ==> w & 0xFF == c as bv64 && w >> 8 == 0x00FF_FFFF_FFFF_FFFF
  {
    if c < 128 then c as bv64 else (c as bv64) | 0xFFFF_FFFF_FFFF_FF00
  }

  /** `hash = (hash ^ c) * prime` */
  function Step(h: bv64, c: Byte): bv64
  {
    (h ^ Widen(c)) * PRIME
  }

  /** The hash of `s` continued from the running value `h`. */
  function HashFrom(h: bv64, s: seq<Byte>): bv64
  {
    if s == [] then h else Step(HashFrom(h, s[..|s| - 1]), s[|s| - 1])
  }

  /** The hash of `s` from the offset basis. */
  function Hash(s: seq<Byte>): bv64
  {
    HashFrom(OFFSET_BASIS, s)
  }

  /** Hashing a concatenation is hashing the second part from the hash of
      the first: the hash can be computed incrementally. */
  lemma {:induction false} HashAppend(h: bv64, a: seq<Byte>, b: seq<Byte>)
    ensures HashFrom(h, a + b) == HashFrom(HashFrom(h, a), b)
  {
    if b != [] {
      assert (a + b)[..|a + b| - 1] == a + b[..|b| - 1];
      HashAppend(h, a, b[..|b| - 1]);
    } else {
      assert a + b == a;
    }
  }

  /** `Hasher::FNVHash(data, size)` as written: the loop runs from `begin`
      to `begin + 1`, so it hashes exactly one byte whatever `size` is. */
  method FnvHashAsWritten(data: seq<Byte>, size: nat) returns (hash: bv64)
    requires |data| >= 1
    ensures hash == Hash(data[..1])
  {
    hash := OFFSET_BASIS;
    var c := 0;
    while c != 1
      invariant 0 <= c <= 1
      invariant hash == Hash(data[..c])
    {
      hash := Step(hash, data[c]);
      c := c + 1;
      assert data[..c][..c - 1] == data[..c - 1];
    }
  }

  /** `Hasher::FNVHash(data, size)` over the `size` bytes it is given. */
  method FnvHash(data: seq<Byte>, size: nat) returns (hash: bv64)
    requires size <= |data|
    ensures hash == Hash(data[..size])
  {
    hash := OFFSET_BASIS;
    var c := 0;
    while c != size
      invariant 0 <= c <= size
      invariant hash == Hash(data[..c])
    {
      hash := Step(hash, data[c]);
      c := c + 1;
      assert data[..c][..c - 1] == data[..c - 1];
    }
  }

  /** Keys 0 and 256 of a four-byte little-endian key type share their
      first byte, so the hash as written is the same for both, while the
      hash of all four bytes tells them apart. */
  lemma FirstByteOnly()
    ensures Hash([0, 0, 0, 0][..1]) == Hash([0, 1, 0, 0][..1])
    ensures Hash([0, 0, 0, 0]) != Hash([0, 1, 0, 0])
  {
    assert [0, 0, 0, 0][..1] == [0] == [0, 1, 0, 0][..1];
    HashOfKeyZero();
    HashOfKey256();
  }

  lemma HashOfKeyZero()
    ensures Hash([0, 0, 0, 0]) == 0x4D25_767F_9DCE_13F5
  {
    assert [0, 0, 0] + [0] == [0, 0, 0, 0];
    HashStep([], 0, OFFSET_BASIS, 0xAF63_BD4C_8601_B7DF);
    assert [] + [0] == [0];
    HashStep([0], 0, 0xAF63_BD4C_8601_B7DF, 0x0832_8807_B4EB_6FED);
    assert [0] + [0] == [0, 0];
    HashStep([0, 0], 0, 0x0832_8807_B4EB_6FED, 0xD94D_1218_6C0F_2FB7);
    assert [0, 0] + [0] == [0, 0, 0];
    HashStep([0, 0, 0], 0, 0xD94D_1218_6C0F_2FB7, 0x4D25_767F_9DCE_13F5);
  }

  lemma HashOfKey256()
    ensures Hash([0, 1, 0, 0]) == 0x447B_FB7F_98E6_154A
  {
    assert [0, 1, 0] + [0] == [0, 1, 0, 0];
    HashStep([], 0, OFFSET_BASIS, 0xAF63_BD4C_8601_B7DF);
    assert [] + [0] == [0];
    HashStep([0], 1, 0xAF63_BD4C_8601_B7DF, 0x0832_8707_B4EB_6E3A);
    assert [0] + [1] == [0, 1];
    HashStep([0, 1], 0, 0x0832_8707_B4EB_6E3A, 0xD949_AC18_6C0C_4C8E);
    assert [0, 1] + [0] == [0, 1, 0];
    HashStep([0, 1, 0], 0, 0xD949_AC18_6C0C_4C8E, 0x447B_FB7F_98E6_154A);
  }

  /** `Hash` folds the bytes in from the first to the last, as the
      source's loop does: the empty string hashes to the offset basis, and
      otherwise the first byte is mixed in first. */
  lemma HashFrontFirst(s: seq<Byte>)
    ensures s == [] ==> Hash(s) == OFFSET_BASIS
    ensures s != [] ==> Hash(s) == HashFrom(Step(OFFSET_BASIS, s[0]), s[1..])
  {
    if s != [] {
      assert [s[0]] + s[1..] == s;
      assert [s[0]][..0] == [];
      HashAppend(OFFSET_BASIS, [s[0]], s[1..]);
    }
  }

  /** The hashes of the one-byte keys 0, 65 (`'A'`) and 97 (`'a'`). */
  lemma HashesOfSingleBytes()
    ensures Hash([0]) == 0xAF63_BD4C_8601_B7DF
    ensures Hash([65]) == 0xAF63_FC4C_8602_22EC
    ensures Hash([97]) == 0xAF63_DC4C_8601_EC8C
  {
    assert [] + [0] == [0] && [] + [65] == [65] && [] + [97] == [97];
    HashStep([], 0, OFFSET_BASIS, 0xAF63_BD4C_8601_B7DF);
    HashStep([], 65, OFFSET_BASIS, 0xAF63_FC4C_8602_22EC);
    HashStep([], 97, OFFSET_BASIS, 0xAF63_DC4C_8601_EC8C);
  }

  /** Appending a byte to a key advances its hash by one step. */
  lemma HashStep(s: seq<Byte>, c: Byte, previous: bv64, h: bv64)
    requires Hash(s) == previous && Step(previous, c) == h
    ensures Hash(s + [c]) == h
  {
    assert (s + [c])[..|s|] == s;
  }
}

=== FILE: glerror.dfy ===
/** The OpenGL error wrapper: an error code and the text that names it.

    The error codes are the values the OpenGL headers give them. */
module GLErrors {

  const INVALID_ENUM: nat := 0x0500
  const INVALID_VALUE: nat := 0x0501
  const INVALID_OPERATION: nat := 0x0502
  const STACK_OVERFLOW: nat := 0x0503
  const STACK_UNDERFLOW: nat := 0x0504
  const OUT_OF_MEMORY: nat := 0x0505
  const INVALID_FRAMEBUFFER_OPERATION: nat := 0x0506

  const UNDEFINED: string := "UNDEFINED ERROR"

  /** The seven codes the constructor's switch names. */
  predicate Named(code: nat)
  {
    INVALID_ENUM <= code <= INVALID_FRAMEBUFFER_OPERATION
  }

  datatype GLError = GLError(code: nat, what: string)

  /** The switch as written: the cases for OUT_OF_MEMORY and
      INVALID_FRAMEBUFFER_OPERATION have no `break`, so each falls through
      to the default case and its text is overwritten by the default's. */
  function DescribeAsWritten(code: nat): (what: string)
    ensures what == UNDEFINED <==> !(INVALID_ENUM <= code <= STACK_UNDERFLOW)
  {
    if code == INVALID_ENUM then "INVALID ENUM"
    else if code == INVALID_VALUE then "INVALID VALUE"
    else if code == INVALID_OPERATION then "INVALID OPERATION"
    else if code == STACK_OVERFLOW then "STACK OVERFLOW"
    else if code == STACK_UNDERFLOW then "STACK UNDERFLOW"
    else UNDEFINED
  }

  /** The switch with a `break` after every case: every named code gets its
      own text and only unknown codes are undefined. */
  function Describe(code: nat): (what: string)
    ensures what == UNDEFINED <==> !Named(code)
    ensures Named(code) ==> |what| > 0
  {
    if code == INVALID_ENUM then "INVALID ENUM"
    else if code == INVALID_VALUE then "INVALID VALUE"
    else if code == INVALID_OPERATION then "INVALID OPERATION"
    else if code == STACK_OVERFLOW then "STACK OVERFLOW"
    else if code == STACK_UNDERFLOW then "STACK UNDERFLOW"
    else if code == OUT_OF_MEMORY then "OUT OF MEMORY"
    else if code == INVALID_FRAMEBUFFER_OPERATION then "INVALID FRAME BUFFER OPERATION"
    else UNDEFINED
  }

  /** As written, out-of-memory and framebuffer errors cannot be told apart
      from each other nor from an unknown code; with the breaks they can. */
  lemma FallThroughHidesTwoCodes()
    ensures DescribeAsWritten(OUT_OF_MEMORY) == DescribeAsWritten(INVALID_FRAMEBUFFER_OPERATION) == DescribeAsWritten(0)
    ensures Describe(OUT_OF_MEMORY) != Describe(INVALID_FRAMEBUFFER_OPERATION)
    ensures Describe(OUT_OF_MEMORY) != Describe(0)
  {
  }

  /** The two switches agree on every code except the two that fall through. */
  lemma DescribeAgreesElsewhere(code: nat)
    requires code != OUT_OF_MEMORY && code != INVALID_FRAMEBUFFER_OPERATION
    ensures DescribeAsWritten(code) == Describe(code)
  {
  }

  /** With the breaks, different named codes get different texts. */
  lemma DescribeInjective(c1: nat, c2: nat)
    requires Named(c1) && Named(c2) && c1 != c2
    ensures Describe(c1) != Describe(c2)
  {
  }

  /** `GLError(code)` as written: keeps the code and names it with the
      switch that falls through, so OUT_OF_MEMORY and
      INVALID_FRAMEBUFFER_OPERATION errors are undefined too. */
  function NewGLErrorAsWritten(code: nat): (e: GLError)
    ensures e.code == code
    ensures e.what == UNDEFINED <==> !(INVALID_ENUM <= code <= STACK_UNDERFLOW)
    ensures code != OUT_OF_MEMORY && code != INVALID_FRAMEBUFFER_OPERATION ==> e == NewGLError(code)
  {
    GLError(code, DescribeAsWritten(code))
  }

  /** The corrected `GLError(code)`: keeps the code and names it with the
      switch that has a `break` after every case. */
  function NewGLError(code: nat): (e: GLError)
    ensures e.code == code
    ensures e.what == UNDEFINED <==> !Named(code)
  {
    GLError(code, Describe(code))
  }

  /** `good()`: no error is recorded. */
  predicate Good(e: GLError)
  {
    e.code == 0
  }

  /** An error built from a named code is never good, and the no-error code
      0 is good but has no name. */
  lemma GoodOnlyWithoutError(code: nat)
    ensures Good(NewGLError(code)) <==> code == 0
    ensures Good(NewGLError(code)) ==> NewGLError(code).what == UNDEFINED
  {
  }
}

=== FILE: greedy.dfy ===
/** GreedyMeshBinaryPlane (chunkMesh.cpp): greedy merging of the set bits of
    a 64 x 64 binary plane into rectangles.

    The plane is 64 rows of 64-bit words; row r, bit c is "cell (r, c)".  A
    quad GreedyQuad(x, y, w, h) covers rows x .. x+w-1 and bits y .. y+h-1.
    The main result: every set bit of the input is covered by exactly one
    quad and no clear bit by any, and the plane is left with the bits that
    the width extension cleared removed. */
module GreedyMesh {
  import opened Bits

  /** Chunk::CHUNK_SIZE as the mesher uses it; also the 64 rows it scans. */
  const CHUNK_SIZE: nat := 64

  datatype GreedyQuad = GreedyQuad(x: nat, y: nat, w: nat, h: nat)

  /** A quad inside the plane with a non-empty extent. */
  predicate WellFormed(q: GreedyQuad)
  {
    1 <= q.w && 1 <= q.h && q.x + q.w <= CHUNK_SIZE && q.y + q.h <= CHUNK_SIZE
  }

  predicate Covers(q: GreedyQuad, r: int, c: int)
  {
    q.x <= r < q.x + q.w && q.y <= c < q.y + q.h
  }

  /** How many quads of `qs` cover cell (r, c). */
  function CoverCount(qs: seq<GreedyQuad>, r: int, c: int): nat
  {
    if qs == [] then 0
    else CoverCount(qs[..|qs| - 1], r, c) + (if Covers(qs[|qs| - 1], r, c) then 1 else 0)
  }

  /** How many quads of `qs` cover cell (r, c) in a row below their first
      row: the cells whose bits the width extension cleared. */
  function TailCount(qs: seq<GreedyQuad>, r: int, c: int): nat
  {
    if qs == [] then 0
    else TailCount(qs[..|qs| - 1], r, c) + (if Covers(qs[|qs| - 1], r, c) && qs[|qs| - 1].x < r then 1 else 0)
  }

  lemma CountsAppend(qs: seq<GreedyQuad>, q: GreedyQuad, r: int, c: int)
    ensures CoverCount(qs + [q], r, c) == CoverCount(qs, r, c) + (if Covers(q, r, c) then 1 else 0)
    ensures TailCount(qs + [q], r, c) == TailCount(qs, r, c) + (if Covers(q, r, c) && q.x < r then 1 else 0)
  {
    assert (qs + [q])[..|qs|] == qs;
  }

  /** A cell that no quad covers. */
  lemma {:induction false} CountsOfEmpty(qs: seq<GreedyQuad>, r: int, c: int)
    requires forall i :: 0 <= i < |qs| ==> !Covers(qs[i], r, c)
    ensures CoverCount(qs, r, c) == 0 && TailCount(qs, r, c) == 0
  {
    if qs != [] {
      CountsOfEmpty(qs[..|qs| - 1], r, c);
    }
  }

  /** Any quad of `qs` that covers (r, c) contributes to the count. */
  lemma {:induction false} CoveredCounts(qs: seq<GreedyQuad>, i: nat, r: int, c: int)
    requires i < |qs| && Covers(qs[i], r, c)
    ensures CoverCount(qs, r, c) >= 1
  {
    if i < |qs| - 1 {
      CoveredCounts(qs[..|qs| - 1], i, r, c);
    }
  }

  /** A cell with a positive count is covered by some quad of `qs`. */
  lemma {:induction false} CoveringQuad(qs: seq<GreedyQuad>, r: int, c: int) returns (k: nat)
    requires CoverCount(qs, r, c) >= 1
    ensures k < |qs| && Covers(qs[k], r, c)
  {
    if Covers(qs[|qs| - 1], r, c) {
      k := |qs| - 1;
    } else {
      k := CoveringQuad(qs[..|qs| - 1], r, c);
    }
  }

  /** Cell (r, c) comes before the scan cursor (row, y) in row-major order. */
  predicate Before(r: int, c: int, row: int, y: int)
  {
    r < row || (r == row && c < y)
  }

  /** The width extension of quad i stopped because the plane ended or
      because the next row lacked part of the run: a cell that was clear in
      the input or already cleared by an earlier quad. */
  ghost predicate StoppedAtGap(orig: seq<Word>, qs: seq<GreedyQuad>, i: nat)
    requires |orig| == CHUNK_SIZE && i < |qs| && WellFormed(qs[i])
  {
    qs[i].x + qs[i].w == CHUNK_SIZE || exists c :: GapAt(orig, qs, i, c)
  }

  /** Cell c of the row after quad i lies in the quad's run and was either
      clear in the input or cleared by one of the quads before i. */
  ghost predicate GapAt(orig: seq<Word>, qs: seq<GreedyQuad>, i: nat, c: int)
    requires |orig| == CHUNK_SIZE && i < |qs| && WellFormed(qs[i])
  {
    var q := qs[i];
    q.x + q.w < CHUNK_SIZE && q.y <= c < q.y + q.h &&
    (!orig[q.x + q.w][c] || TailCount(qs[..i], q.x + q.w, c) > 0)
  }

  /** The run of quad i, its height, ends at the end of its row or at a bit
      that was clear when the scan reached it: clear in the input or cleared
      by one of the quads before i. */
  ghost predicate StoppedAtRunEnd(orig: seq<Word>, qs: seq<GreedyQuad>, i: nat)
    requires |orig| == CHUNK_SIZE && i < |qs| && WellFormed(qs[i])
  {
    var q := qs[i];
    q.y + q.h == CHUNK_SIZE || !(orig[q.x][q.y + q.h] && TailCount(qs[..i], q.x, q.y + q.h) == 0)
  }

  /** The quads in the order the scan emits them: by first row, and within
      a row by first bit. */
  predicate ScanOrder(qs: seq<GreedyQuad>)
  {
    forall i, j :: 0 <= i < j < |qs| ==> Before(qs[i].x, qs[i].y, qs[j].x, qs[j].y)
  }

  /** Bit c of row row+w is clear and lies in the run y .. y+h-1. */
  ghost predicate ClearInRun(p: seq<Word>, row: int, w: int, y: int, h: int, c: int)
    requires |p| == CHUNK_SIZE
  {
    0 <= row + w < CHUNK_SIZE && y <= c < y + h && 0 <= c < CHUNK_SIZE && !p[row + w][c]
  }

  /** The loop invariant of GreedyMeshBinaryPlane with the scan at (row, y). */
  ghost predicate MeshState(p: seq<Word>, orig: seq<Word>, qs: seq<GreedyQuad>, row: nat, y: nat)
  {
    && |p| == CHUNK_SIZE && |orig| == CHUNK_SIZE
    && (forall i :: 0 <= i < |qs| ==> WellFormed(qs[i]))
    && (forall i :: 0 <= i < |qs| ==> Before(qs[i].x, qs[i].y + qs[i].h - 1, row, y))
    && (forall i :: 0 <= i < |qs| ==> StoppedAtGap(orig, qs, i))
    && (forall i :: 0 <= i < |qs| ==> StoppedAtRunEnd(orig, qs, i))
    && ScanOrder(qs)
    // the plane holds the input minus the cleared cells
    && (forall r, c :: 0 <= r < CHUNK_SIZE && 0 <= c < CHUNK_SIZE ==>
          p[r][c] == (orig[r][c] && TailCount(qs, r, c) == 0))
    // no cell is covered twice, no clear cell at all
    && (forall r, c :: 0 <= r < CHUNK_SIZE && 0 <= c < CHUNK_SIZE ==>
          CoverCount(qs, r, c) <= (if orig[r][c] then 1 else 0))
    // behind the cursor every set cell is covered
    && (forall r, c :: 0 <= r < CHUNK_SIZE && 0 <= c < CHUNK_SIZE && Before(r, c, row, y) ==>
          CoverCount(qs, r, c) == (if orig[r][c] then 1 else 0))
    // ahead of the cursor only cleared cells are covered
    && (forall r, c :: 0 <= r < CHUNK_SIZE && 0 <= c < CHUNK_SIZE && !Before(r, c, row, y) ==>
          CoverCount(qs, r, c) == TailCount(qs, r, c))
  }

  lemma InitialState(p: seq<Word>)
    requires |p| == CHUNK_SIZE
    ensures MeshState(p, p, [], 0, 0)
  {
  }

  /** Moving the cursor over clear bits keeps the invariant. */
  lemma SkipClear(p: seq<Word>, orig: seq<Word>, qs: seq<GreedyQuad>, row: nat, y: nat, y': nat)
    requires MeshState(p, orig, qs, row, y)
    requires row < CHUNK_SIZE && y <= y'
    requires forall c :: y <= c < y' && c < CHUNK_SIZE ==> !p[row][c]
    ensures MeshState(p, orig, qs, row, y')
  {
    forall i | 0 <= i < |qs|
      ensures Before(qs[i].x, qs[i].y + qs[i].h - 1, row, y')
    {
      assert Before(qs[i].x, qs[i].y + qs[i].h - 1, row, y);
    }
  }

  /** A row whose cursor has passed the last bit is finished. */
  lemma NextRow(p: seq<Word>, orig: seq<Word>, qs: seq<GreedyQuad>, row: nat, y: nat)
    requires MeshState(p, orig, qs, row, y)
    requires CHUNK_SIZE <= y
    ensures MeshState(p, orig, qs, row + 1, 0)
  {
    forall i | 0 <= i < |qs|
      ensures Before(qs[i].x, qs[i].y + qs[i].h - 1, row + 1, 0)
    {
      assert WellFormed(qs[i]);
    }
  }

  /** The state after the width extension: rows row+1 .. row+w-1 had the
      whole run set and now have it cleared. */
  ghost predicate Extending(p: seq<Word>, orig: seq<Word>, qs: seq<GreedyQuad>, row: nat, y: nat, h: nat, w: nat)
  {
    && |p| == CHUNK_SIZE && |orig| == CHUNK_SIZE
    && row < CHUNK_SIZE && 1 <= w && row + w <= CHUNK_SIZE
    && (forall r, c :: 0 <= r < CHUNK_SIZE && 0 <= c < CHUNK_SIZE ==>
          p[r][c] == (orig[r][c] && TailCount(qs, r, c) == 0 && !(row < r < row + w && y <= c < y + h)))
    && (forall r, c :: row < r < row + w && y <= c < y + h && c < CHUNK_SIZE ==>
          orig[r][c] && TailCount(qs, r, c) == 0)
  }

  /** One cell of EmitQuad: what the invariant says about cell (r, c) before
      the quad is appended gives what it must say afterwards.  `o`, `p0rc`
      and `prc` are the cell's bit in the input, in the plane when the run
      was found and in the plane after the width extension. */
  lemma EmitCell(qs: seq<GreedyQuad>, q: GreedyQuad, r: int, c: int, o: bool, p0rc: bool, prc: bool)
    requires 1 <= q.w && 1 <= q.h
    requires p0rc == (o && TailCount(qs, r, c) == 0)
    requires CoverCount(qs, r, c) <= (if o then 1 else 0)
    requires Before(r, c, q.x, q.y) ==> CoverCount(qs, r, c) == (if o then 1 else 0)
    requires !Before(r, c, q.x, q.y) ==> CoverCount(qs, r, c) == TailCount(qs, r, c)
    requires prc == (o && TailCount(qs, r, c) == 0 && !(q.x < r < q.x + q.w && q.y <= c < q.y + q.h))
    requires q.x < r < q.x + q.w && q.y <= c < q.y + q.h ==> o && TailCount(qs, r, c) == 0
    requires r == q.x && q.y <= c < q.y + q.h ==> p0rc
    ensures prc == (o && TailCount(qs + [q], r, c) == 0)
    ensures CoverCount(qs + [q], r, c) <= (if o then 1 else 0)
    ensures Before(r, c, q.x, q.y + q.h) ==> CoverCount(qs + [q], r, c) == (if o then 1 else 0)
    ensures !Before(r, c, q.x, q.y + q.h) ==> CoverCount(qs + [q], r, c) == TailCount(qs + [q], r, c)
  {
    CountsAppend(qs, q, r, c);
  }

  /** Appending the quad of a finished width extension keeps the invariant. */
  lemma EmitQuad(p0: seq<Word>, p: seq<Word>, orig: seq<Word>, qs: seq<GreedyQuad>, row: nat, y: nat, h: nat, w: nat)
    requires MeshState(p0, orig, qs, row, y)
    requires Extending(p, orig, qs, row, y, h, w)
    requires 1 <= h && y + h <= CHUNK_SIZE
    requires forall c :: y <= c < y + h ==> p0[row][c]
    requires y + h < CHUNK_SIZE ==> !p0[row][y + h]
    requires row + w == CHUNK_SIZE || exists c :: ClearInRun(p, row, w, y, h, c)
    ensures MeshState(p, orig, qs + [GreedyQuad(row, y, w, h)], row, y + h)
  {
    var q := GreedyQuad(row, y, w, h);
    var qs' := qs + [q];
    forall r, c | 0 <= r < CHUNK_SIZE && 0 <= c < CHUNK_SIZE
      ensures p[r][c] == (orig[r][c] && TailCount(qs', r, c) == 0)
      ensures CoverCount(qs', r, c) <= (if orig[r][c] then 1 else 0)
      ensures Before(r, c, row, y + h) ==> CoverCount(qs', r, c) == (if orig[r][c] then 1 else 0)
      ensures !Before(r, c, row, y + h) ==> CoverCount(qs', r, c) == TailCount(qs', r, c)
    {
      EmitCell(qs, q, r, c, orig[r][c], p0[r][c], p[r][c]);
    }
    if y + h < CHUNK_SIZE {
      assert !(orig[row][y + h] && TailCount(qs, row, y + h) == 0);
    }
    EmitOrder(p, orig, qs, row, y, h, w);
  }

  /** The quad-list conjuncts of EmitQuad. */
  lemma EmitOrder(p: seq<Word>, orig: seq<Word>, qs: seq<GreedyQuad>, row: nat, y: nat, h: nat, w: nat)
    requires |p| == CHUNK_SIZE && |orig| == CHUNK_SIZE
    requires forall i :: 0 <= i < |qs| ==> WellFormed(qs[i])
    requires forall i :: 0 <= i < |qs| ==> Before(qs[i].x, qs[i].y + qs[i].h - 1, row, y)
    requires forall i :: 0 <= i < |qs| ==> StoppedAtGap(orig, qs, i)
    requires forall i :: 0 <= i < |qs| ==> StoppedAtRunEnd(orig, qs, i)
    requires ScanOrder(qs)
    requires Extending(p, orig, qs, row, y, h, w)
    requires 1 <= h && y + h <= CHUNK_SIZE
    requires y + h == CHUNK_SIZE || !(orig[row][y + h] && TailCount(qs, row, y + h) == 0)
    requires row + w == CHUNK_SIZE || exists c :: ClearInRun(p, row, w, y, h, c)
    ensures var qs' := qs + [GreedyQuad(row, y, w, h)];
      && (forall i :: 0 <= i < |qs'| ==> WellFormed(qs'[i]))
      && (forall i :: 0 <= i < |qs'| ==> Before(qs'[i].x, qs'[i].y + qs'[i].h - 1, row, y + h))
      && (forall i :: 0 <= i < |qs'| ==> StoppedAtGap(orig, qs', i))
      && (forall i :: 0 <= i < |qs'| ==> StoppedAtRunEnd(orig, qs', i))
      && ScanOrder(qs')
  {
    var q := GreedyQuad(row, y, w, h);
    var qs' := qs + [q];
    assert qs'[..|qs|] == qs;
    forall i | 0 <= i < |qs'|
      ensures WellFormed(qs'[i]) && StoppedAtGap(orig, qs', i)
    {
      if i < |qs| {
        assert qs'[..i] == qs[..i] && qs'[i] == qs[i];
        assert StoppedAtGap(orig, qs, i);
        if qs[i].x + qs[i].w < CHUNK_SIZE {
          var c :| GapAt(orig, qs, i, c);
          assert GapAt(orig, qs', i, c);
        }
      } else if row + w < CHUNK_SIZE {
        var c :| ClearInRun(p, row, w, y, h, c);
        assert qs'[i] == q && qs'[..i] == qs;
        assert GapAt(orig, qs', i, c);
      }
    }
    forall i | 0 <= i < |qs'|
      ensures Before(qs'[i].x, qs'[i].y + qs'[i].h - 1, row, y + h)
    {
      if i < |qs| {
        assert Before(qs[i].x, qs[i].y + qs[i].h - 1, row, y);
      }
    }
    forall i | 0 <= i < |qs'|
      ensures StoppedAtRunEnd(orig, qs', i)
    {
      if i < |qs| {
        assert qs'[..i] == qs[..i] && qs'[i] == qs[i];
        assert StoppedAtRunEnd(orig, qs, i);
      } else {
        assert qs'[..i] == qs && qs'[i] == q;
      }
    }
    forall i, j | 0 <= i < j < |qs'|
      ensures Before(qs'[i].x, qs'[i].y, qs'[j].x, qs'[j].y)
    {
      if j < |qs| {
        assert Before(qs[i].x, qs[i].y, qs[j].x, qs[j].y);
      } else {
        assert Before(qs[i].x, qs[i].y + qs[i].h - 1, row, y);
      }
    }
  }

  /** The final state: the invariant with the cursor past the last row. */
  lemma FinalState(p: seq<Word>, orig: seq<Word>, qs: seq<GreedyQuad>)
    requires MeshState(p, orig, qs, CHUNK_SIZE, 0)
    ensures forall i :: 0 <= i < |qs| ==> WellFormed(qs[i])
    ensures forall r, c :: 0 <= r < CHUNK_SIZE && 0 <= c < CHUNK_SIZE ==>
              CoverCount(qs, r, c) == (if orig[r][c] then 1 else 0)
    ensures forall r, c :: 0 <= r < CHUNK_SIZE && 0 <= c < CHUNK_SIZE ==>
              p[r][c] == (orig[r][c] && TailCount(qs, r, c) == 0)
    ensures forall i :: 0 <= i < |qs| ==> StoppedAtGap(orig, qs, i)
    ensures forall i :: 0 <= i < |qs| ==> StoppedAtRunEnd(orig, qs, i)
    ensures ScanOrder(qs)
  {
  }

  /** The width loop of GreedyMeshBinaryPlane: while the next row holds the
      whole run y .. y+h-1 (`((planeData[row + w] >> y) & hMask) == hMask`),
      clear the run from it and widen the quad. */
  method ExtendWidth(planeData: array<Word>, row: nat, y: nat, h: nat,
                     ghost orig: seq<Word>, ghost qs: seq<GreedyQuad>) returns (w: nat)
    requires planeData.Length == CHUNK_SIZE && row < CHUNK_SIZE
    requires 1 <= h && y + h <= CHUNK_SIZE
    requires MeshState(planeData[..], orig, qs, row, y)
    modifies planeData
    ensures Extending(planeData[..], orig, qs, row, y, h, w)
    ensures planeData[row] == old(planeData[row])
    ensures row + w == CHUNK_SIZE || exists c :: ClearInRun(planeData[..], row, w, y, h, c)
  {
    // hMask = (h < 64) ? (1 << h) - 1 : ~0, i.e. bits 0 .. h-1
    var hMask := LowMask(h);
    var mask := Shl(hMask, y);
    w := 1;
    while row + w < CHUNK_SIZE
      invariant Extending(planeData[..], orig, qs, row, y, h, w)
      invariant planeData[row] == old(planeData[row])
      decreases CHUNK_SIZE - w
    {
      var next := row + w;
      var nextRowH := And(Shr(planeData[next], y), hMask);
      if nextRowH != hMask {
        var k :| 0 <= k < WIDTH && nextRowH[k] != hMask[k];
        assert ClearInRun(planeData[..], row, w, y, h, y + k);
        return;
      }
      forall c | y <= c < y + h
        ensures planeData[next][c]
      {
        assert nextRowH[c - y] == hMask[c - y];
      }
      ghost var before := planeData[next];
      planeData[next] := And(planeData[next], Not(mask));
      assert forall c :: 0 <= c < CHUNK_SIZE ==> planeData[next][c] == (before[c] && !(y <= c < y + h));
      w := w + 1;
    }
  }

  /** `y += trailing_zeroes(planeData[row] >> y)` moves the cursor onto the
      next set bit of the row, or past the end of the row. */
  lemma SkipToRun(p: seq<Word>, orig: seq<Word>, qs: seq<GreedyQuad>, row: nat, y: nat, skip: nat)
    requires MeshState(p, orig, qs, row, y)
    requires row < CHUNK_SIZE && y < CHUNK_SIZE
    requires skip == Tz(Shr(p[row], y))
    ensures MeshState(p, orig, qs, row, y + skip)
    ensures y + skip < CHUNK_SIZE ==> p[row][y + skip]
  {
    var s := Shr(p[row], y);
    forall c | y <= c < y + skip && c < CHUNK_SIZE
      ensures !p[row][c]
    {
      assert !s[c - y];
    }
    SkipClear(p, orig, qs, row, y, y + skip);
    if y + skip < CHUNK_SIZE {
      assert s[skip];
    }
  }

  /** `trailing_ones(planeData[row] >> y)` at a set bit is the length of the
      run of set bits starting at y; the run ends inside the row. */
  lemma RunAt(word: Word, y: nat, h: nat)
    requires y < CHUNK_SIZE && word[y]
    requires h == To(Shr(word, y))
    ensures 1 <= h && y + h <= CHUNK_SIZE
    ensures forall c :: y <= c < y + h ==> word[c]
    ensures y + h < CHUNK_SIZE ==> !word[y + h]
  {
    var s := Shr(word, y);
    assert s[0];
    if 0 < y {
      assert !s[CHUNK_SIZE - y];
    }
    forall c | y <= c < y + h
      ensures word[c]
    {
      assert s[c - y];
    }
    if y + h < CHUNK_SIZE {
      assert !s[h];
    }
  }

  /** One pass of the outer loop of GreedyMeshBinaryPlane over `row`. */
  method MeshRow(planeData: array<Word>, row: nat, ghost orig: seq<Word>, quads0: seq<GreedyQuad>)
      returns (quads: seq<GreedyQuad>)
    requires planeData.Length == CHUNK_SIZE && row < CHUNK_SIZE
    requires MeshState(planeData[..], orig, quads0, row, 0)
    modifies planeData
    ensures MeshState(planeData[..], orig, quads, row + 1, 0)
  {
    quads := quads0;
    var y := 0;
    while y < CHUNK_SIZE
      invariant MeshState(planeData[..], orig, quads, row, y)
      decreases 2 * CHUNK_SIZE - y
    {
      quads, y := MeshStep(planeData, row, y, orig, quads);
    }
    NextRow(planeData[..], orig, quads, row, y);
  }

  /** One iteration of the loop over a row: the cursor jumps to the next
      set bit, and the run of set bits there, if any, becomes a quad. */
  method MeshStep(planeData: array<Word>, row: nat, y0: nat, ghost orig: seq<Word>, quads0: seq<GreedyQuad>)
      returns (quads: seq<GreedyQuad>, y: nat)
    requires planeData.Length == CHUNK_SIZE && row < CHUNK_SIZE && y0 < CHUNK_SIZE
    requires MeshState(planeData[..], orig, quads0, row, y0)
    modifies planeData
    ensures y0 < y <= 2 * CHUNK_SIZE
    ensures MeshState(planeData[..], orig, quads, row, y)
  {
    var skip := TrailingZeroes(Shr(planeData[row], y0));
    SkipToRun(planeData[..], orig, quads0, row, y0, skip);
    y := y0 + skip;
    quads := quads0;
    if y >= CHUNK_SIZE {
      return;
    }
    var h;
    quads, h := MeshRun(planeData, row, y, orig, quads0);
    y := y + h;
  }

  /** The run of set bits at the cursor becomes a quad of height h, widened
      over the following rows. */
  method MeshRun(planeData: array<Word>, row: nat, y: nat, ghost orig: seq<Word>, quads0: seq<GreedyQuad>)
      returns (quads: seq<GreedyQuad>, h: nat)
    requires planeData.Length == CHUNK_SIZE && row < CHUNK_SIZE && y < CHUNK_SIZE
    requires MeshState(planeData[..], orig, quads0, row, y) && planeData[row][y]
    modifies planeData
    ensures 1 <= h && y + h <= CHUNK_SIZE
    ensures MeshState(planeData[..], orig, quads, row, y + h)
  {
    h := TrailingOnes(Shr(planeData[row], y));
    RunAt(planeData[row], y, h);
    ghost var p0 := planeData[..];
    assert y + h < CHUNK_SIZE ==> !p0[row][y + h];
    var w := ExtendWidth(planeData, row, y, h, orig, quads0);
    EmitQuad(p0, planeData[..], orig, quads0, row, y, h, w);
    quads := quads0 + [GreedyQuad(row, y, w, h)];
  }
  /** chunkMesh.cpp GreedyMeshBinaryPlane.  For every row, the cursor y jumps
      to the next set bit (trailing_zeroes), the run of set bits there gives
      the height h (trailing_ones), and the quad is widened over the following
      rows for as long as each of them holds the whole run, clearing the run
      from those rows.  Every set bit of the input ends up in exactly one
      quad, no clear bit in any; the plane keeps only the bits that were not
      swallowed by a widening; each quad is as high as the whole run at its
      first bit and stops widening at the plane's end or at a row that lacks
      part of its run; and the quads come in scan order. */
  method GreedyMeshBinaryPlane(planeData: array<Word>) returns (quads: seq<GreedyQuad>)
    requires planeData.Length == CHUNK_SIZE
    modifies planeData
    ensures forall i :: 0 <= i < |quads| ==> WellFormed(quads[i])
    ensures forall r, c :: 0 <= r < CHUNK_SIZE && 0 <= c < CHUNK_SIZE ==>
              CoverCount(quads, r, c) == (if old(planeData[r])[c] then 1 else 0)
    ensures forall r, c :: 0 <= r < CHUNK_SIZE && 0 <= c < CHUNK_SIZE ==>
              planeData[r][c] == (old(planeData[r])[c] && TailCount(quads, r, c) == 0)
    ensures forall i :: 0 <= i < |quads| ==> StoppedAtGap(old(planeData[..]), quads, i)
    ensures forall i :: 0 <= i < |quads| ==> StoppedAtRunEnd(old(planeData[..]), quads, i)
    ensures ScanOrder(quads)
  {
    ghost var orig := planeData[..];
    quads := [];
    InitialState(orig);
    var dataLen := 64;
    var row := 0;
    while row < dataLen
      invariant 0 <= row <= CHUNK_SIZE
      invariant MeshState(planeData[..], orig, quads, row, 0)
    {
      quads := MeshRow(planeData, row, orig, quads);
      row := row + 1;
    }
    FinalState(planeData[..], orig, quads);
  }

  /** Two quads of `qs` that share a cell make its count at least two. */
  lemma {:induction false} SharedCellCounts(qs: seq<GreedyQuad>, i: nat, j: nat, r: int, c: int)
    requires i < j < |qs| && Covers(qs[i], r, c) && Covers(qs[j], r, c)
    ensures CoverCount(qs, r, c) >= 2
  {
    if j == |qs| - 1 {
      CoveredCounts(qs[..|qs| - 1], i, r, c);
    } else {
      SharedCellCounts(qs[..|qs| - 1], i, j, r, c);
    }
  }

  /** The exact cover the mesher produces: every set bit in one quad, no
      clear bit in any. */
  ghost predicate ExactCover(qs: seq<GreedyQuad>, orig: seq<Word>)
    requires |orig| == CHUNK_SIZE
  {
    && (forall i :: 0 <= i < |qs| ==> WellFormed(qs[i]))
    && (forall r, c :: 0 <= r < CHUNK_SIZE && 0 <= c < CHUNK_SIZE ==>
          CoverCount(qs, r, c) == (if orig[r][c] then 1 else 0))
  }

  /** Every quad of an exact cover lies on set bits only. */
  lemma ExactCoverInside(qs: seq<GreedyQuad>, orig: seq<Word>, i: nat, r: int, c: int)
    requires |orig| == CHUNK_SIZE && ExactCover(qs, orig)
    requires i < |qs| && Covers(qs[i], r, c)
    ensures 0 <= r < CHUNK_SIZE && 0 <= c < CHUNK_SIZE && orig[r][c]
  {
    assert WellFormed(qs[i]);
    CoveredCounts(qs, i, r, c);
  }

  /** No two quads of an exact cover overlap. */
  lemma ExactCoverDisjoint(qs: seq<GreedyQuad>, orig: seq<Word>)
    requires |orig| == CHUNK_SIZE && ExactCover(qs, orig)
    ensures forall i, j, r, c :: 0 <= i < j < |qs| && Covers(qs[i], r, c) ==> !Covers(qs[j], r, c)
  {
    forall i, j, r, c | 0 <= i < j < |qs| && Covers(qs[i], r, c)
      ensures !Covers(qs[j], r, c)
    {
      assert WellFormed(qs[i]);
      if Covers(qs[j], r, c) {
        SharedCellCounts(qs, i, j, r, c);
      }
    }
  }

  /** An exact cover is empty exactly when the plane is all zero. */
  lemma ExactCoverEmptyIff(qs: seq<GreedyQuad>, orig: seq<Word>)
    requires |orig| == CHUNK_SIZE && ExactCover(qs, orig)
    ensures qs == [] <==> forall r :: 0 <= r < CHUNK_SIZE ==> orig[r] == Zero()
  {
    if qs != [] {
      var q := qs[0];
      assert WellFormed(q) && Covers(q, q.x, q.y);
      CoveredCounts(qs, 0, q.x, q.y);
      assert orig[q.x][q.y] && !Zero()[q.y];
    } else {
      forall r | 0 <= r < CHUNK_SIZE
        ensures orig[r] == Zero()
      {
        assert forall c :: 0 <= c < CHUNK_SIZE ==> CoverCount(qs, r, c) == 0;
      }
    }
  }

  /** On a plane whose every bit is set, the greedy result is the one quad
      over the whole plane. */
  lemma FullPlaneOneQuad(orig: seq<Word>, qs: seq<GreedyQuad>)
    requires |orig| == CHUNK_SIZE && forall r :: 0 <= r < CHUNK_SIZE ==> orig[r] == Ones()
    requires ExactCover(qs, orig) && ScanOrder(qs)
    requires forall i :: 0 <= i < |qs| ==> StoppedAtGap(orig, qs, i)
    requires forall i :: 0 <= i < |qs| ==> StoppedAtRunEnd(orig, qs, i)
    ensures qs == [GreedyQuad(0, 0, CHUNK_SIZE, CHUNK_SIZE)]
  {
    assert orig[0][0] && CoverCount(qs, 0, 0) == 1;
    var k := CoveringQuad(qs, 0, 0);
    var q := qs[0];
    assert WellFormed(q) && qs[..0] == [];
    // the first quad starts at cell (0, 0), the first in scan order
    assert forall j :: 0 < j < |qs| ==> Before(q.x, q.y, qs[j].x, qs[j].y);
    // its run is the whole row
    assert StoppedAtRunEnd(orig, qs, 0);
    // and its widening reaches the last row
    assert StoppedAtGap(orig, qs, 0);
    assert forall c :: !GapAt(orig, qs, 0, c);
    // any other quad would share a cell with it
    ExactCoverDisjoint(qs, orig);
    assert |qs| <= 1 || (WellFormed(qs[1]) && Covers(qs[1], qs[1].x, qs[1].y) && Covers(q, qs[1].x, qs[1].y));
    assert qs == [q];
  }
}

=== FILE: hashtable.dfy ===
/** `sogl::hashTable<T>`: an open-addressing table keyed by C strings, with
    linear probing.

    A key is the bytes of a NUL-terminated buffer up to its terminator (at
    most 0xFFFF of them); its slot is its 64-bit FNV hash reduced modulo the
    table size, and a collision moves on to the next slot, wrapping at the
    end.  A slot is empty (`key == nullptr`) or holds a key, a value pointer
    and the `isManaged` flag.

    The table here reduces the starting slot modulo the size on every path
    and marks a removed slot with a tombstone (`Deleted`) that lookups probe
    past; the members named `...AsWritten` keep what the source does where
    that differs. */
module HashTables {
  import Fnv
  import MathUtil
  import opened LinkedLists

  type Byte = Fnv.Byte
  type Key = seq<Byte>

  /** `findBufferEnd` stops after this many bytes (the largest `uint16_t`). */
  const MAX_KEY: nat := 0xFFFF

  datatype Slot<V> = Empty | Deleted | Full(key: Key, value: V, managed: bool)

  // ---------------------------------------------------------------- keys

  /** The length of the key at the start of `buffer`: the bytes before the
      first NUL, or the first `MAX_KEY` bytes when no NUL comes sooner. */
  function KeyLength(buffer: seq<Byte>): (n: nat)
    requires 0 in buffer
    ensures n <= MAX_KEY && n < |buffer|
    ensures forall k :: 0 <= k < n ==> buffer[k] != 0
    ensures n < MAX_KEY ==> buffer[n] == 0
  {
    KeyLengthFrom(buffer, 0)
  }

  function KeyLengthFrom(buffer: seq<Byte>, i: nat): (n: nat)
    requires 0 in buffer && i <= MAX_KEY && i < |buffer|
    requires forall k :: 0 <= k < i ==> buffer[k] != 0
    ensures i <= n <= MAX_KEY && n < |buffer|
    ensures forall k :: 0 <= k < n ==> buffer[k] != 0
    ensures n < MAX_KEY ==> buffer[n] == 0
    decreases MAX_KEY - i
  {
    var z :| 0 <= z < |buffer| && buffer[z] == 0;
    assert i < z || buffer[i] == 0;
    if i == MAX_KEY || buffer[i] == 0 then i else KeyLengthFrom(buffer, i + 1)
  }

  /** `findBufferEnd(buffer)`, as the offset of the end from the start. */
  method FindBufferEnd(buffer: seq<Byte>) returns (end: nat)
    requires 0 in buffer
    ensures end == KeyLength(buffer)
  {
    end := 0;
    var i := 0;
    ghost var z :| 0 <= z < |buffer| && buffer[z] == 0;
    while i < MAX_KEY
      invariant end == i <= MAX_KEY && i <= z
      invariant forall k :: 0 <= k < i ==> buffer[k] != 0
      invariant KeyLengthFrom(buffer, i) == KeyLength(buffer)
      decreases MAX_KEY - i
    {
      if buffer[end] == 0 {
        return end;
      }
      end := end + 1;
      i := i + 1;
    }
  }

  /** `compareKeys(item, key, keyEnd)`: the lengths first, then byte by byte. */
  method CompareKeys(stored: Key, key: Key) returns (same: bool)
    ensures same <==> stored == key
  {
    if |stored| != |key| {
      return false;
    }
    var i := 0;
    while i < |stored|
      invariant 0 <= i <= |stored|
      invariant stored[..i] == key[..i]
    {
      if key[i] != stored[i] {
        return false;
      }
      i := i + 1;
    }
    assert stored == stored[..i] && key == key[..i];
    return true;
  }

  /** `getHash(buffer, bufferEnd)`: the FNV hash of the key, as a number. */
  function KeyHash(key: Key): nat
  {
    Fnv.Hash(key) as nat
  }

  // ---------------------------------------------------------------- probing

  /** The slot a key starts probing from in a table of `n` slots. */
  function Home(hash: Key -> nat, key: Key, n: nat): (h: nat)
    requires n >= 1
    ensures h < n
  {
    hash(key) % n
  }

  /** The `t`-th slot probed from `home`: `(home + t) % n` for `t < n`. */
  function Probe(home: nat, t: nat, n: nat): (j: nat)
    requires home < n && t < n
    ensures j < n
    ensures t > 0 ==> j != home
  {
    if home + t < n then home + t else home + t - n
  }

  /** How many steps from `home` the probe takes to reach slot `j`. */
  function Dist(home: nat, j: nat, n: nat): (t: nat)
    requires home < n && j < n
    ensures t < n && Probe(home, t, n) == j
    ensures forall u :: 0 <= u < n && Probe(home, u, n) == j ==> u == t
  {
    if home <= j then j - home else j + n - home
  }

  /** `hash = (hash + 1) % size` moves the probe one step on, and after the
      last step it is back where it started. */
  lemma ProbeNext(home: nat, t: nat, n: nat)
    requires home < n && t < n
    ensures (Probe(home, t, n) + 1) % n == if t + 1 < n then Probe(home, t + 1, n) else home
  {
    var j := Probe(home, t, n);
    if j + 1 < n {
      MathUtil.ModOfSmaller(j + 1, n);
    } else {
      MathUtil.ModOfSelf(n);
    }
  }

  /** Every slot between a key's home and the slot holding it is non-empty,
      so a probe for the key does not stop before reaching it. */
  ghost predicate ChainOK<V>(s: seq<Slot<V>>, hash: Key -> nat, j: nat)
    requires j < |s|
  {
    s[j].Full? ==>
      var home := Home(hash, s[j].key, |s|);
      forall t :: 0 <= t < Dist(home, j, |s|) ==> !s[Probe(home, t, |s|)].Empty?
  }

  /** The probing invariant of the whole table. */
  ghost predicate Intact<V>(s: seq<Slot<V>>, hash: Key -> nat)
  {
    |s| >= 1 && forall j :: 0 <= j < |s| ==> ChainOK(s, hash, j)
  }

  predicate HasKey<V>(s: seq<Slot<V>>, key: Key)
  {
    exists j :: 0 <= j < |s| && s[j].Full? && s[j].key == key
  }

  predicate NoTombstones<V>(s: seq<Slot<V>>)
  {
    forall j :: 0 <= j < |s| ==> !s[j].Deleted?
  }

  /** The slot a lookup for `key` stops at, probing from step `t` on: the
      first slot holding the key, or nothing once an empty slot is met or
      every slot was probed. */
  function LocateFrom<V>(s: seq<Slot<V>>, home: nat, key: Key, t: nat): (r: Option<nat>)
    requires home < |s| && t <= |s|
    ensures r.Some? ==> r.value < |s| && s[r.value].Full? && s[r.value].key == key
    decreases |s| - t
  {
    if t == |s| then None
    else
      var j := Probe(home, t, |s|);
      match s[j]
      case Empty => None
      case Deleted => LocateFrom(s, home, key, t + 1)
      case Full(k, _, _) => if k == key then Some(j) else LocateFrom(s, home, key, t + 1)
  }

  function Locate<V>(s: seq<Slot<V>>, hash: Key -> nat, key: Key): Option<nat>
    requires |s| >= 1
  {
    LocateFrom(s, Home(hash, key, |s|), key, 0)
  }

  /** In an intact table a lookup reaches every slot holding the key it
      has not passed yet. */
  lemma {:induction false} LocateReaches<V>(s: seq<Slot<V>>, hash: Key -> nat, key: Key, j: nat, t: nat)
    requires Intact(s, hash) && j < |s| && s[j].Full? && s[j].key == key
    requires t <= Dist(Home(hash, key, |s|), j, |s|)
    ensures LocateFrom(s, Home(hash, key, |s|), key, t).Some?
    decreases |s| - t
  {
    var home := Home(hash, key, |s|);
    assert ChainOK(s, hash, j);
    if t < Dist(home, j, |s|) {
      var p := Probe(home, t, |s|);
      assert !s[p].Empty?;
      if !(s[p].Full? && s[p].key == key) {
        LocateReaches(s, hash, key, j, t + 1);
      }
    }
  }

  /** In an intact table a lookup finds a key exactly when the table holds it. */
  lemma LocateComplete<V>(s: seq<Slot<V>>, hash: Key -> nat, key: Key)
    requires Intact(s, hash)
    ensures Locate(s, hash, key).Some? <==> HasKey(s, key)
  {
    if HasKey(s, key) {
      var j :| 0 <= j < |s| && s[j].Full? && s[j].key == key;
      LocateReaches(s, hash, key, j, 0);
    }
  }

  /** Without tombstones a lookup stops at the first slot that is not full. */
  lemma {:induction false} LocateNoTombstones<V>(s: seq<Slot<V>>, home: nat, key: Key, t: nat)
    requires home < |s| && t < |s| && NoTombstones(s) && !s[Probe(home, t, |s|)].Full?
    ensures LocateFrom(s, home, key, t) == None
  {
  }

  // ---------------------------------------------------------------- contents

  ghost function Piece<V>(x: Slot<V>): multiset<(Key, V)>
  {
    if x.Full? then multiset{(x.key, x.value)} else multiset{}
  }

  /** The key/value pairs the slots hold, with multiplicity. */
  ghost function Stored<V>(s: seq<Slot<V>>): (m: multiset<(Key, V)>)
    ensures |m| <= |s|
  {
    if s == [] then multiset{} else Stored(s[..|s| - 1]) + Piece(s[|s| - 1])
  }

  lemma StoredWhole<V>(s: seq<Slot<V>>)
    ensures Stored(s[..|s|]) == Stored(s)
  {
    assert s[..|s|] == s;
  }

  lemma StoredPrefix<V>(s: seq<Slot<V>>, i: nat)
    requires i < |s|
    ensures Stored(s[..i + 1]) == Stored(s[..i]) + Piece(s[i])
  {
    assert s[..i + 1][..i] == s[..i];
  }

  /** The pairs of a concatenation are those of its two parts. */
  lemma {:induction false} StoredAppend<V>(a: seq<Slot<V>>, b: seq<Slot<V>>)
    ensures Stored(a + b) == Stored(a) + Stored(b)
    decreases |b|
  {
    if b != [] {
      assert (a + b)[..|a + b| - 1] == a + b[..|b| - 1];
      StoredAppend(a, b[..|b| - 1]);
    } else {
      assert a + b == a;
    }
  }

  /** Overwriting slot `j` with `x` trades the pair of the old slot for
      the pair of `x`. */
  lemma StoredUpdate<V>(s: seq<Slot<V>>, j: nat, x: Slot<V>)
    requires j < |s|
    ensures Stored(s[j := x]) + Piece(s[j]) == Stored(s) + Piece(x)
  {
    var front, back := s[..j], s[j + 1..];
    assert s == front + [s[j]] + back;
    assert s[j := x] == front + [x] + back;
    StoredAppend(front + [s[j]], back);
    StoredAppend(front, [s[j]]);
    StoredAppend(front + [x], back);
    StoredAppend(front, [x]);
    assert Stored([s[j]]) == Piece(s[j]) && Stored([x]) == Piece(x);
    Swap(Stored(front), Piece(s[j]), Stored(back), Piece(x));
  }

  /** Exchanging two parts of a sum leaves the sum unchanged. */
  lemma Swap<T>(f: multiset<T>, p: multiset<T>, b: multiset<T>, q: multiset<T>)
    ensures f + q + b + p == f + p + b + q
  {
    forall e
      ensures (f + q + b + p)[e] == (f + p + b + q)[e]
    {
    }
  }

  lemma CountDrops<T>(after: multiset<T>, gone: multiset<T>, before: multiset<T>, added: multiset<T>)
    requires after + gone == before + added && |gone| == 1 && |added| == 0
    ensures |after| + 1 == |before|
  {
    assert |after + gone| == |after| + |gone|;
    assert |before + added| == |before| + |added|;
  }

  lemma {:induction false} StoredNone<V>(s: seq<Slot<V>>)
    requires forall j :: 0 <= j < |s| ==> !s[j].Full?
    ensures Stored(s) == multiset{}
    decreases |s|
  {
    if s != [] {
      StoredNone(s[..|s| - 1]);
    }
  }

  lemma {:induction false} StoredAllFull<V>(s: seq<Slot<V>>)
    requires forall j :: 0 <= j < |s| ==> s[j].Full?
    ensures |Stored(s)| == |s|
    decreases |s|
  {
    if s != [] {
      StoredAllFull(s[..|s| - 1]);
    }
  }

  /** A table holding fewer pairs than slots has a slot free on every probe
      sequence: `t` slots all full means `t` is not the whole table. */
  lemma ProbeRoom<V>(s: seq<Slot<V>>, home: nat, t: nat)
    requires home < |s| && t <= |s| && |Stored(s)| < |s|
    requires forall u :: 0 <= u < t ==> s[Probe(home, u, |s|)].Full?
    ensures t < |s|
  {
    if t == |s| {
      forall j | 0 <= j < |s|
        ensures s[j].Full?
      {
        assert s[Probe(home, Dist(home, j, |s|), |s|)].Full?;
      }
      StoredAllFull(s);
    }
  }

  /** Filling the first free slot on a key's probe sequence keeps the table
      intact. */
  lemma IntactPlace<V>(s: seq<Slot<V>>, hash: Key -> nat, x: Slot<V>, t: nat)
    requires Intact(s, hash) && x.Full?
    requires t < |s|
    requires forall u :: 0 <= u < t ==> !s[Probe(Home(hash, x.key, |s|), u, |s|)].Empty?
    requires !s[Probe(Home(hash, x.key, |s|), t, |s|)].Full?
    ensures Intact(s[Probe(Home(hash, x.key, |s|), t, |s|) := x], hash)
  {
    var n := |s|;
    var p := Probe(Home(hash, x.key, n), t, n);
    var s' := s[p := x];
    forall j | 0 <= j < n
      ensures ChainOK(s', hash, j)
    {
      if j != p {
        assert ChainOK(s, hash, j);
      }
    }
  }

  /** A table holding no key is intact. */
  lemma IntactNone<V>(s: seq<Slot<V>>, hash: Key -> nat)
    requires |s| >= 1 && forall j :: 0 <= j < |s| ==> !s[j].Full?
    ensures Intact(s, hash)
  {
    forall j | 0 <= j < |s|
      ensures ChainOK(s, hash, j)
    {
      assert !s[j].Full?;
    }
  }

  /** Replacing a held pair by a tombstone keeps the table intact. */
  lemma IntactDelete<V>(s: seq<Slot<V>>, hash: Key -> nat, p: nat)
    requires Intact(s, hash) && p < |s|
    ensures Intact(s[p := Deleted], hash)
  {
    var s' := s[p := Deleted];
    forall j | 0 <= j < |s|
      ensures ChainOK(s', hash, j)
    {
      assert ChainOK(s, hash, j);
    }
  }

  /** The probe loop shared by `insert` and `expand`: the key goes into the
      first slot on its probe sequence that holds no key. */
  method Place<V>(arr: array<Slot<V>>, hash: Key -> nat, key: Key, value: V, managed: bool) returns (p: nat)
    requires arr.Length >= 1 && |Stored(arr[..])| < arr.Length && Intact(arr[..], hash)
    modifies arr
    ensures p < arr.Length && !old(arr[p]).Full?
    ensures arr[..] == old(arr[..])[p := Full(key, value, managed)]
    ensures Intact(arr[..], hash)
    ensures Stored(arr[..]) == old(Stored(arr[..])) + multiset{(key, value)}
  {
    var n := arr.Length;
    var home := hash(key) % n;
    var h := home;
    ghost var t := 0;
    ghost var s := arr[..];
    while arr[h].Full?
      invariant arr[..] == s
      invariant t < n && h == Probe(home, t, n)
      invariant forall u :: 0 <= u < t ==> s[Probe(home, u, n)].Full?
      decreases n - t
    {
      assert s[h].Full?;
      ProbeNext(home, t, n);
      ProbeRoom(s, home, t + 1);
      h := (h + 1) % n;
      t := t + 1;
      if h == home {
        assert false;
      }
    }
    var x := Full(key, value, managed);
    assert !s[h].Full?;
    IntactPlace(s, hash, x, t);
    StoredUpdate(s, h, x);
    arr[h] := x;
    assert arr[..] == s[h := x];
    p := h;
  }


  /** One step of the `expand()` loop: an old slot's pair, if it holds
      one, is placed in the new array. */
  method PlaceAgain<V>(arr: array<Slot<V>>, hash: Key -> nat, slot: Slot<V>)
    requires arr.Length >= 1 && |Stored(arr[..])| < arr.Length && Intact(arr[..], hash)
    modifies arr
    ensures Intact(arr[..], hash) && Stored(arr[..]) == old(Stored(arr[..])) + Piece(slot)
  {
    if slot.Full? {
      var _ := Place(arr, hash, slot.key, slot.value, slot.managed);
    }
  }
  /** The starting slot `insert` and `remove` use as written: the whole
      64-bit hash, which the corrected start reduces modulo the size. */
  function StartAsWritten(key: Key): (start: nat)
    ensures start < 0x1_0000_0000_0000_0000
    ensures forall n :: n >= 1 ==> Home(KeyHash, key, n) == start % n
  {
    KeyHash(key)
  }

  class HashTable<V> {
    var count: nat
    var size: nat
    var data: array<Slot<V>>
    const hash: Key -> nat

    ghost predicate Valid()
      reads this, data
    {
      size >= 1 && data.Length == size && count == |Stored(data[..])| && count < size
      && Intact(data[..], hash)
    }

    ghost function Contents(): multiset<(Key, V)>
      reads this, data
    {
      Stored(data[..])
    }

    /** `hashTable(size)`: 32 slots below a request of 32, otherwise the
        request rounded up to a power of two; no key yet. */
    constructor (requested: nat)
      requires requested <= 0x8000_0000_0000_0000
      ensures Valid() && Contents() == multiset{} && hash == KeyHash && fresh(data)
      ensures size == if requested < 32 then 32 else MathUtil.CeilPow2(requested)
    {
      var s: nat := 32;
      if requested >= 32 {
        MathUtil.Pow2Of64();
        s := MathUtil.NextPowTwo(requested, 64);
      }
      size := s;
      data := new Slot<V>[s](_ => Empty);
      count := 0;
      hash := KeyHash;
      new;
      StoredNone(data[..]);
      IntactNone(data[..], KeyHash);
    }

    /** `hashTable(size)` as written: the array is allocated with the
        requested length rather than the computed size, so a request below
        32 leaves fewer slots than the size the table probes over. */
    constructor AsWritten(requested: nat)
      requires requested <= 0x8000_0000_0000_0000
      ensures data.Length == requested && count == 0 && hash == KeyHash
      ensures size == if requested < 32 then 32 else MathUtil.CeilPow2(requested)
      ensures requested < 32 ==> data.Length < size
    {
      var s: nat := 32;
      if requested >= 32 {
        MathUtil.Pow2Of64();
        s := MathUtil.NextPowTwo(requested, 64);
      }
      size := s;
      data := new Slot<V>[requested](_ => Empty);
      count := 0;
      hash := KeyHash;
    }

    /** `expand()`: twice the slots, every held key placed again by its
        probe sequence in the larger table. */
    method Expand()
      requires Valid()
      modifies this
      ensures Valid() && fresh(data)
      ensures size == 2 * old(size) && count == old(count)
      ensures Contents() == old(Contents())
    {
      var n := size;
      var temp := Copy(data[..], n);
      data := temp;
      size := 2 * n;
    }

    /** The loop of `expand()`: every held pair of the old slots `source`
        is placed again in a fresh array of twice the size. */
    method Copy(source: seq<Slot<V>>, n: nat) returns (temp: array<Slot<V>>)
      requires |source| == n >= 1 && |Stored(source)| < n
      ensures fresh(temp) && temp.Length == 2 * n
      ensures Intact(temp[..], hash) && Stored(temp[..]) == Stored(source)
    {
      temp := new Slot<V>[2 * n](_ => Empty);
      StoredNone(temp[..]);
      IntactNone(temp[..], hash);
      assert source[..0] == [];
      var i := 0;
      while i < n
        invariant 0 <= i <= n
        invariant Intact(temp[..], hash)
        invariant Stored(temp[..]) == Stored(source[..i])
      {
        StoredPrefix(source, i);
        PlaceAgain(temp, hash, source[i]);
        i := i + 1;
      }
      StoredWhole(source);
    }

    /** `insert(key, value, isManaged)`: grows the table when the count
        reaches the size, then stores the key in the first free slot of its
        probe sequence and returns the stored copy.  A key already held is
        stored once more. */
    method Insert(buffer: seq<Byte>, value: V, managed: bool) returns (stored: Key)
      requires Valid() && 0 in buffer
      modifies this, data
      ensures Valid() && count == old(count) + 1
      ensures stored == buffer[..KeyLength(buffer)]
      ensures Contents() == old(Contents()) + multiset{(stored, value)}
      ensures HasKey(data[..], stored)
      ensures size == if old(count) + 1 == old(size) then 2 * old(size) else old(size)
    {
      if count + 1 == size {
        Expand();
      }
      stored := Store(buffer, value, managed);
    }

    /** The part of `insert` after the growth check. */
    method Store(buffer: seq<Byte>, value: V, managed: bool) returns (stored: Key)
      requires Valid() && 0 in buffer && count + 1 < size
      modifies this, data
      ensures Valid() && count == old(count) + 1 && size == old(size) && data == old(data)
      ensures stored == buffer[..KeyLength(buffer)]
      ensures Contents() == old(Contents()) + multiset{(stored, value)}
      ensures HasKey(data[..], stored)
    {
      var end := FindBufferEnd(buffer);
      stored := buffer[..end];
      var p := Place(data, hash, stored, value, managed);
      assert data[..][p].Full? && data[..][p].key == stored;
      count := count + 1;
    }

    /** `contains(key, foundValue)`: probes from the key's slot until it
        meets the key, an empty slot, or its start again. */
    method Contains(buffer: seq<Byte>, outValue: V) returns (found: bool, value: V)
      requires Valid() && 0 in buffer
      ensures var r := Locate(data[..], hash, buffer[..KeyLength(buffer)]);
        found == r.Some? && value == (if found then data[r.value].value else outValue)
      ensures found <==> HasKey(data[..], buffer[..KeyLength(buffer)])
    {
      var end := FindBufferEnd(buffer);
      var key := buffer[..end];
      LocateComplete(data[..], hash, key);
      var home := hash(key) % size;
      var h := home;
      ghost var t := 0;
      while !data[h].Empty?
        invariant t < size && h == Probe(home, t, size)
        invariant LocateFrom(data[..], home, key, t) == Locate(data[..], hash, key)
        decreases size - t
      {
        if data[h].Full? {
          var same := CompareKeys(data[h].key, key);
          if same {
            return true, data[h].value;
          }
        }
        ProbeNext(home, t, size);
        h := (h + 1) % size;
        t := t + 1;
        if h == home {
          return false, outValue;
        }
      }
      return false, outValue;
    }

    /** `remove(key)`, with a tombstone left in the slot of the removed key
        so that lookups for keys placed after it still probe past it. */
    method Remove(buffer: seq<Byte>) returns (removed: bool)
      requires Valid() && 0 in buffer
      modifies this, data
      ensures Valid() && size == old(size) && data == old(data)
      ensures var r := old(Locate(data[..], hash, buffer[..KeyLength(buffer)]));
        removed == r.Some?
        && (removed ==> data[..] == old(data[..])[r.value := Deleted] && count == old(count) - 1
                        && Contents() + multiset{(buffer[..KeyLength(buffer)], old(data[r.value]).value)} == old(Contents()))
        && (!removed ==> data[..] == old(data[..]) && count == old(count))
      ensures removed <==> old(HasKey(data[..], buffer[..KeyLength(buffer)]))
    {
      var end := FindBufferEnd(buffer);
      var key := buffer[..end];
      LocateComplete(data[..], hash, key);
      var r := Seek(key);
      if r.None? {
        return false;
      }
      var h := r.value;
      ghost var s := data[..];
      IntactDelete(s, hash, h);
      StoredUpdate(s, h, Deleted);
      CountDrops(Stored(s[h := Deleted]), Piece(s[h]), Stored(s), Piece<V>(Deleted));
      data[h] := Deleted;
      count := count - 1;
      assert data[..] == s[h := Deleted];
      return true;
    }

    /** The probe loop of `remove(key)`: from the key's slot on, past
        tombstones, until the key, an empty slot, or the start again. */
    method Seek(key: Key) returns (r: Option<nat>)
      requires Valid()
      ensures r == Locate(data[..], hash, key)
    {
      var home := hash(key) % size;
      var h := home;
      ghost var t := 0;
      while !data[h].Empty?
        invariant t < size && h == Probe(home, t, size)
        invariant LocateFrom(data[..], home, key, t) == Locate(data[..], hash, key)
        decreases size - t
      {
        if data[h].Full? {
          var same := CompareKeys(data[h].key, key);
          if same {
            return Some(h);
          }
        }
        ProbeNext(home, t, size);
        h := (h + 1) % size;
        t := t + 1;
        if h == home {
          return None;
        }
      }
      return None;
    }

    /** `remove(key)` as written (from the reduced starting slot): the slot
        of the removed key is emptied outright.  The count still matches
        the contents, but the probing invariant may break. */
    method RemoveAsWritten(buffer: seq<Byte>) returns (removed: bool)
      requires Valid() && 0 in buffer && NoTombstones(data[..])
      modifies this, data
      ensures size == old(size) && data == old(data) && count == |Stored(data[..])|
      ensures var r := old(Locate(data[..], hash, buffer[..KeyLength(buffer)]));
        removed == r.Some?
        && (removed ==> data[..] == old(data[..])[r.value := Empty] && count == old(count) - 1)
        && (!removed ==> data[..] == old(data[..]) && count == old(count))
    {
      var end := FindBufferEnd(buffer);
      var key := buffer[..end];
      var r := SeekAsWritten(key);
      if r.None? {
        return false;
      }
      var h := r.value;
      ghost var s := data[..];
      StoredUpdate(s, h, Empty);
      CountDrops(Stored(s[h := Empty]), Piece(s[h]), Stored(s), Piece<V>(Empty));
      data[h] := Empty;
      count := count - 1;
      assert data[..] == s[h := Empty];
      return true;
    }

    /** The probe loop of `remove(key)` as written: it stops at the first
        slot without a key, which in a table without tombstones is the
        lookup of `Locate`. */
    method SeekAsWritten(key: Key) returns (r: Option<nat>)
      requires Valid() && NoTombstones(data[..])
      ensures r == Locate(data[..], hash, key)
    {
      var home := hash(key) % size;
      var h := home;
      ghost var t := 0;
      while data[h].Full?
        invariant t < size && h == Probe(home, t, size)
        invariant LocateFrom(data[..], home, key, t) == Locate(data[..], hash, key)
        decreases size - t
      {
        var same := CompareKeys(data[h].key, key);
        if same {
          return Some(h);
        }
        ProbeNext(home, t, size);
        h := (h + 1) % size;
        t := t + 1;
        if h == home {
          return None;
        }
      }
      LocateNoTombstones(data[..], home, key, t);
      return None;
    }
  }

  // ---------------------------------------------------------------- findings

  /** As written, `insert` and `remove` index the slots with the full hash:
      for the key "A" that is far past the 32 slots of a new table, while
      the reduced start is slot 12. */
  lemma StartOutOfRange()
    ensures StartAsWritten([65]) >= 32
    ensures Home(KeyHash, [65], 32) == 12
  {
    Fnv.HashesOfSingleBytes();
  }

  /** The 32-slot table after inserting "A" and then "a": both keys start
      at slot 12, so "a" lands in slot 13. */
  function CollidingPair<V>(v: V): seq<Slot<V>>
  {
    seq(32, _ => Empty)[12 := Full([65], v, false)][13 := Full([97], v, false)]
  }

  /** Emptying the slot of "A" outright, as `remove` does, leaves "a" in
      the table where no lookup finds it; the tombstone keeps it found. */
  lemma RemoveLeavesHole<V>(v: V)
    ensures Intact(CollidingPair(v), KeyHash)
    ensures Locate(CollidingPair(v), KeyHash, [97]) == Some(13)
    ensures HasKey(CollidingPair(v)[12 := Empty], [97])
    ensures Locate(CollidingPair(v)[12 := Empty], KeyHash, [97]) == None
    ensures Locate(CollidingPair(v)[12 := Deleted], KeyHash, [97]) == Some(13)
  {
    Fnv.HashesOfSingleBytes();
    var s := CollidingPair(v);
    assert Home(KeyHash, [65], 32) == 12;
    assert Home(KeyHash, [97], 32) == 12;
    forall j | 0 <= j < 32
      ensures ChainOK(s, KeyHash, j)
    {
      if j != 12 && j != 13 {
        assert !s[j].Full?;
      }
    }
    assert [65] != [97] by { assert [65][0] != [97][0]; }
    assert LocateFrom(s, 12, [97], 1) == Some(13);
    assert LocateFrom(s[12 := Deleted], 12, [97], 1) == Some(13);
    assert s[12 := Empty][13].key == [97];
  }
}

=== FILE: linkedlist.dfy ===
/** `linkedList<T>`: a singly linked list with head and tail pointers.

    The heap of list nodes is the map `nodes` from node identities to
    nodes; `new node` takes the next unused identity and `delete` removes
    an identity from the map, so a pointer to a deleted node is an identity
    that is no longer a key.  The ghost field `spine` lists the identities
    from the head along the `next` pointers. */
module LinkedLists {

  datatype Option<T> = None | Some(value: T)

  datatype Node<T> = Node(item: T, next: Option<nat>)

  /** The pointer held by the node before position `k` of the spine. */
  function Link(spine: seq<nat>, k: nat): Option<nat>
  {
    if k < |spine| then Some(spine[k]) else None
  }

  /** `spine` is the chain of distinct nodes reached from its first element,
      ending in a null `next`.  The map may hold further nodes off the
      chain; no node of the chain points to them. */
  ghost predicate Chain<T>(nodes: map<nat, Node<T>>, spine: seq<nat>)
  {
    && (forall i, j :: 0 <= i < j < |spine| ==> spine[i] != spine[j])
    && (forall i :: 0 <= i < |spine| ==> spine[i] in nodes)
    && (forall i {:trigger nodes[spine[i]]} :: 0 <= i < |spine| ==> nodes[spine[i]].next == Link(spine, i + 1))
  }

  /** The items along the chain. */
  ghost function ItemsOf<T>(nodes: map<nat, Node<T>>, spine: seq<nat>): (s: seq<T>)
    requires forall i :: 0 <= i < |spine| ==> spine[i] in nodes
    ensures |s| == |spine|
  {
    seq(|spine|, i requires 0 <= i < |spine| => nodes[spine[i]].item)
  }

  /** `s` with `x` placed at position `i`. */
  function Insert<T>(s: seq<T>, i: nat, x: T): (r: seq<T>)
    requires i <= |s|
    ensures |r| == |s| + 1 && r[i] == x
    ensures forall k :: 0 <= k < i ==> r[k] == s[k]
    ensures forall k :: i < k < |r| ==> r[k] == s[k - 1]
  {
    s[..i] + [x] + s[i..]
  }

  /** `s` without position `i`. */
  function Delete<T>(s: seq<T>, i: nat): (r: seq<T>)
    requires i < |s|
    ensures |r| == |s| - 1
    ensures forall k :: 0 <= k < i ==> r[k] == s[k]
    ensures forall k :: i <= k < |r| ==> r[k] == s[k + 1]
  {
    s[..i] + s[i + 1..]
  }

  /** The position of the first copy of `x` in `s`. */
  function FirstIndex<T(==)>(s: seq<T>, x: T): (i: nat)
    requires x in s
    ensures i < |s| && s[i] == x
    ensures forall k :: 0 <= k < i ==> s[k] != x
  {
    if s[0] == x then 0 else 1 + FirstIndex(s[1..], x)
  }

  /** Deleting what was inserted gives back the sequence. */
  lemma DeleteInsert<T>(s: seq<T>, i: nat, x: T)
    requires i <= |s|
    ensures Delete(Insert(s, i, x), i) == s
  {
    var r := Delete(Insert(s, i, x), i);
    assert forall k :: 0 <= k < |s| ==> r[k] == s[k];
  }

  /** Deleting the first copy of `x` takes one `x` out of the multiset of
      items and leaves every other item. */
  lemma DeleteFirstIndex<T>(s: seq<T>, x: T)
    requires x in s
    ensures multiset(Delete(s, FirstIndex(s, x))) == multiset(s) - multiset{x}
  {
    var i := FirstIndex(s, x);
    assert s == s[..i] + ([x] + s[i + 1..]);
    assert Delete(s, i) == s[..i] + s[i + 1..];
    assert multiset(s) == multiset(s[..i]) + (multiset{x} + multiset(s[i + 1..]));
  }

  /** Inserting at position `i` of a chain, after the node at `i - 1`. */
  lemma ChainInsert<T>(nodes: map<nat, Node<T>>, spine: seq<nat>, i: nat, newId: nat, x: T)
    requires Chain(nodes, spine) && 0 < i <= |spine| && newId !in nodes
    ensures var before := spine[i - 1];
            var nodes' := nodes[before := nodes[before].(next := Some(newId))][newId := Node(x, Link(spine, i))];
            var spine' := spine[..i] + [newId] + spine[i..];
            Chain(nodes', spine') && ItemsOf(nodes', spine') == Insert(ItemsOf(nodes, spine), i, x)
  {
    var before := spine[i - 1];
    var nodes' := nodes[before := nodes[before].(next := Some(newId))][newId := Node(x, Link(spine, i))];
    var spine' := spine[..i] + [newId] + spine[i..];
    InsertedSpine(nodes, spine, i, newId, spine');
    InsertedLinks(nodes, spine, i, newId, x, nodes', spine');
    InsertedItems(nodes, spine, i, newId, x, nodes', spine');
  }

  lemma InsertedSpine<T>(nodes: map<nat, Node<T>>, spine: seq<nat>, i: nat, newId: nat, spine': seq<nat>)
    requires Chain(nodes, spine) && 0 < i <= |spine| && newId !in nodes
    requires spine' == spine[..i] + [newId] + spine[i..]
    ensures |spine'| == |spine| + 1 && spine'[i] == newId
    ensures forall k :: 0 <= k < i ==> spine'[k] == spine[k]
    ensures forall k :: i < k < |spine'| ==> spine'[k] == spine[k - 1]
    ensures forall a, b :: 0 <= a < b < |spine'| ==> spine'[a] != spine'[b]
  {
    assert forall k :: 0 <= k < i ==> spine'[k] == spine[k];
    assert forall k :: i < k < |spine'| ==> spine'[k] == spine[k - 1];
    forall a, b | 0 <= a < b < |spine'|
      ensures spine'[a] != spine'[b]
    {
      if a == i {
        assert spine[b - 1] in nodes;
      } else if b == i {
        assert spine[a] in nodes;
      }
    }
  }

  lemma InsertedLinks<T>(nodes: map<nat, Node<T>>, spine: seq<nat>, i: nat, newId: nat, x: T,
                         nodes': map<nat, Node<T>>, spine': seq<nat>)
    requires Chain(nodes, spine) && 0 < i <= |spine| && newId !in nodes
    requires nodes' == nodes[spine[i - 1] := nodes[spine[i - 1]].(next := Some(newId))][newId := Node(x, Link(spine, i))]
    requires |spine'| == |spine| + 1 && spine'[i] == newId
    requires forall k :: 0 <= k < i ==> spine'[k] == spine[k]
    requires forall k :: i < k < |spine'| ==> spine'[k] == spine[k - 1]
    ensures forall k :: 0 <= k < |spine'| ==> spine'[k] in nodes'
    ensures forall k {:trigger nodes'[spine'[k]]} :: 0 <= k < |spine'| ==> nodes'[spine'[k]].next == Link(spine', k + 1)
  {
    var before := spine[i - 1];
    forall k | 0 <= k < |spine'|
      ensures spine'[k] in nodes' && nodes'[spine'[k]].next == Link(spine', k + 1)
    {
      if k < i - 1 {
        assert spine[k] != before && spine[k] in nodes;
        assert nodes[spine[k]].next == Link(spine, k + 1);
      } else if i < k {
        assert spine[k - 1] != before && spine[k - 1] in nodes;
        assert nodes[spine[k - 1]].next == Link(spine, k);
      }
    }
  }

  lemma InsertedItems<T>(nodes: map<nat, Node<T>>, spine: seq<nat>, i: nat, newId: nat, x: T,
                         nodes': map<nat, Node<T>>, spine': seq<nat>)
    requires (forall k :: 0 <= k < |spine| ==> spine[k] in nodes) && 0 < i <= |spine| && newId !in nodes
    requires nodes' == nodes[spine[i - 1] := nodes[spine[i - 1]].(next := Some(newId))][newId := Node(x, Link(spine, i))]
    requires |spine'| == |spine| + 1 && spine'[i] == newId
    requires forall k :: 0 <= k < i ==> spine'[k] == spine[k]
    requires forall k :: i < k < |spine'| ==> spine'[k] == spine[k - 1]
    requires forall k :: 0 <= k < |spine'| ==> spine'[k] in nodes'
    ensures ItemsOf(nodes', spine') == Insert(ItemsOf(nodes, spine), i, x)
  {
    var items := ItemsOf(nodes', spine');
    var expected := Insert(ItemsOf(nodes, spine), i, x);
    forall k | 0 <= k < |items|
      ensures items[k] == expected[k]
    {
      if k < i {
        assert spine[k] != newId && spine[k] in nodes;
      } else if i < k {
        assert spine[k - 1] != newId && spine[k - 1] in nodes;
      }
    }
  }

  /** Placing a new node in front of a chain. */
  lemma ChainCons<T>(nodes: map<nat, Node<T>>, spine: seq<nat>, newId: nat, x: T)
    requires Chain(nodes, spine) && newId !in nodes
    ensures var nodes' := nodes[newId := Node(x, Link(spine, 0))];
            Chain(nodes', [newId] + spine) && ItemsOf(nodes', [newId] + spine) == [x] + ItemsOf(nodes, spine)
  {
  }

  /** Unlinking and freeing the node at position `i > 0`. */
  lemma ChainDelete<T>(nodes: map<nat, Node<T>>, spine: seq<nat>, i: nat)
    requires Chain(nodes, spine) && 0 < i < |spine|
    ensures var before := spine[i - 1];
            var nodes' := nodes[before := nodes[before].(next := Link(spine, i + 1))] - {spine[i]};
            var spine' := spine[..i] + spine[i + 1..];
            Chain(nodes', spine') && ItemsOf(nodes', spine') == Delete(ItemsOf(nodes, spine), i)
  {
    var before := spine[i - 1];
    var nodes' := nodes[before := nodes[before].(next := Link(spine, i + 1))] - {spine[i]};
    var spine' := spine[..i] + spine[i + 1..];
    DeletedSpine(nodes, spine, i, spine');
    DeletedLinks(nodes, spine, i, nodes', spine');
    DeletedItems(nodes, spine, i, nodes', spine');
  }

  lemma DeletedSpine<T>(nodes: map<nat, Node<T>>, spine: seq<nat>, i: nat, spine': seq<nat>)
    requires Chain(nodes, spine) && 0 < i < |spine|
    requires spine' == spine[..i] + spine[i + 1..]
    ensures |spine'| == |spine| - 1
    ensures forall k :: 0 <= k < i ==> spine'[k] == spine[k]
    ensures forall k :: i <= k < |spine'| ==> spine'[k] == spine[k + 1]
    ensures forall a, b :: 0 <= a < b < |spine'| ==> spine'[a] != spine'[b]
  {
    assert forall k :: 0 <= k < i ==> spine'[k] == spine[k];
    assert forall k :: i <= k < |spine'| ==> spine'[k] == spine[k + 1];
    forall a, b | 0 <= a < b < |spine'|
      ensures spine'[a] != spine'[b]
    {
      if a < i && b < i {
      } else if a < i {
        assert spine'[b] == spine[b + 1];
      } else {
        assert spine'[a] == spine[a + 1] && spine'[b] == spine[b + 1];
      }
    }
  }

  lemma DeletedLinks<T>(nodes: map<nat, Node<T>>, spine: seq<nat>, i: nat, nodes': map<nat, Node<T>>, spine': seq<nat>)
    requires Chain(nodes, spine) && 0 < i < |spine|
    requires nodes' == nodes[spine[i - 1] := nodes[spine[i - 1]].(next := Link(spine, i + 1))] - {spine[i]}
    requires |spine'| == |spine| - 1
    requires forall k :: 0 <= k < i ==> spine'[k] == spine[k]
    requires forall k :: i <= k < |spine'| ==> spine'[k] == spine[k + 1]
    ensures forall k :: 0 <= k < |spine'| ==> spine'[k] in nodes'
    ensures forall k {:trigger nodes'[spine'[k]]} :: 0 <= k < |spine'| ==> nodes'[spine'[k]].next == Link(spine', k + 1)
  {
    var before := spine[i - 1];
    forall k | 0 <= k < |spine'|
      ensures spine'[k] in nodes' && nodes'[spine'[k]].next == Link(spine', k + 1)
    {
      if k < i - 1 {
        assert spine[k] != before && spine[k] != spine[i] && spine[k] in nodes;
        assert nodes[spine[k]].next == Link(spine, k + 1);
      } else if k == i - 1 {
        assert spine[k] != spine[i];
      } else {
        assert spine[k + 1] != before && spine[k + 1] != spine[i] && spine[k + 1] in nodes;
        assert nodes[spine[k + 1]].next == Link(spine, k + 2);
      }
    }
  }

  lemma DeletedItems<T>(nodes: map<nat, Node<T>>, spine: seq<nat>, i: nat, nodes': map<nat, Node<T>>, spine': seq<nat>)
    requires Chain(nodes, spine) && 0 < i < |spine|
    requires nodes' == nodes[spine[i - 1] := nodes[spine[i - 1]].(next := Link(spine, i + 1))] - {spine[i]}
    requires |spine'| == |spine| - 1
    requires forall k :: 0 <= k < i ==> spine'[k] == spine[k]
    requires forall k :: i <= k < |spine'| ==> spine'[k] == spine[k + 1]
    requires forall k :: 0 <= k < |spine'| ==> spine'[k] in nodes'
    ensures ItemsOf(nodes', spine') == Delete(ItemsOf(nodes, spine), i)
  {
    var before := spine[i - 1];
    var items := ItemsOf(nodes', spine');
    var expected := Delete(ItemsOf(nodes, spine), i);
    forall k | 0 <= k < |items|
      ensures items[k] == expected[k]
    {
      if k < i - 1 {
        assert spine[k] != before && spine[k] != spine[i] && spine[k] in nodes;
      } else if k == i - 1 {
        assert spine[k] != spine[i];
      } else {
        assert spine[k + 1] != before && spine[k + 1] != spine[i] && spine[k + 1] in nodes;
      }
    }
  }

  /** Freeing the head node of a chain. */
  lemma ChainDropHead<T>(nodes: map<nat, Node<T>>, spine: seq<nat>)
    requires Chain(nodes, spine) && spine != []
    ensures Chain(nodes - {spine[0]}, spine[1..])
    ensures ItemsOf(nodes - {spine[0]}, spine[1..]) == Delete(ItemsOf(nodes, spine), 0)
  {
  }

  /** The list fields describe the chain `spine`: the count is its length,
      `head` and `tail` are its ends, and every identity in use is below
      the next one to be handed out. */
  ghost predicate Wf<T>(nodes: map<nat, Node<T>>, spine: seq<nat>, count: nat, nextId: nat,
                        head: Option<nat>, tail: Option<nat>)
  {
    && Chain(nodes, spine)
    && count == |spine|
    && (forall id :: id in nodes ==> id < nextId)
    && head == Link(spine, 0)
    && tail == (if spine == [] then None else Some(spine[|spine| - 1]))
  }

  /** A new node linked after the node at `i - 1`; after the last node it
      becomes the tail. */
  lemma WfInsert<T>(nodes: map<nat, Node<T>>, spine: seq<nat>, count: nat, nextId: nat,
                    head: Option<nat>, tail: Option<nat>, i: nat, x: T)
    requires Wf(nodes, spine, count, nextId, head, tail) && 0 < i <= |spine|
    ensures var nodes' := nodes[spine[i - 1] := nodes[spine[i - 1]].(next := Some(nextId))][nextId := Node(x, Link(spine, i))];
            var spine' := Insert(spine, i, nextId);
            && Wf(nodes', spine', count + 1, nextId + 1, head, if i == |spine| then Some(nextId) else tail)
            && ItemsOf(nodes', spine') == Insert(ItemsOf(nodes, spine), i, x)
  {
    ChainInsert(nodes, spine, i, nextId, x);
  }

  /** A new node placed before the head; in an empty list it is also the
      tail. */
  lemma WfCons<T>(nodes: map<nat, Node<T>>, spine: seq<nat>, count: nat, nextId: nat,
                  head: Option<nat>, tail: Option<nat>, x: T)
    requires Wf(nodes, spine, count, nextId, head, tail)
    ensures var nodes' := nodes[nextId := Node(x, head)];
            && Wf(nodes', [nextId] + spine, count + 1, nextId + 1, Some(nextId), if spine == [] then Some(nextId) else tail)
            && ItemsOf(nodes', [nextId] + spine) == [x] + ItemsOf(nodes, spine)
  {
    ChainCons(nodes, spine, nextId, x);
  }

  /** The node at `i > 0` unlinked and freed; when it was the tail, its
      predecessor becomes the tail. */
  lemma WfDelete<T>(nodes: map<nat, Node<T>>, spine: seq<nat>, count: nat, nextId: nat,
                    head: Option<nat>, tail: Option<nat>, i: nat)
    requires Wf(nodes, spine, count, nextId, head, tail) && 0 < i < |spine|
    ensures var nodes' := nodes[spine[i - 1] := nodes[spine[i - 1]].(next := Link(spine, i + 1))] - {spine[i]};
            var spine' := Delete(spine, i);
            && Wf(nodes', spine', count - 1, nextId, head, if i == |spine| - 1 then Some(spine[i - 1]) else tail)
            && ItemsOf(nodes', spine') == Delete(ItemsOf(nodes, spine), i)
  {
    ChainDelete(nodes, spine, i);
  }

  /** The head node freed and its successor made the head; a list that
      becomes empty has no tail. */
  lemma WfDropHead<T>(nodes: map<nat, Node<T>>, spine: seq<nat>, count: nat, nextId: nat,
                      head: Option<nat>, tail: Option<nat>)
    requires Wf(nodes, spine, count, nextId, head, tail) && spine != []
    ensures && Wf(nodes - {spine[0]}, spine[1..], count - 1, nextId, Link(spine, 1), if |spine| == 1 then None else tail)
            && ItemsOf(nodes - {spine[0]}, spine[1..]) == Delete(ItemsOf(nodes, spine), 0)
  {
    ChainDropHead(nodes, spine);
  }

  class LinkedList<T(0, ==)> {
    var nodes: map<nat, Node<T>>
    var head: Option<nat>
    var tail: Option<nat>
    var count: nat
    /** The identity the next `new node` receives. */
    var nextId: nat
    ghost var spine: seq<nat>

    ghost predicate Valid()
      reads this
    {
      Wf(nodes, spine, count, nextId, head, tail)
    }

    /** The items from head to tail. */
    ghost function Items(): (s: seq<T>)
      reads this
      requires Valid()
      ensures |s| == count
    {
      ItemsOf(nodes, spine)
    }

    /** `linkedList()` */
    constructor ()
      ensures Valid() && Items() == []
    {
      nodes := map[];
      head := None;
      tail := None;
      count := 0;
      nextId := 0;
      spine := [];
    }

    /** `size()` */
    function Size(): (n: nat)
      reads this
      requires Valid()
      ensures n == |Items()|
    {
      count
    }

    /** `last()`: the item of the tail node. */
    function Last(): (item: T)
      reads this
      requires Valid() && count > 0
      ensures item == Items()[count - 1]
    {
      nodes[tail.value].item
    }

    /** `add(item)`: walks from the head to the node without successor and
        links a new node after it, which becomes the tail. */
    method Add(item: T)
      requires Valid()
      modifies this
      ensures Valid()
      ensures Items() == old(Items()) + [item]
    {
      if head.None? {
        WfCons(nodes, spine, count, nextId, head, tail, item);
        nodes := nodes[nextId := Node(item, head)];
        head := Some(nextId);
        count := count + 1;
        tail := head;
        spine := [nextId] + spine;
        nextId := nextId + 1;
        return;
      }
      var temp := LastNode();
      ghost var items := Items();
      WfInsert(nodes, spine, count, nextId, head, tail, |spine|, item);
      nodes := nodes[temp := nodes[temp].(next := Some(nextId))][nextId := Node(item, None)];
      tail := Some(nextId);
      count := count + 1;
      spine := Insert(spine, |spine|, nextId);
      nextId := nextId + 1;
      assert Insert(items, |items|, item) == items + [item];
    }

    /** The walk of `add` along the `next` pointers to the last node. */
    method LastNode() returns (temp: nat)
      requires Valid() && head.Some?
      ensures spine != [] && temp == spine[|spine| - 1]
    {
      temp := head.value;
      ghost var j := 0;
      while nodes[temp].next.Some?
        invariant 0 <= j < |spine| && temp == spine[j]
        decreases |spine| - j
      {
        temp := nodes[temp].next.value;
        j := j + 1;
      }
    }

    /** `emplace(item, index)` with the new item placed at position `index`
        for every index below the count; an index at or past the count
        appends. */
    method Emplace(item: T, index: nat)
      requires Valid()
      modifies this
      ensures Valid()
      ensures index >= old(count) ==> Items() == old(Items()) + [item]
      ensures index < old(count) ==> Items() == Insert(old(Items()), index, item)
    {
      if index >= count {
        Add(item);
        return;
      }
      if index == 0 {
        PushFront(item);
        return;
      }
      InsertAfterWalk(item, index);
    }

    /** `emplace` at index 0: the new node becomes the head. */
    method PushFront(item: T)
      requires Valid() && count > 0
      modifies this
      ensures Valid() && Items() == Insert(old(Items()), 0, item)
    {
      WfCons(nodes, spine, count, nextId, head, tail, item);
      nodes := nodes[nextId := Node(item, head)];
      head := Some(nextId);
      count := count + 1;
      spine := [nextId] + spine;
      nextId := nextId + 1;
    }

    /** The general case of `emplace`: walk `index` nodes and link the new
        node between the node at `index - 1` and the node at `index`. */
    method InsertAfterWalk(item: T, index: nat)
      requires Valid() && 0 < index < count
      modifies this
      ensures Valid() && Items() == Insert(old(Items()), index, item)
    {
      var lastTemp, temp := Walk(index);
      assert Link(spine, index) == Some(temp);
      WfInsert(nodes, spine, count, nextId, head, tail, index, item);
      var linked := nodes[lastTemp := nodes[lastTemp].(next := Some(nextId))][nextId := Node(item, Some(temp))];
      Relink(linked, Insert(spine, index, nextId), count + 1, nextId + 1);
    }

    /** Takes on a node map and count that keep the list's head and tail. */
    method Relink(linked: map<nat, Node<T>>, ghost spine': seq<nat>, count': nat, nextId': nat)
      requires Wf(linked, spine', count', nextId', head, tail)
      modifies this
      ensures Valid() && head == old(head) && tail == old(tail)
      ensures nodes == linked && spine == spine' && count == count' && nextId == nextId'
    {
      nodes := linked;
      spine := spine';
      count := count';
      nextId := nextId';
    }

    /** The walk of `emplace` and `removeAt`: `index` steps from the head,
        remembering the node before the current one. */
    method Walk(index: nat) returns (lastTemp: nat, temp: nat)
      requires Valid() && 0 < index < count
      ensures lastTemp == spine[index - 1] && temp == spine[index]
    {
      temp := head.value;
      lastTemp := temp;
      var current := 0;
      while current < index
        invariant 0 <= current <= index && temp == spine[current]
        invariant current > 0 ==> lastTemp == spine[current - 1]
      {
        assert nodes[spine[current]].next == Link(spine, current + 1);
        lastTemp := temp;
        temp := nodes[temp].next.value;
        current := current + 1;
      }
    }

    /** `emplace(item, index)` as written: an index equal to `count - 1`
        links the new node after the tail, so the item lands at position
        `count` instead of `count - 1`. */
    method EmplaceAsWritten(item: T, index: nat)
      requires Valid()
      modifies this
      ensures Valid()
      ensures index >= old(count) ==> Items() == old(Items()) + [item]
      ensures 0 < index && index == old(count) - 1 ==> Items() == old(Items()) + [item]
      ensures index < old(count) && (index == 0 || index != old(count) - 1) ==>
                Items() == Insert(old(Items()), index, item)
    {
      if index >= count {
        Add(item);
        return;
      }
      if index == 0 {
        PushFront(item);
        return;
      } else if index == count - 1 {
        ghost var items := Items();
        WfInsert(nodes, spine, count, nextId, head, tail, |spine|, item);
        nodes := nodes[tail.value := nodes[tail.value].(next := Some(nextId))][nextId := Node(item, None)];
        tail := Some(nextId);
        count := count + 1;
        spine := Insert(spine, |spine|, nextId);
        nextId := nextId + 1;
        assert Insert(items, |items|, item) == items + [item];
        return;
      }
      InsertAfterWalk(item, index);
    }

    /** `remove(item)`: the first node holding `item` is unlinked and freed;
        when it was the tail, its predecessor becomes the tail. */
    method Remove(item: T) returns (removed: bool)
      requires Valid()
      modifies this
      ensures Valid()
      ensures removed <==> item in old(Items())
      ensures removed ==> Items() == Delete(old(Items()), FirstIndex(old(Items()), item))
      ensures !removed ==> Items() == old(Items())
    {
      if head.None? {
        return false;
      }
      var temp := head.value;
      if nodes[temp].item == item {
        assert Items()[0] == item;
        assert FirstIndex(Items(), item) == 0;
        DropHead();
        return true;
      }
      var lastTemp := temp;
      var cur := nodes[temp].next;
      ghost var j := 1;
      while cur.Some?
        invariant 1 <= j <= |spine| && lastTemp == spine[j - 1] && cur == Link(spine, j)
        invariant forall k :: 0 <= k < j ==> Items()[k] != item
        decreases |spine| - j
      {
        var t := cur.value;
        if nodes[t].item == item {
          assert Items()[j] == item;
          assert FirstIndex(Items(), item) == j;
          Unlink(j, lastTemp, t);
          return true;
        }
        lastTemp := t;
        cur := nodes[t].next;
        j := j + 1;
      }
      return false;
    }

    /** Freeing the head: its successor becomes the head, and a list that
        becomes empty has no tail. */
    method DropHead()
      requires Valid() && count > 0
      modifies this
      ensures Valid() && Items() == Delete(old(Items()), 0)
    {
      var next := nodes[head.value].next;
      WfDropHead(nodes, spine, count, nextId, head, tail);
      nodes := nodes - {head.value};
      count := count - 1;
      head := next;
      spine := spine[1..];
      if head.None? {
        tail := None;
      }
    }

    /** Unlinking the node `t` at position `j > 0` after its predecessor
        `lastTemp`, and freeing it; the predecessor of a freed tail becomes
        the tail. */
    method Unlink(ghost j: nat, lastTemp: nat, t: nat)
      requires Valid() && 0 < j < count && lastTemp == spine[j - 1] && t == spine[j]
      modifies this
      ensures Valid() && Items() == Delete(old(Items()), j)
    {
      WfDelete(nodes, spine, count, nextId, head, tail, j);
      nodes := nodes[lastTemp := nodes[lastTemp].(next := nodes[t].next)] - {t};
      if tail == Some(t) {
        tail := Some(lastTemp);
      }
      count := count - 1;
      spine := Delete(spine, j);
    }

    /** `removeAt(index)`: false for an index at or past the count;
        otherwise the node at `index` is unlinked and freed. */
    method RemoveAt(index: nat) returns (removed: bool)
      requires Valid()
      modifies this
      ensures Valid()
      ensures removed <==> index < old(count)
      ensures removed ==> Items() == Delete(old(Items()), index)
      ensures !removed ==> Items() == old(Items())
    {
      if index >= count {
        return false;
      }
      if index == 0 {
        DropHead();
        return true;
      }
      var lastTemp, temp := Walk(index);
      Unlink(index, lastTemp, temp);
      return true;
    }

    /** `removeAt(index)` as written, for the last node of a list of two or
        more: the predecessor's `next` is rewritten only when the removed
        node has a successor, so it keeps pointing at the freed node, and
        `tail` does too. */
    method RemoveLastAsWritten() returns (removed: bool)
      requires Valid() && count >= 2
      modifies this
      ensures removed && count == old(count) - 1
      ensures nodes == old(nodes) - {old(spine)[old(count) - 1]}
      ensures nodes[old(spine)[old(count) - 2]].next == old(tail) && tail == old(tail)
      ensures tail.Some? && tail.value !in nodes
      ensures head == old(head) && nextId == old(nextId) && spine == old(spine)
    {
      var index := count - 1;
      var lastTemp, temp := Walk(index);
      // `temp->next` is null for the last node, so `lastTemp->next` is left as is
      nodes := nodes - {temp};
      count := count - 1;
      return true;
    }

    /** `remove(item)` as written, when `item` is only in the last node:
        the predecessor's `next` is cleared but `tail` still names the
        freed node, which `last()` and a later `emplace` at `count - 1`
        dereference. */
    method RemoveTailItemAsWritten(item: T) returns (removed: bool)
      requires Valid() && count >= 2
      requires forall k :: 0 <= k < count - 1 ==> Items()[k] != item
      requires Items()[count - 1] == item
      modifies this
      ensures removed && count == old(count) - 1
      ensures nodes == old(nodes)[old(spine)[old(count) - 2] := old(nodes)[old(spine)[old(count) - 2]].(next := None)]
                       - {old(spine)[old(count) - 1]}
      ensures tail == old(tail) && tail.Some? && tail.value !in nodes
      ensures head == old(head) && nextId == old(nextId) && spine == old(spine)
    {
      var temp := head.value;
      var lastTemp := temp;
      var cur := nodes[temp].next;
      ghost var j := 1;
      while cur.Some?
        invariant 1 <= j <= |spine| && lastTemp == spine[j - 1] && cur == Link(spine, j)
        invariant forall k :: 0 <= k < j ==> Items()[k] != item
        decreases |spine| - j
      {
        var t := cur.value;
        if nodes[t].item == item {
          assert Items()[j] == item;
          // the only match is the last node, whose `next` is null
          nodes := nodes[lastTemp := nodes[lastTemp].(next := None)];
          nodes := nodes - {t};
          count := count - 1;
          return true;
        }
        lastTemp := t;
        cur := nodes[t].next;
        j := j + 1;
      }
      assert false;
    }

    /** `clear()`: every node of the list is freed and the list is empty. */
    method Clear()
      requires Valid()
      modifies this
      ensures Valid() && Items() == []
      ensures forall k :: 0 <= k < |old(spine)| ==> old(spine)[k] !in nodes
    {
      if head.None? {
        return;
      }
      nodes := FreeAll();
      count := 0;
      head := None;
      tail := None;
      spine := [];
    }

    /** The loop of `clear()`: from the head along the `next` pointers,
        each node freed after its successor is read. */
    method FreeAll() returns (heap: map<nat, Node<T>>)
      requires Valid()
      ensures forall k :: 0 <= k < |spine| ==> spine[k] !in heap
      ensures forall id :: id in heap ==> id in nodes
    {
      heap := nodes;
      var temp := head;
      ghost var j := 0;
      while temp.Some?
        invariant 0 <= j <= |spine| && temp == Link(spine, j)
        invariant forall k :: j <= k < |spine| ==> spine[k] in heap && heap[spine[k]] == nodes[spine[k]]
        invariant forall k :: 0 <= k < j ==> spine[k] !in heap
        invariant forall id :: id in heap ==> id in nodes
        decreases |spine| - j
      {
        var n := heap[temp.value].next;
        heap := heap - {temp.value};
        temp := n;
        j := j + 1;
      }
    }

    /** `toArray(outArray)`: nothing when the list is empty; otherwise a new
        array holding the items in list order. */
    method ToArray(outArray: array?<T>) returns (result: array?<T>)
      requires Valid()
      ensures count == 0 ==> result == outArray
      ensures count > 0 ==> result != null && fresh(result) && result[..] == Items()
    {
      if count <= 0 {
        return outArray;
      }
      result := new T[count];
      var index := 0;
      var current := head;
      while index < count && current.Some?
        invariant 0 <= index <= count && current == Link(spine, index)
        invariant result[..index] == Items()[..index]
        modifies result
      {
        result[index] := nodes[current.value].item;
        current := nodes[current.value].next;
        index := index + 1;
      }
      assert result[..] == result[..index];
    }

    /** `operator[](index)` walking `index` nodes from the head. */
    method Get(index: nat) returns (item: T)
      requires Valid() && index < count
      ensures item == Items()[index]
    {
      var temp := head.value;
      var current := 0;
      while current < index
        invariant 0 <= current <= index && temp == spine[current]
      {
        temp := nodes[temp].next.value;
        current := current + 1;
      }
      return nodes[temp].item;
    }

    /** `operator[](index)` as written: the counter is incremented before it
        is compared, so the walk stops one node early and every index from
        1 on reads the item before it. */
    method GetAsWritten(index: nat) returns (item: T)
      requires Valid() && index < count
      ensures item == Items()[if index == 0 then 0 else index - 1]
    {
      var temp := head.value;
      var current := 1;
      while current < index
        invariant 1 <= current <= (if index == 0 then 1 else index)
        invariant temp == spine[current - 1]
      {
        temp := nodes[temp].next.value;
        current := current + 1;
      }
      assert Items()[current - 1] == nodes[temp].item;
      return nodes[temp].item;
    }
  }
}

=== FILE: mathutil.dfy ===
/** The integer helpers of the engine's math header: `clamp`, `sign` and the
    round-up-to-a-power-of-two routine that sizes the hash table and the bit
    stack.

    `nextPowTwo` works on an unsigned machine integer of `width` bits.  Its
    register is modelled as the sequence of its bits, least significant first,
    so that `num |= num >> i` reads as it does in the source; the decrement
    before the loop and the increment after it are arithmetic on the value,
    taken modulo 2^width as the unsigned type does. */
module MathUtil {

  function Pow2(k: nat): (r: nat)
    ensures r >= 1
  {
    if k == 0 then 1 else 2 * Pow2(k - 1)
  }

  predicate IsPow2(n: nat)
  {
    n == 1 || (n > 0 && n % 2 == 0 && IsPow2(n / 2))
  }

  /** `clamp(in, min, max)` is `std::max(min, std::min(in, max))`. */
  function Clamp(x: int, lo: int, hi: int): (r: int)
    ensures lo <= hi ==> lo <= r <= hi
    ensures lo <= x <= hi ==> r == x
    ensures x < lo ==> r == lo
    ensures lo <= hi < x ==> r == hi
    ensures hi < lo ==> r == lo
  {
    var m := if hi < x then hi else x;
    if lo < m then m else lo
  }

  /** `sign(i)` is `(i > 0) - (i < 0)`. */
  function Sign(i: int): (r: int)
    ensures r == -1 || r == 0 || r == 1
    ensures r == 1 <==> i > 0
    ensures r == -1 <==> i < 0
  {
    (if i > 0 then 1 else 0) - (if i < 0 then 1 else 0)
  }

  /** The sign times the value is the magnitude. */
  lemma SignTimesValue(i: int)
    ensures Sign(i) * i == (if i < 0 then -i else i)
  {
  }

  /** The least power of two that is at least `n`. */
  function CeilPow2(n: nat): (r: nat)
    requires n >= 1
    ensures IsPow2(r) && n <= r < 2 * n
  {
    if n == 1 then 1
    else
      2 * CeilPow2((n + 1) / 2)
  }

  /** Of two different powers of two, the larger is at least twice the smaller. */
  lemma {:induction false} Pow2Gap(a: nat, b: nat)
    requires IsPow2(a) && IsPow2(b) && a < b
    ensures 2 * a <= b
  {
    if a != 1 {
      Pow2Gap(a / 2, b / 2);
    }
  }

  /** No power of two at least `n` lies below `CeilPow2(n)`. */
  lemma CeilPow2IsLeast(n: nat, p: nat)
    requires n >= 1 && IsPow2(p) && p >= n
    ensures CeilPow2(n) <= p
  {
    if p < CeilPow2(n) {
      Pow2Gap(p, CeilPow2(n));
    }
  }

  /** A power of two is its own round-up. */
  lemma CeilPow2OfPow2(n: nat)
    requires IsPow2(n)
    ensures CeilPow2(n) == n
  {
    CeilPow2IsLeast(n, n);
  }

  lemma {:induction false} Pow2IsPow2(k: nat)
    ensures IsPow2(Pow2(k))
  {
    if k > 0 {
      Pow2IsPow2(k - 1);
    }
  }

  /** The value of a bit sequence, least significant bit first. */
  function Value(s: seq<bool>): (v: nat)
    ensures v < Pow2(|s|)
  {
    if s == [] then 0 else (if s[0] then 1 else 0) + 2 * Value(s[1..])
  }

  /** The low `w` bits of `x`. */
  function ToBits(x: nat, w: nat): (s: seq<bool>)
    ensures |s| == w
  {
    if w == 0 then [] else [x % 2 == 1] + ToBits(x / 2, w - 1)
  }

  lemma {:induction false} ValueOfToBits(x: nat, w: nat)
    requires x < Pow2(w)
    ensures Value(ToBits(x, w)) == x
  {
    if w > 0 {
      ValueOfToBits(x / 2, w - 1);
      assert ToBits(x, w)[1..] == ToBits(x / 2, w - 1);
    }
  }

  /** The position of the highest set bit, or -1 when no bit is set. */
  function HighestSet(s: seq<bool>): (t: int)
    ensures -1 <= t < |s|
    ensures t >= 0 ==> s[t]
    ensures forall k :: t < k < |s| ==> !s[k]
  {
    if s == [] then -1
    else if s[|s| - 1] then |s| - 1
    else HighestSet(s[..|s| - 1])
  }

  /** A word whose highest set bit is `t` has a value in [2^t, 2^(t+1)). */
  lemma {:induction false} HighestSetBounds(s: seq<bool>, t: nat)
    requires t < |s| && s[t] && forall k :: t < k < |s| ==> !s[k]
    ensures Pow2(t) <= Value(s) < Pow2(t + 1)
  {
    if t == 0 {
      NoBitsValue(s[1..]);
    } else {
      HighestSetBounds(s[1..], t - 1);
    }
  }

  lemma {:induction false} NoBitsValue(s: seq<bool>)
    requires forall k :: 0 <= k < |s| ==> !s[k]
    ensures Value(s) == 0
  {
    if s != [] {
      NoBitsValue(s[1..]);
    }
  }

  /** A word whose bits 0..t are set and whose higher bits are clear has
      the value 2^(t+1) - 1. */
  lemma {:induction false} LowOnesValue(s: seq<bool>, t: nat)
    requires t < |s|
    requires forall k :: 0 <= k <= t ==> s[k]
    requires forall k :: t < k < |s| ==> !s[k]
    ensures Value(s) + 1 == Pow2(t + 1)
  {
    if t == 0 {
      NoBitsValue(s[1..]);
    } else {
      LowOnesValue(s[1..], t - 1);
    }
  }

  /** `num |= num >> i` on a `width`-bit register. */
  function OrShiftedRight(v: seq<bool>, i: nat): (r: seq<bool>)
    ensures |r| == |v|
    ensures forall k :: 0 <= k < |v| ==> r[k] == (v[k] || (k + i < |v| && v[k + i]))
  {
    seq(|v|, k requires 0 <= k < |v| => v[k] || (k + i < |v| && v[k + i]))
  }

  /** Bits above `t` are clear and the `i` bits from `t` downwards are set:
      the state of the register after the shifts by 1, 2, ..., i/2. */
  predicate Smeared(v: seq<bool>, t: nat, i: nat)
  {
    && t < |v|
    && (forall k :: t < k < |v| ==> !v[k])
    && (forall k :: 0 <= k <= t && t < k + i ==> v[k])
  }

  /** One round of `num |= num >> i` doubles the run of set bits below the
      highest one and sets no bit above it. */
  lemma SmearStep(v: seq<bool>, t: nat, i: nat)
    requires Smeared(v, t, i)
    ensures Smeared(OrShiftedRight(v, i), t, 2 * i)
  {
    var r := OrShiftedRight(v, i);
    forall k | 0 <= k <= t && t < k + 2 * i
      ensures r[k]
    {
      if t >= k + i {
        assert v[k + i];
      }
    }
  }

  /** When `num - 1` has its highest set bit at `t`, the round-up of `num`
      is 2^(t+1), and it fits in the type exactly when `num` is at most
      2^(width-1). */
  lemma RoundUpOfHighestBit(num: nat, width: nat, t: nat)
    requires 1 <= width && t < width
    requires Pow2(t) <= num - 1 < Pow2(t + 1)
    ensures Pow2(t + 1) % Pow2(width) == (if num <= Pow2(width - 1) then CeilPow2(num) else 0)
  {
    var p := Pow2(t + 1);
    var m := Pow2(width);
    if t + 1 < width {
      Pow2Monotone(t + 1, width - 1);
      assert p <= Pow2(width - 1) < m;
      ModOfSmaller(p, m);
      CeilOfHighestBit(num, t);
    } else {
      ModOfSelf(m);
      assert Pow2(width - 1) == Pow2(t) < num;
    }
  }

  lemma ModOfSmaller(x: nat, m: nat)
    requires x < m
    ensures x % m == x
  {
  }

  lemma ModOfSelf(m: nat)
    requires m > 0
    ensures m % m == 0
  {
  }

  lemma CeilOfHighestBit(num: nat, t: nat)
    requires Pow2(t) < num <= Pow2(t + 1)
    ensures CeilPow2(num) == Pow2(t + 1)
  {
    Pow2IsPow2(t + 1);
    CeilPow2IsLeast(num, Pow2(t + 1));
    if CeilPow2(num) < Pow2(t + 1) {
      Pow2Gap(CeilPow2(num), Pow2(t + 1));
    }
  }

  /** `nextPowTwo` on an unsigned integer of `width` bits: the least power of
      two not below `num`, or 0 when that power does not fit in the type and
      the final increment wraps.  The source instantiates it for widths of
      8, 16, 32 and 64 bits; the shifts by 1, 2, 4, ... below the width
      smear the highest bit downwards for any width. */
  method NextPowTwo(num: nat, width: nat) returns (r: nat)
    requires width >= 1
    requires 1 < num < Pow2(width)
    ensures r == (if num <= Pow2(width - 1) then CeilPow2(num) else 0)
  {
    var v := ToBits(num - 1, width);
    ghost var high := HighestSet(v);
    StartBits(num, width, v);
    ghost var t: nat := high;
    var i := 1;
    while i < width
      invariant 1 <= i
      invariant |v| == width
      invariant Smeared(v, t, i)
    {
      SmearStep(v, t, i);
      v := OrShiftedRight(v, i);
      i := 2 * i;
    }
    FinishBits(v, t, i);
    r := (Value(v) + 1) % Pow2(width);
    RoundUpOfHighestBit(num, width, t);
  }

  /** Before the shifts: `num - 1` has a highest set bit `t`, and the run of
      set bits from `t` downwards has length 1. */
  lemma StartBits(num: nat, width: nat, v: seq<bool>)
    requires 1 < num < Pow2(width) && v == ToBits(num - 1, width)
    ensures HighestSet(v) >= 0
    ensures Pow2(HighestSet(v)) <= num - 1 < Pow2(HighestSet(v) + 1)
    ensures Smeared(v, HighestSet(v), 1)
  {
    ValueOfToBits(num - 1, width);
    var t := HighestSet(v);
    if t < 0 {
      NoBitsValue(v);
    } else {
      HighestSetBounds(v, t);
    }
  }

  /** After the shifts: every bit up to `t` is set, so the register holds
      2^(t+1) - 1. */
  lemma FinishBits(v: seq<bool>, t: nat, i: nat)
    requires Smeared(v, t, i) && i >= |v|
    ensures Value(v) + 1 == Pow2(t + 1)
  {
    forall k | 0 <= k <= t
      ensures v[k]
    {
      assert t < k + i;
    }
    LowOnesValue(v, t);
  }

  lemma {:induction false} Pow2Monotone(a: nat, b: nat)
    requires a <= b
    ensures Pow2(a) <= Pow2(b)
  {
    if a < b {
      Pow2Monotone(a, b - 1);
    }
  }

  /** Quotient and remainder of a division by a positive divisor. */
  lemma DivideWithRemainder(h: nat, d: nat) returns (q: nat, r: nat)
    requires d >= 1
    ensures q == h / d && r == h % d && h == d * q + r && r < d
  {
    q := h / d;
    r := h % d;
  }

  /** The remainder is the one `r` with `h == q * c + r` and `r < c`. */
  lemma ModUnique(h: nat, c: nat, q: nat, r: nat)
    requires c >= 1 && r < c && h == q * c + r
    ensures h % c == r
  {
    var q' := h / c;
    Distributes(q', q, c);
    ScaleAway(q' - q, c);
  }

  lemma Distributes(a: int, b: int, c: int)
    ensures (a - b) * c == a * c - b * c
  {
  }

  lemma ScaleAway(d: int, c: int)
    requires c >= 1
    ensures d >= 1 ==> d * c >= c
    ensures d <= -1 ==> d * c <= -c
  {
  }

  lemma {:induction false} Pow2Add(a: nat, b: nat)
    ensures Pow2(a + b) == Pow2(a) * Pow2(b)
  {
    if b > 0 {
      Pow2Add(a, b - 1);
    }
  }

  /** The bound of a `uint64_t`. */
  lemma Pow2Of64()
    ensures Pow2(64) == 0x1_0000_0000_0000_0000
  {
    assert Pow2(1) == 2;
    Pow2Square(1, 2);
    Pow2Square(2, 4);
    Pow2Square(4, 16);
    Pow2Square(8, 256);
    Pow2Square(16, 0x1_0000);
    Pow2Square(32, 0x1_0000_0000);
  }

  lemma Pow2Square(k: nat, v: nat)
    requires Pow2(k) == v
    ensures Pow2(2 * k) == v * v
  {
    Pow2Add(k, k);
  }
}

=== FILE: mesher.dfy ===
/** The binary greedy mesher of chunkMesh.cpp: occupancy columns, face
    masks, grouping of the exposed faces into 64 x 64 planes per
    (direction, block type, slice), and the corners of the merged quads.

    The mesher's `Chunk` class (its CHUNK_SIZE constant and its getVoxel) is
    not part of this model: the voxel types the mesher reads are a cube of
    side CHUNK_SIZE = 64, voxel (x, y, z) at x + y*64 + z*64*64. */
module ChunkMesh {
  import opened Bits
  import opened FaceDirections
  import opened GreedyMesh
  import Chunk

  const CHUNK_SIZE_2: nat := CHUNK_SIZE * CHUNK_SIZE
  const CHUNK_SIZE_3: nat := CHUNK_SIZE_2 * CHUNK_SIZE

  /** The voxel types of a chunk, one byte each. */
  type Voxels = s: seq<Chunk.Byte> | |s| == CHUNK_SIZE_3 witness seq(CHUNK_SIZE_3, _ => 0)

  predicate InCube(x: int, y: int, z: int)
  {
    0 <= x < CHUNK_SIZE && 0 <= y < CHUNK_SIZE && 0 <= z < CHUNK_SIZE
  }

  function TypeAt(v: Voxels, x: int, y: int, z: int): Chunk.Byte
    requires InCube(x, y, z)
  {
    v[x + y * CHUNK_SIZE + z * CHUNK_SIZE_2]
  }

  /** A voxel that is not AIR. */
  predicate Solid(v: Voxels, x: int, y: int, z: int)
    requires InCube(x, y, z)
  {
    TypeAt(v, x, y, z) != Chunk.AIR
  }

  // ---------------------------------------------------------------------
  // ConstructAxisBitset

  /** Word of the occupancy bitset holding the column along axis a (0: y,
      1: x, 2: z) through voxel (x, y, z). */
  function ColumnOf(a: nat, x: nat, y: nat, z: nat): nat
    requires a < 3
  {
    if a == 0 then x + z * CHUNK_SIZE
    else if a == 1 then CHUNK_SIZE_2 + z + y * CHUNK_SIZE
    else 2 * CHUNK_SIZE_2 + x + y * CHUNK_SIZE
  }

  /** Bit of voxel (x, y, z) in its column along axis a. */
  function BitOf(a: nat, x: nat, y: nat, z: nat): nat
    requires a < 3
  {
    if a == 0 then y else if a == 1 then x else z
  }

  /** The bitset the ConstructAxisBitset loop has built once it has visited
      the voxels before (cy, cz, cx) in its y, z, x order. */
  predicate Visited(x: int, y: int, z: int, cy: int, cz: int, cx: int)
  {
    y < cy || (y == cy && (z < cz || (z == cz && x < cx)))
  }

  /** Column word of axis a through (x, y, z) after the visit of the voxels
      before (cy, cz, cx): the bits of the solid visited voxels. */
  ghost predicate AxisUpTo(v: Voxels, cols: seq<Word>, a: nat, cy: int, cz: int, cx: int)
    requires a < 3 && |cols| == 3 * CHUNK_SIZE_3
  {
    forall x, y, z :: InCube(x, y, z) ==>
      cols[ColumnOf(a, x, y, z)][BitOf(a, x, y, z)] == (Solid(v, x, y, z) && Visited(x, y, z, cy, cz, cx))
  }

  ghost predicate BitsetUpTo(v: Voxels, cols: seq<Word>, cy: int, cz: int, cx: int)
  {
    && |cols| == 3 * CHUNK_SIZE_3
    && AxisUpTo(v, cols, 0, cy, cz, cx)
    && AxisUpTo(v, cols, 1, cy, cz, cx)
    && AxisUpTo(v, cols, 2, cy, cz, cx)
    && (forall j :: 3 * CHUNK_SIZE_2 <= j < 3 * CHUNK_SIZE_3 ==> cols[j] == Zero())
  }

  /** Two voxels share a column along axis a exactly when they agree on the
      two coordinates other than a's. */
  lemma SameColumn(a: nat, x: nat, y: nat, z: nat, x': nat, y': nat, z': nat)
    requires a < 3 && InCube(x, y, z) && InCube(x', y', z')
    ensures (ColumnOf(a, x, y, z) == ColumnOf(a, x', y', z')) ==
            (if a == 0 then x == x' && z == z' else if a == 1 then z == z' && y == y' else x == x' && y == y')
  {
  }

  /** A change confined to the block of axis b leaves the columns of the
      other axes alone. */
  lemma AxisKept(v: Voxels, cols: seq<Word>, cols': seq<Word>, a: nat, b: nat, cy: int, cz: int, cx: int)
    requires a < 3 && b < 3 && a != b
    requires |cols| == 3 * CHUNK_SIZE_3 && |cols'| == |cols|
    requires forall j :: 0 <= j < |cols| && !(b * CHUNK_SIZE_2 <= j < (b + 1) * CHUNK_SIZE_2) ==> cols'[j] == cols[j]
    requires AxisUpTo(v, cols, a, cy, cz, cx)
    ensures AxisUpTo(v, cols', a, cy, cz, cx)
  {
    forall x, y, z | InCube(x, y, z)
      ensures cols'[ColumnOf(a, x, y, z)] == cols[ColumnOf(a, x, y, z)]
    {
    }
  }

  /** Setting the bit of solid voxel (x, y, z) in its column along axis a
      moves that column's part of the invariant one voxel on. */
  lemma AxisStep(v: Voxels, cols: seq<Word>, a: nat, x: nat, y: nat, z: nat, cols': seq<Word>)
    requires a < 3 && |cols| == 3 * CHUNK_SIZE_3 && InCube(x, y, z)
    requires AxisUpTo(v, cols, a, y, z, x)
    requires cols' == if Solid(v, x, y, z) then SetBit(cols, ColumnOf(a, x, y, z), BitOf(a, x, y, z)) else cols
    ensures |cols'| == 3 * CHUNK_SIZE_3
    ensures AxisUpTo(v, cols', a, y, z, x + 1)
  {
    forall x', y', z' | InCube(x', y', z')
      ensures cols'[ColumnOf(a, x', y', z')][BitOf(a, x', y', z')] == (Solid(v, x', y', z') && Visited(x', y', z', y, z, x + 1))
    {
      SameColumn(a, x, y, z, x', y', z');
      assert cols[ColumnOf(a, x', y', z')][BitOf(a, x', y', z')] == (Solid(v, x', y', z') && Visited(x', y', z', y, z, x));
    }
  }

  /** The finished occupancy bitset: bit BitOf(a, ..) of word ColumnOf(a, ..)
      is set exactly for the solid voxels, and the words past the three
      blocks of CHUNK_SIZE_2 columns stay zero. */
  ghost predicate IsAxisBitset(v: Voxels, cols: seq<Word>)
  {
    && |cols| == 3 * CHUNK_SIZE_3
    && (forall a, x, y, z :: 0 <= a < 3 && InCube(x, y, z) ==> cols[ColumnOf(a, x, y, z)][BitOf(a, x, y, z)] == Solid(v, x, y, z))
    && (forall j :: 3 * CHUNK_SIZE_2 <= j < 3 * CHUNK_SIZE_3 ==> cols[j] == Zero())
  }

  lemma BitsetDone(v: Voxels, cols: seq<Word>)
    requires BitsetUpTo(v, cols, CHUNK_SIZE, 0, 0)
    ensures IsAxisBitset(v, cols)
  {
    forall a, x, y, z | 0 <= a < 3 && InCube(x, y, z)
      ensures cols[ColumnOf(a, x, y, z)][BitOf(a, x, y, z)] == Solid(v, x, y, z)
    {
      assert Visited(x, y, z, CHUNK_SIZE, 0, 0);
      assert AxisUpTo(v, cols, a, CHUNK_SIZE, 0, 0);
    }
  }

  /** Before the loop nothing is visited and every word is zero. */
  lemma BitsetStart(v: Voxels, cols: seq<Word>)
    requires |cols| == 3 * CHUNK_SIZE_3 && forall j :: 0 <= j < |cols| ==> cols[j] == Zero()
    ensures BitsetUpTo(v, cols, 0, 0, 0)
  {
  }

  /** Moving from the end of one row of the loop to the start of the next. */
  lemma BitsetRowDone(v: Voxels, cols: seq<Word>, y: int, z: int)
    requires BitsetUpTo(v, cols, y, z, CHUNK_SIZE)
    ensures BitsetUpTo(v, cols, y, z + 1, 0)
  {
    forall x, y', z' | InCube(x, y', z')
      ensures Visited(x, y', z', y, z, CHUNK_SIZE) == Visited(x, y', z', y, z + 1, 0)
    {
    }
  }

  lemma BitsetPlaneDone(v: Voxels, cols: seq<Word>, y: int)
    requires BitsetUpTo(v, cols, y, CHUNK_SIZE, 0)
    ensures BitsetUpTo(v, cols, y + 1, 0, 0)
  {
    forall x, y', z' | InCube(x, y', z')
      ensures Visited(x, y', z', y, CHUNK_SIZE, 0) == Visited(x, y', z', y + 1, 0, 0)
    {
    }
  }

  /** Sets bit `k` of word `j`. */
  function SetBit(cols: seq<Word>, j: nat, k: nat): (r: seq<Word>)
    requires j < |cols| && k < WIDTH
    ensures |r| == |cols|
    ensures forall i :: 0 <= i < |cols| && i != j ==> r[i] == cols[i]
    ensures forall b :: 0 <= b < WIDTH ==> r[j][b] == (cols[j][b] || b == k)
  {
    cols[j := Or(cols[j], Single(k))]
  }

  /** The bitset after the loop body for voxel (x, y, z). */
  function WithVoxelBits(v: Voxels, cols: seq<Word>, x: nat, y: nat, z: nat): seq<Word>
    requires |cols| == 3 * CHUNK_SIZE_3 && InCube(x, y, z)
  {
    if Solid(v, x, y, z) then
      SetBit(SetBit(SetBit(cols, ColumnOf(0, x, y, z), y), ColumnOf(1, x, y, z), x), ColumnOf(2, x, y, z), z)
    else cols
  }

  /** Part way through the loop body for voxel (x, y, z): the columns of
      the first n axes have taken the voxel in, the others not yet. */
  ghost predicate VoxelPartly(v: Voxels, cols: seq<Word>, x: int, y: int, z: int, n: nat)
  {
    && |cols| == 3 * CHUNK_SIZE_3
    && AxisUpTo(v, cols, 0, y, z, if 0 < n then x + 1 else x)
    && AxisUpTo(v, cols, 1, y, z, if 1 < n then x + 1 else x)
    && AxisUpTo(v, cols, 2, y, z, if 2 < n then x + 1 else x)
    && (forall j :: 3 * CHUNK_SIZE_2 <= j < 3 * CHUNK_SIZE_3 ==> cols[j] == Zero())
  }

  /** The bit of a solid voxel set in its column along axis n. */
  function WithAxisBit(v: Voxels, cols: seq<Word>, n: nat, x: nat, y: nat, z: nat): seq<Word>
    requires |cols| == 3 * CHUNK_SIZE_3 && n < 3 && InCube(x, y, z)
  {
    if Solid(v, x, y, z) then SetBit(cols, ColumnOf(n, x, y, z), BitOf(n, x, y, z)) else cols
  }

  /** Setting the voxel's bit along axis n moves that axis on and leaves
      the other two where they were. */
  lemma VoxelAxisStep(v: Voxels, cols: seq<Word>, n: nat, x: nat, y: nat, z: nat)
    requires n < 3 && InCube(x, y, z)
    requires VoxelPartly(v, cols, x, y, z, n)
    ensures VoxelPartly(v, WithAxisBit(v, cols, n, x, y, z), x, y, z, n + 1)
  {
    var cols' := WithAxisBit(v, cols, n, x, y, z);
    AxisStep(v, cols, n, x, y, z, cols');
    var others := if n == 0 then [1, 2] else if n == 1 then [0, 2] else [0, 1];
    AxisKept(v, cols, cols', others[0], n, y, z, if others[0] < n then x + 1 else x);
    AxisKept(v, cols, cols', others[1], n, y, z, if others[1] < n then x + 1 else x);
  }

  lemma VoxelStep(v: Voxels, c0: seq<Word>, x: nat, y: nat, z: nat)
    requires InCube(x, y, z)
    requires BitsetUpTo(v, c0, y, z, x)
    ensures BitsetUpTo(v, WithVoxelBits(v, c0, x, y, z), y, z, x + 1)
  {
    var c1 := WithAxisBit(v, c0, 0, x, y, z);
    var c2 := WithAxisBit(v, c1, 1, x, y, z);
    var c3 := WithAxisBit(v, c2, 2, x, y, z);
    VoxelAxisStep(v, c0, 0, x, y, z);
    VoxelAxisStep(v, c1, 1, x, y, z);
    VoxelAxisStep(v, c2, 2, x, y, z);
    assert c3 == WithVoxelBits(v, c0, x, y, z);
  }

  /** chunkMesh.cpp ConstructAxisBitset: for every solid voxel, set its bit
      in its column along each of the three axes. */
  method ConstructAxisBitset(v: Voxels) returns (outBitset: array<Word>)
    ensures fresh(outBitset)
    ensures IsAxisBitset(v, outBitset[..])
  {
    outBitset := new Word[3 * CHUNK_SIZE_3](_ => Zero());
    BitsetStart(v, outBitset[..]);
    var y := 0;
    while y < CHUNK_SIZE
      invariant 0 <= y <= CHUNK_SIZE
      invariant BitsetUpTo(v, outBitset[..], y, 0, 0)
    {
      var z := 0;
      while z < CHUNK_SIZE
        invariant 0 <= z <= CHUNK_SIZE
        invariant BitsetUpTo(v, outBitset[..], y, z, 0)
      {
        SetRowBits(v, outBitset, y, z);
        z := z + 1;
      }
      BitsetPlaneDone(v, outBitset[..], y);
      y := y + 1;
    }
    BitsetDone(v, outBitset[..]);
  }

  /** The innermost loop of ConstructAxisBitset, over x. */
  method SetRowBits(v: Voxels, outBitset: array<Word>, y: nat, z: nat)
    requires y < CHUNK_SIZE && z < CHUNK_SIZE
    requires BitsetUpTo(v, outBitset[..], y, z, 0)
    modifies outBitset
    ensures BitsetUpTo(v, outBitset[..], y, z + 1, 0)
  {
    var x := 0;
    while x < CHUNK_SIZE
      invariant 0 <= x <= CHUNK_SIZE
      invariant BitsetUpTo(v, outBitset[..], y, z, x)
    {
      SetVoxelBits(v, outBitset, x, y, z);
      x := x + 1;
    }
    BitsetRowDone(v, outBitset[..], y, z);
  }

  /** The loop body of ConstructAxisBitset for voxel (x, y, z). */
  method SetVoxelBits(v: Voxels, outBitset: array<Word>, x: nat, y: nat, z: nat)
    requires InCube(x, y, z)
    requires BitsetUpTo(v, outBitset[..], y, z, x)
    modifies outBitset
    ensures BitsetUpTo(v, outBitset[..], y, z, x + 1)
  {
    ghost var c0 := outBitset[..];
    if TypeAt(v, x, y, z) != Chunk.AIR {
      // xz - y axis
      outBitset[x + z * CHUNK_SIZE] := Or(outBitset[x + z * CHUNK_SIZE], Single(y));
      // zy - x axis
      outBitset[z + y * CHUNK_SIZE + CHUNK_SIZE_2] := Or(outBitset[z + y * CHUNK_SIZE + CHUNK_SIZE_2], Single(x));
      // xy - z axis
      outBitset[x + y * CHUNK_SIZE + CHUNK_SIZE_2 * 2] := Or(outBitset[x + y * CHUNK_SIZE + CHUNK_SIZE_2 * 2], Single(z));
    }
    assert outBitset[..] == WithVoxelBits(v, c0, x, y, z);
    VoxelStep(v, c0, x, y, z);
  }

  // ---------------------------------------------------------------------
  // Face masks

  /** `column & ~(column >> 1)`: the solid voxels whose successor along the
      column is empty or past the end. */
  function PlusFaces(column: Word): (r: Word)
    ensures forall k :: 0 <= k < WIDTH ==> r[k] == (column[k] && (k == WIDTH - 1 || !column[k + 1]))
  {
    And(column, Not(Shr(column, 1)))
  }

  /** `column & ~(column << 1)`: the solid voxels whose predecessor along
      the column is empty or before the start. */
  function MinusFaces(column: Word): (r: Word)
    ensures forall k :: 0 <= k < WIDTH ==> r[k] == (column[k] && (k == 0 || !column[k - 1]))
  {
    And(column, Not(Shl(column, 1)))
  }

  /** The mask of block d = 2*axis + 1 is the plus face of the axis' columns,
      that of block 2*axis the minus face. */
  function FaceMask(d: nat, column: Word): (r: Word)
    requires d < 6
    ensures forall k :: 0 <= k < WIDTH && r[k] ==> column[k]
  {
    if d % 2 == 1 then PlusFaces(column) else MinusFaces(column)
  }

  /** Word i of block b of CHUNK_SIZE_2 (= 4096) words. */
  function MaskIndex(b: nat, i: nat): nat
  {
    4096 * b + i
  }

  ghost predicate MasksUpTo(cols: seq<Word>, masks: seq<Word>, ca: int, ci: int)
  {
    && |cols| == 3 * CHUNK_SIZE_3 && |masks| == 6 * CHUNK_SIZE_3
    && (forall d, i :: 0 <= d < 6 && 0 <= i < CHUNK_SIZE_2 ==>
          masks[MaskIndex(d, i)] == if d / 2 < ca || (d / 2 == ca && i < ci) then FaceMask(d, cols[MaskIndex(d / 2, i)]) else Zero())
    && (forall j :: 6 * CHUNK_SIZE_2 <= j < 6 * CHUNK_SIZE_3 ==> masks[j] == Zero())
  }

  /** The face masks of the occupancy columns: block d holds FaceMask(d, ..)
      of the columns of axis d / 2, the rest of the array stays zero. */
  ghost predicate IsFaceMasks(cols: seq<Word>, masks: seq<Word>)
  {
    && |cols| == 3 * CHUNK_SIZE_3 && |masks| == 6 * CHUNK_SIZE_3
    && (forall d, i :: 0 <= d < 6 && 0 <= i < CHUNK_SIZE_2 ==>
          masks[MaskIndex(d, i)] == FaceMask(d, cols[MaskIndex(d / 2, i)]))
    && (forall j :: 6 * CHUNK_SIZE_2 <= j < 6 * CHUNK_SIZE_3 ==> masks[j] == Zero())
  }

  /** The face masks after the loop body for column i of axis a. */
  function WithColumnMasks(cols: seq<Word>, masks: seq<Word>, a: nat, i: nat): seq<Word>
    requires |cols| == 3 * CHUNK_SIZE_3 && |masks| == 6 * CHUNK_SIZE_3
    requires a < 3 && i < CHUNK_SIZE_2
  {
    var column := cols[MaskIndex(a, i)];
    masks[MaskIndex(a * 2 + 1, i) := PlusFaces(column)][MaskIndex(a * 2, i) := MinusFaces(column)]
  }

  lemma MaskStep(cols: seq<Word>, masks: seq<Word>, a: nat, i: nat)
    requires a < 3 && i < CHUNK_SIZE_2
    requires MasksUpTo(cols, masks, a, i)
    ensures MasksUpTo(cols, WithColumnMasks(cols, masks, a, i), a, i + 1)
  {
    var m := WithColumnMasks(cols, masks, a, i);
    forall j | 6 * CHUNK_SIZE_2 <= j < 6 * CHUNK_SIZE_3
      ensures m[j] == Zero()
    {
      assert j != MaskIndex(a * 2 + 1, i) && j != MaskIndex(a * 2, i);
    }
    forall d, i' | 0 <= d < 6 && 0 <= i' < CHUNK_SIZE_2
      ensures m[MaskIndex(d, i')] == if d / 2 < a || (d / 2 == a && i' < i + 1) then FaceMask(d, cols[MaskIndex(d / 2, i')]) else Zero()
    {
      MaskIndexDistinct(d, i', a * 2 + 1, i);
      MaskIndexDistinct(d, i', a * 2, i);
    }
  }

  /** Words of different blocks, or of different columns, are different words. */
  lemma MaskIndexDistinct(d: nat, i: nat, d': nat, i': nat)
    requires i < CHUNK_SIZE_2 && i' < CHUNK_SIZE_2
    ensures MaskIndex(d, i) == MaskIndex(d', i') <==> d == d' && i == i'
  {
    if d < d' {
      assert MaskIndex(d, i) < CHUNK_SIZE_2 * (d + 1) <= MaskIndex(d', i');
    } else if d' < d {
      assert MaskIndex(d', i') < CHUNK_SIZE_2 * (d' + 1) <= MaskIndex(d, i);
    }
  }

  /** The face-mask loop of the ChunkMesh constructor. */
  method ComputeFaceMasks(axisColumns: array<Word>) returns (columnFaceMasks: array<Word>)
    requires axisColumns.Length == 3 * CHUNK_SIZE_3
    ensures fresh(columnFaceMasks)
    ensures IsFaceMasks(axisColumns[..], columnFaceMasks[..])
  {
    columnFaceMasks := new Word[3 * CHUNK_SIZE_3 * 2](_ => Zero());
    var axis := 0;
    while axis < 3
      invariant 0 <= axis <= 3
      invariant MasksUpTo(axisColumns[..], columnFaceMasks[..], axis, 0)
    {
      var i := 0;
      while i < CHUNK_SIZE_2
        invariant 0 <= i <= CHUNK_SIZE_2
        invariant MasksUpTo(axisColumns[..], columnFaceMasks[..], axis, i)
      {
        ghost var m0 := columnFaceMasks[..];
        var column := axisColumns[(CHUNK_SIZE_2 * axis) + i];
        columnFaceMasks[(CHUNK_SIZE_2 * (axis * 2 + 1)) + i] := And(column, Not(Shr(column, 1)));
        columnFaceMasks[(CHUNK_SIZE_2 * (axis * 2 + 0)) + i] := And(column, Not(Shl(column, 1)));
        assert columnFaceMasks[..] == WithColumnMasks(axisColumns[..], m0, axis, i);
        MaskStep(axisColumns[..], m0, axis, i);
        i := i + 1;
      }
      MasksAxisDone(axisColumns[..], columnFaceMasks[..], axis);
      axis := axis + 1;
    }
  }

  lemma MasksAxisDone(cols: seq<Word>, masks: seq<Word>, a: int)
    requires MasksUpTo(cols, masks, a, CHUNK_SIZE_2)
    ensures MasksUpTo(cols, masks, a + 1, 0)
  {
  }

  // ---------------------------------------------------------------------
  // Exposed faces

  datatype Vec3i = Vec3i(x: int, y: int, z: int)

  predicate Inside(p: Vec3i)
  {
    InCube(p.x, p.y, p.z)
  }

  /** The voxel whose face in direction `dir` touches voxel p's. */
  function Neighbour(dir: FaceDirection, p: Vec3i): (n: Vec3i)
    ensures (n.x == p.x) != (Value(dir) / 2 == 1)
    ensures (n.y == p.y) != (Value(dir) / 2 == 0)
    ensures (n.z == p.z) != (Value(dir) / 2 == 2)
  {
    match dir
    case Down => Vec3i(p.x, p.y - 1, p.z)
    case Up => Vec3i(p.x, p.y + 1, p.z)
    case Left => Vec3i(p.x - 1, p.y, p.z)
    case Right => Vec3i(p.x + 1, p.y, p.z)
    case Forward => Vec3i(p.x, p.y, p.z - 1)
    case Back => Vec3i(p.x, p.y, p.z + 1)
  }

  /** Faces come in pairs: stepping to the neighbour and back. */
  lemma NeighbourOfNeighbour(dir: FaceDirection, p: Vec3i)
    ensures Neighbour(Opposite(dir), Neighbour(dir, p)) == p
  {
  }

  /** The face of voxel p in direction dir is visible: p is solid and its
      neighbour that way is outside the chunk or AIR. */
  predicate Exposed(v: Voxels, dir: FaceDirection, p: Vec3i)
    requires Inside(p)
  {
    var n := Neighbour(dir, p);
    Solid(v, p.x, p.y, p.z) && (!Inside(n) || !Solid(v, n.x, n.y, n.z))
  }

  /** The `pos` switch of the grouping loop: the voxel of bit y of the
      face-mask column (x, z) of direction index d. */
  function SamplePos(d: nat, x: int, y: int, z: int): (p: Vec3i)
    ensures InCube(x, y, z) ==> Inside(p)
  {
    match d
    case 0 | 1 => Vec3i(x, y, z)      // down, up
    case 2 | 3 => Vec3i(y, z, x)      // left, right
    case _ => Vec3i(x, z, y)          // forward, back
  }

  /** Bit y of face-mask column x + z*CHUNK_SIZE of direction d is set
      exactly when the face of voxel SamplePos(d, x, y, z) in direction d is
      exposed. */
  lemma FaceMasksMarkExposedFaces(v: Voxels, cols: seq<Word>, masks: seq<Word>)
    requires IsAxisBitset(v, cols) && IsFaceMasks(cols, masks)
    ensures forall d, x, y, z :: 0 <= d < 6 && InCube(x, y, z) ==>
              masks[MaskIndex(d, x + z * CHUNK_SIZE)][y] == Exposed(v, FromValue(d), SamplePos(d, x, y, z))
  {
    forall d, x, y, z | 0 <= d < 6 && InCube(x, y, z)
      ensures masks[MaskIndex(d, x + z * CHUNK_SIZE)][y] == Exposed(v, FromValue(d), SamplePos(d, x, y, z))
    {
      ExposedBit(v, cols, masks, d, x, y, z);
    }
  }

  /** Moving one bit up or down a face-mask column is moving to the
      neighbour in the plus or minus direction of its axis. */
  lemma NeighbourAlongColumn(d: nat, x: int, y: int, z: int)
    requires d < 6
    ensures Neighbour(FromValue(d), SamplePos(d, x, y, z)) == SamplePos(d, x, if d % 2 == 1 then y + 1 else y - 1, z)
  {
  }

  /** Bit y of the occupancy column of axis a through (x, z) of the face
      mask's numbering is the voxel at SamplePos. */
  lemma ColumnBit(v: Voxels, cols: seq<Word>, d: nat, x: nat, y: nat, z: nat)
    requires IsAxisBitset(v, cols) && d < 6 && InCube(x, y, z)
    ensures cols[MaskIndex(d / 2, x + z * CHUNK_SIZE)][y] ==
            Solid(v, SamplePos(d, x, y, z).x, SamplePos(d, x, y, z).y, SamplePos(d, x, y, z).z)
  {
    var p := SamplePos(d, x, y, z);
    assert ColumnOf(d / 2, p.x, p.y, p.z) == MaskIndex(d / 2, x + z * CHUNK_SIZE) && BitOf(d / 2, p.x, p.y, p.z) == y;
  }

  lemma ExposedBit(v: Voxels, cols: seq<Word>, masks: seq<Word>, d: nat, x: nat, y: nat, z: nat)
    requires IsAxisBitset(v, cols) && IsFaceMasks(cols, masks)
    requires d < 6 && InCube(x, y, z)
    ensures masks[MaskIndex(d, x + z * CHUNK_SIZE)][y] == Exposed(v, FromValue(d), SamplePos(d, x, y, z))
  {
    var column := cols[MaskIndex(d / 2, x + z * CHUNK_SIZE)];
    assert masks[MaskIndex(d, x + z * CHUNK_SIZE)] == FaceMask(d, column);
    if d % 2 == 1 {
      ExposedPlus(v, cols, column, d, x, y, z);
    } else {
      ExposedMinus(v, cols, column, d, x, y, z);
    }
  }

  /** A plus face is exposed when the next voxel along the column is empty
      or past the end. */
  lemma ExposedPlus(v: Voxels, cols: seq<Word>, column: Word, d: nat, x: nat, y: nat, z: nat)
    requires IsAxisBitset(v, cols) && d < 6 && d % 2 == 1 && InCube(x, y, z)
    requires column == cols[MaskIndex(d / 2, x + z * CHUNK_SIZE)]
    ensures FaceMask(d, column)[y] == Exposed(v, FromValue(d), SamplePos(d, x, y, z))
  {
    var p := SamplePos(d, x, y, z);
    ColumnBit(v, cols, d, x, y, z);
    NeighbourAlongColumn(d, x, y, z);
    var n := Neighbour(FromValue(d), p);
    assert FaceMask(d, column)[y] == (column[y] && (y == CHUNK_SIZE - 1 || !column[y + 1]));
    if y + 1 < CHUNK_SIZE {
      ColumnBit(v, cols, d, x, y + 1, z);
    } else {
      assert !Inside(n);
    }
  }

  /** A minus face is exposed when the previous voxel along the column is
      empty or before the start. */
  lemma ExposedMinus(v: Voxels, cols: seq<Word>, column: Word, d: nat, x: nat, y: nat, z: nat)
    requires IsAxisBitset(v, cols) && d < 6 && d % 2 == 0 && InCube(x, y, z)
    requires column == cols[MaskIndex(d / 2, x + z * CHUNK_SIZE)]
    ensures FaceMask(d, column)[y] == Exposed(v, FromValue(d), SamplePos(d, x, y, z))
  {
    var p := SamplePos(d, x, y, z);
    ColumnBit(v, cols, d, x, y, z);
    NeighbourAlongColumn(d, x, y, z);
    var n := Neighbour(FromValue(d), p);
    assert FaceMask(d, column)[y] == (column[y] && (y == 0 || !column[y - 1]));
    if 0 < y {
      ColumnBit(v, cols, d, x, y - 1, z);
    } else {
      assert !Inside(n);
    }
  }

  // ---------------------------------------------------------------------
  // Grouping the faces into planes

  /** data[axis][type][y] of the constructor: the plane of direction index
      `axis`, block type `blockType` and slice `plane`. */
  datatype PlaneKey = PlaneKey(axis: nat, blockType: Chunk.Byte, plane: nat)

  type Planes = map<PlaneKey, seq<Word>>

  /** A plane created on first use: CHUNK_SIZE zero rows. */
  function EmptyPlane(): (rows: seq<Word>)
    ensures |rows| == CHUNK_SIZE && forall r :: 0 <= r < CHUNK_SIZE ==> rows[r] == Zero()
  {
    seq(CHUNK_SIZE, _ => Zero())
  }

  ghost predicate WellFormedPlanes(data: Planes)
  {
    forall k :: k in data ==> k.axis < 6 && k.plane < CHUNK_SIZE && |data[k]| == CHUNK_SIZE
  }

  /** Row x, bit z of plane k is set. */
  predicate PlaneBit(data: Planes, k: PlaneKey, x: int, z: int)
    requires 0 <= z < CHUNK_SIZE
  {
    k in data && 0 <= x < |data[k]| && data[k][x][z]
  }

  /** Column x + z*CHUNK_SIZE of direction k.axis has bit k.plane set in
      the face masks, and that voxel has type k.blockType. */
  ghost predicate FaceOfType(v: Voxels, masks: seq<Word>, k: PlaneKey, x: int, z: int)
    requires |masks| == 6 * CHUNK_SIZE_3
    requires k.axis < 6 && k.plane < CHUNK_SIZE && 0 <= x < CHUNK_SIZE && 0 <= z < CHUNK_SIZE
  {
    var p := SamplePos(k.axis, x, k.plane, z);
    masks[MaskIndex(k.axis, x + z * CHUNK_SIZE)][k.plane] && TypeAt(v, p.x, p.y, p.z) == k.blockType
  }

  /** The grouping loop visits the columns in (axis, z, x) order and each
      column's bits lowest first; bit k.plane of column (k.axis, z, x) is
      done once the loop is past it. */
  predicate Scattered(k: PlaneKey, x: int, z: int, ca: int, cz: int, cx: int, lo: int)
  {
    k.axis < ca || (k.axis == ca && (z < cz || (z == cz && (x < cx || (x == cx && k.plane < lo)))))
  }

  ghost predicate ScatteredUpTo(v: Voxels, masks: seq<Word>, data: Planes, ca: int, cz: int, cx: int, lo: int)
  {
    && |masks| == 6 * CHUNK_SIZE_3
    && WellFormedPlanes(data)
    && (forall k: PlaneKey, x, z :: k.axis < 6 && k.plane < CHUNK_SIZE && 0 <= x < CHUNK_SIZE && 0 <= z < CHUNK_SIZE ==>
          PlaneBit(data, k, x, z) == (FaceOfType(v, masks, k, x, z) && Scattered(k, x, z, ca, cz, cx, lo)))
  }

  /** `d[x] |= U_ONE << z` on data[axis][type][y], creating the plane first. */
  function AddFace(data: Planes, key: PlaneKey, x: nat, z: nat): (r: Planes)
    requires x < CHUNK_SIZE && z < CHUNK_SIZE
    requires key in data ==> |data[key]| == CHUNK_SIZE
    ensures r.Keys == data.Keys + {key}
    ensures forall k :: k in data && k != key ==> r[k] == data[k]
  {
    var rows := if key in data then data[key] else EmptyPlane();
    data[key := rows[x := Or(rows[x], Single(z))]]
  }

  lemma ScatterStep(v: Voxels, masks: seq<Word>, data: Planes, a: nat, z: nat, x: nat, lo: nat, y: nat, column: Word)
    requires a < 6 && x < CHUNK_SIZE && z < CHUNK_SIZE && lo <= y < CHUNK_SIZE
    requires ScatteredUpTo(v, masks, data, a, z, x, lo)
    requires column == masks[MaskIndex(a, x + z * CHUNK_SIZE)]
    requires column[y] && forall k :: lo <= k < y ==> !column[k]
    ensures var p := SamplePos(a, x, y, z);
      ScatteredUpTo(v, masks, AddFace(data, PlaneKey(a, TypeAt(v, p.x, p.y, p.z), y), x, z), a, z, x, y + 1)
  {
    var p := SamplePos(a, x, y, z);
    var key := PlaneKey(a, TypeAt(v, p.x, p.y, p.z), y);
    var data' := AddFace(data, key, x, z);
    forall k: PlaneKey, x', z' | k.axis < 6 && k.plane < CHUNK_SIZE && 0 <= x' < CHUNK_SIZE && 0 <= z' < CHUNK_SIZE
      ensures PlaneBit(data', k, x', z') == (FaceOfType(v, masks, k, x', z') && Scattered(k, x', z', a, z, x, y + 1))
    {
      assert PlaneBit(data, k, x', z') == (FaceOfType(v, masks, k, x', z') && Scattered(k, x', z', a, z, x, lo));
      if k == key && x' == x && z' == z {
        assert FaceOfType(v, masks, k, x', z');
      } else if k == key {
        assert data'[k][x'][z'] == (k in data && data[k][x'][z']);
      } else if k.axis == a && z' == z && x' == x && lo <= k.plane < y {
        assert !FaceOfType(v, masks, k, x', z');
      }
    }
  }

  /** Once a column's remaining bits are all clear it is finished. */
  lemma ColumnDone(v: Voxels, masks: seq<Word>, data: Planes, a: nat, z: nat, x: nat, lo: nat, column: Word)
    requires ScatteredUpTo(v, masks, data, a, z, x, lo)
    requires a < 6 && x < CHUNK_SIZE && z < CHUNK_SIZE
    requires column == masks[MaskIndex(a, x + z * CHUNK_SIZE)]
    requires forall k :: lo <= k < CHUNK_SIZE ==> !column[k]
    ensures ScatteredUpTo(v, masks, data, a, z, x + 1, 0)
  {
    forall k: PlaneKey, x', z' | k.axis < 6 && k.plane < CHUNK_SIZE && 0 <= x' < CHUNK_SIZE && 0 <= z' < CHUNK_SIZE
      ensures PlaneBit(data, k, x', z') == (FaceOfType(v, masks, k, x', z') && Scattered(k, x', z', a, z, x + 1, 0))
    {
      if k.axis == a && z' == z && x' == x && lo <= k.plane {
        assert !column[k.plane];
      }
    }
  }

  lemma RowOfColumnsDone(v: Voxels, masks: seq<Word>, data: Planes, a: int, z: int)
    requires ScatteredUpTo(v, masks, data, a, z, CHUNK_SIZE, 0)
    ensures ScatteredUpTo(v, masks, data, a, z + 1, 0, 0)
  {
  }

  lemma AxisOfColumnsDone(v: Voxels, masks: seq<Word>, data: Planes, a: int)
    requires ScatteredUpTo(v, masks, data, a, CHUNK_SIZE, 0, 0)
    ensures ScatteredUpTo(v, masks, data, a + 1, 0, 0, 0)
  {
  }

  /** The `while (column != 0)` loop of the grouping for column (axis, z, x):
      each set bit y, lowest first (`trailing_zeroes`, then `column &=
      column - 1`), sets bit z of row x of the plane of direction `axis`,
      the voxel's type and slice y. */
  method ScatterColumn(v: Voxels, columnFaceMasks: array<Word>, data0: Planes, axis: nat, z: nat, x: nat)
      returns (data: Planes)
    requires columnFaceMasks.Length == 6 * CHUNK_SIZE_3
    requires axis < 6 && x < CHUNK_SIZE && z < CHUNK_SIZE
    requires ScatteredUpTo(v, columnFaceMasks[..], data0, axis, z, x, 0)
    ensures ScatteredUpTo(v, columnFaceMasks[..], data, axis, z, x + 1, 0)
  {
    data := data0;
    var colIndex := x + (z * CHUNK_SIZE) + CHUNK_SIZE_2 * axis;
    var column := columnFaceMasks[colIndex];
    ghost var orig := column;
    ghost var lo: nat := 0;
    while column != Zero()
      invariant lo <= CHUNK_SIZE
      invariant forall k :: 0 <= k < WIDTH ==> column[k] == (orig[k] && lo <= k)
      invariant ScatteredUpTo(v, columnFaceMasks[..], data, axis, z, x, lo)
      decreases CHUNK_SIZE - lo
    {
      ClearLowestBit(column);
      var y := TrailingZeroes(column);
      column := And(column, Dec(column));
      var pos := SamplePos(axis, x, y, z);
      var blockType := TypeAt(v, pos.x, pos.y, pos.z);
      var key := PlaneKey(axis, blockType, y);
      ScatterStep(v, columnFaceMasks[..], data, axis, z, x, lo, y, orig);
      var rows := if key in data then data[key] else EmptyPlane();
      rows := rows[x := Or(rows[x], Single(z))];
      data := data[key := rows];
      lo := y + 1;
    }
    ColumnDone(v, columnFaceMasks[..], data, axis, z, x, lo, orig);
  }

  /** The grouping loop of the ChunkMesh constructor: every set face-mask
      bit ends up in exactly the plane of its direction, its voxel's type
      and its slice, and nothing else is set. */
  method GroupFaces(v: Voxels, columnFaceMasks: array<Word>) returns (data: Planes)
    requires columnFaceMasks.Length == 6 * CHUNK_SIZE_3
    ensures WellFormedPlanes(data)
    ensures forall k: PlaneKey, x, z :: k.axis < 6 && k.plane < CHUNK_SIZE && 0 <= x < CHUNK_SIZE && 0 <= z < CHUNK_SIZE ==>
              PlaneBit(data, k, x, z) == FaceOfType(v, columnFaceMasks[..], k, x, z)
  {
    data := map[];
    var axis := 0;
    while axis < 6
      invariant 0 <= axis <= 6
      invariant ScatteredUpTo(v, columnFaceMasks[..], data, axis, 0, 0, 0)
    {
      var z := 0;
      while z < CHUNK_SIZE
        invariant 0 <= z <= CHUNK_SIZE
        invariant ScatteredUpTo(v, columnFaceMasks[..], data, axis, z, 0, 0)
      {
        var x := 0;
        while x < CHUNK_SIZE
          invariant 0 <= x <= CHUNK_SIZE
          invariant ScatteredUpTo(v, columnFaceMasks[..], data, axis, z, x, 0)
        {
          data := ScatterColumn(v, columnFaceMasks, data, axis, z, x);
          x := x + 1;
        }
        RowOfColumnsDone(v, columnFaceMasks[..], data, axis, z);
        z := z + 1;
      }
      AxisOfColumnsDone(v, columnFaceMasks[..], data, axis);
      axis := axis + 1;
    }
  }

  /** The column index the grouping loop reads, as written: one past the
      column and one row of columns further on. */
  function ColIndexAsWritten(axis: nat, x: nat, z: nat): (i: nat)
    ensures i == MaskIndex(axis, x + z * CHUNK_SIZE) + 1 + CHUNK_SIZE
  {
    1 + x + ((z + 1) * CHUNK_SIZE) + CHUNK_SIZE_2 * axis
  }

  /** As written, the loop for (x, z) reads the face mask of column
      (x + 1, z + 1), the first column of every direction is never read (a
      solid voxel at the origin gets none of its faces), and in direction 5
      every read with z = CHUNK_SIZE - 1, and the read for (CHUNK_SIZE - 1,
      CHUNK_SIZE - 2), lies past the six blocks of face masks. */
  lemma ColIndexAsWrittenIsShifted()
    ensures forall a, x, z :: 0 <= a < 6 && 0 <= x < CHUNK_SIZE - 1 && 0 <= z < CHUNK_SIZE - 1 ==>
              ColIndexAsWritten(a, x, z) == MaskIndex(a, (x + 1) + (z + 1) * CHUNK_SIZE)
    ensures forall a, x, z :: 0 <= a < 6 && 0 <= x < CHUNK_SIZE && 0 <= z < CHUNK_SIZE ==>
              ColIndexAsWritten(a, x, z) != MaskIndex(a, 0)
    ensures forall a, x, z :: 0 <= a < 6 && 0 <= x < CHUNK_SIZE && 0 <= z < CHUNK_SIZE ==>
              (ColIndexAsWritten(a, x, z) >= 6 * CHUNK_SIZE_2 <==>
                 a == 5 && (z == CHUNK_SIZE - 1 || (z == CHUNK_SIZE - 2 && x == CHUNK_SIZE - 1)))
  {
  }

  /** The reads as written stay inside the `3 * CHUNK_SIZE_3 * 2` words of
      the face-mask allocation, and those past the six blocks of masks read
      words that were zero-initialised and never written. */
  lemma ColIndexAsWrittenInAllocation(cols: seq<Word>, masks: seq<Word>)
    requires IsFaceMasks(cols, masks)
    ensures forall a, x, z :: 0 <= a < 6 && 0 <= x < CHUNK_SIZE && 0 <= z < CHUNK_SIZE ==>
              ColIndexAsWritten(a, x, z) < |masks| &&
              (ColIndexAsWritten(a, x, z) >= 6 * CHUNK_SIZE_2 ==> masks[ColIndexAsWritten(a, x, z)] == Zero())
  {
  }

  /** The corrected index x + z*CHUNK_SIZE reads every column of a block
      exactly once: it is a bijection from the (x, z) square onto
      0 .. CHUNK_SIZE_2 - 1. */
  lemma ColumnIndexBijective(x: nat, z: nat, i: nat)
    requires x < CHUNK_SIZE && z < CHUNK_SIZE && i < CHUNK_SIZE_2
    ensures x + z * CHUNK_SIZE < CHUNK_SIZE_2
    ensures (x + z * CHUNK_SIZE) % CHUNK_SIZE == x && (x + z * CHUNK_SIZE) / CHUNK_SIZE == z
    ensures i / CHUNK_SIZE < CHUNK_SIZE && i % CHUNK_SIZE + (i / CHUNK_SIZE) * CHUNK_SIZE == i
  {
  }

  /** Every plane bit is an exposed face of a voxel of the plane's type,
      and every exposed face of a solid voxel is a plane bit. */
  lemma PlanesHoldExposedFaces(v: Voxels, cols: seq<Word>, masks: seq<Word>, data: Planes)
    requires IsAxisBitset(v, cols) && IsFaceMasks(cols, masks)
    requires forall k: PlaneKey, x, z :: k.axis < 6 && k.plane < CHUNK_SIZE && 0 <= x < CHUNK_SIZE && 0 <= z < CHUNK_SIZE ==>
               PlaneBit(data, k, x, z) == FaceOfType(v, masks, k, x, z)
    ensures forall k: PlaneKey, x, z :: k.axis < 6 && k.plane < CHUNK_SIZE && 0 <= x < CHUNK_SIZE && 0 <= z < CHUNK_SIZE ==>
              PlaneBit(data, k, x, z) == (Exposed(v, FromValue(k.axis), SamplePos(k.axis, x, k.plane, z)) &&
                                          TypeAt(v, SamplePos(k.axis, x, k.plane, z).x, SamplePos(k.axis, x, k.plane, z).y, SamplePos(k.axis, x, k.plane, z).z) == k.blockType)
    ensures forall k: PlaneKey, x, z ::
              (k.axis < 6 && k.plane < CHUNK_SIZE && 0 <= x < CHUNK_SIZE && 0 <= z < CHUNK_SIZE && PlaneBit(data, k, x, z))
              ==> k.blockType != Chunk.AIR
  {
    FaceMasksMarkExposedFaces(v, cols, masks);
  }

  // ---------------------------------------------------------------------
  // Corners

  /** chunkMesh.cpp WorldToSample: plane coordinates (x, y) of slice
      `axis` to chunk coordinates for direction dir. */
  function WorldToSample(dir: FaceDirection, axis: int, x: int, y: int): Vec3i
  {
    match dir
    case Up => Vec3i(x, axis + 1, y)
    case Down => Vec3i(x, axis, y)
    case Left => Vec3i(axis, y, x)
    case Right => Vec3i(axis + 1, y, x)
    case Forward => Vec3i(x, y, axis)
    case Back => Vec3i(x, y, axis + 1)
  }

  /** The corner of voxel p's face in direction dir nearest the chunk
      origin: the voxel's own corner, moved one step along the axis for the
      faces on the far side. */
  function FaceOrigin(dir: FaceDirection, p: Vec3i): Vec3i
  {
    Vec3i(p.x + (if dir == Right then 1 else 0),
          p.y + (if dir == Up then 1 else 0),
          p.z + (if dir == Back then 1 else 0))
  }

  /** Sampling plane point (x, y) of slice p gives the face corner of the
      voxel the grouping loop put at row x, bit y of that plane. */
  lemma WorldToSampleIsFaceOrigin(d: nat, p: int, x: int, y: int)
    requires d < 6
    ensures WorldToSample(FromValue(d), p, x, y) == FaceOrigin(FromValue(d), SamplePos(d, x, p, y))
  {
  }

  /** The four corners AppendVertices pushes for a quad, in its order. */
  function QuadCorners(dir: FaceDirection, axis: int, q: GreedyQuad): (r: seq<Vec3i>)
    ensures |r| == 4
  {
    [WorldToSample(dir, axis, q.x, q.y),
     WorldToSample(dir, axis, q.x + q.w, q.y + q.h),
     WorldToSample(dir, axis, q.x, q.y + q.h),
     WorldToSample(dir, axis, q.x + q.w, q.y)]
  }

  /** With the slice index as `axis`, the corners of a quad are the face
      origins of the plane cells at its four corners: the quad spans the
      faces it covers. */
  lemma QuadCornersSpanFaces(d: nat, p: int, q: GreedyQuad)
    requires d < 6
    ensures QuadCorners(FromValue(d), p, q) ==
      [FaceOrigin(FromValue(d), SamplePos(d, q.x, p, q.y)),
       FaceOrigin(FromValue(d), SamplePos(d, q.x + q.w, p, q.y + q.h)),
       FaceOrigin(FromValue(d), SamplePos(d, q.x, p, q.y + q.h)),
       FaceOrigin(FromValue(d), SamplePos(d, q.x + q.w, p, q.y))]
  {
    WorldToSampleIsFaceOrigin(d, p, q.x, q.y);
    WorldToSampleIsFaceOrigin(d, p, q.x + q.w, q.y + q.h);
    WorldToSampleIsFaceOrigin(d, p, q.x, q.y + q.h);
    WorldToSampleIsFaceOrigin(d, p, q.x + q.w, q.y);
  }

  /** As written, the constructor passes the direction index (its loop
      variable `axis`) where WorldToSample expects the slice: the up face of
      a voxel in slice 10 gets its corner at height 2 instead of 11, and the
      quads of all slices of one direction land on the same slice. */
  lemma CornersAsWrittenIgnoreSlice()
    ensures QuadCorners(Up, 1, GreedyQuad(0, 0, 1, 1))[0] == Vec3i(0, 2, 0)
    ensures FaceOrigin(Up, SamplePos(1, 0, 10, 0)) == Vec3i(0, 11, 0)
  {
  }

  /** chunkMesh.cpp AppendVertices: four corners and one normal index per
      quad. */
  method AppendVertices(quad: GreedyQuad, vertices: seq<Vec3i>, normals: seq<nat>, faceDir: FaceDirection, axis: int, blockType: nat)
      returns (vertices': seq<Vec3i>, normals': seq<nat>)
    ensures |vertices'| == |vertices| + 4 && vertices'[..|vertices|] == vertices
    ensures vertices'[|vertices|..] == QuadCorners(faceDir, axis, quad)
    ensures normals' == normals + [NormalIndex(faceDir)]
  {
    vertices' := vertices + [WorldToSample(faceDir, axis, quad.x, quad.y)];
    vertices' := vertices' + [WorldToSample(faceDir, axis, quad.x + quad.w, quad.y + quad.h)];
    vertices' := vertices' + [WorldToSample(faceDir, axis, quad.x, quad.y + quad.h)];
    vertices' := vertices' + [WorldToSample(faceDir, axis, quad.x + quad.w, quad.y)];
    normals' := normals + [NormalIndex(faceDir)];
  }

  // ---------------------------------------------------------------------
  // Assembly

  /** A quad of the greedy mesher together with the plane it came from. */
  datatype PlacedQuad = PlacedQuad(key: PlaneKey, quad: GreedyQuad)

  /** How many quads of plane k cover cell (r, c) of that plane. */
  function FaceCount(pq: seq<PlacedQuad>, k: PlaneKey, r: int, c: int): nat
  {
    if pq == [] then 0
    else FaceCount(pq[..|pq| - 1], k, r, c) + (if pq[|pq| - 1].key == k && Covers(pq[|pq| - 1].quad, r, c) then 1 else 0)
  }

  lemma FaceCountAppend(pq: seq<PlacedQuad>, p: PlacedQuad, k: PlaneKey, r: int, c: int)
    ensures FaceCount(pq + [p], k, r, c) == FaceCount(pq, k, r, c) + (if p.key == k && Covers(p.quad, r, c) then 1 else 0)
  {
    assert (pq + [p])[..|pq|] == pq;
  }

  /** The vertex and normal lists hold, per placed quad and in the same
      order, its four corners (with the slice as WorldToSample's `axis`) and
      its direction's normal index. */
  ghost predicate VerticesOf(placed: seq<PlacedQuad>, vertices: seq<Vec3i>, normals: seq<nat>)
  {
    && |vertices| == 4 * |placed| && |normals| == |placed|
    && (forall i :: 0 <= i < |placed| ==>
          && vertices[4 * i .. 4 * i + 4] == QuadCorners(FromValue(placed[i].key.axis), placed[i].key.plane, placed[i].quad)
          && normals[i] == NormalIndex(FromValue(placed[i].key.axis)))
  }

  lemma VerticesOfAppend(placed: seq<PlacedQuad>, vertices: seq<Vec3i>, normals: seq<nat>, p: PlacedQuad,
                         vertices': seq<Vec3i>, normals': seq<nat>)
    requires VerticesOf(placed, vertices, normals)
    requires |vertices'| == |vertices| + 4 && vertices'[..|vertices|] == vertices
    requires vertices'[|vertices|..] == QuadCorners(FromValue(p.key.axis), p.key.plane, p.quad)
    requires normals' == normals + [NormalIndex(FromValue(p.key.axis))]
    ensures VerticesOf(placed + [p], vertices', normals')
  {
    var placed' := placed + [p];
    forall i | 0 <= i < |placed'|
      ensures vertices'[4 * i .. 4 * i + 4] == QuadCorners(FromValue(placed'[i].key.axis), placed'[i].key.plane, placed'[i].quad)
    {
      if i < |placed| {
        assert vertices'[4 * i .. 4 * i + 4] == vertices[4 * i .. 4 * i + 4];
      }
    }
  }

  /** The quads `qs` of plane `key` have been appended to `placed0`. */
  ghost predicate PlacedSoFar(placed0: seq<PlacedQuad>, placed: seq<PlacedQuad>, key: PlaneKey, qs: seq<GreedyQuad>)
  {
    && (forall k, x, z :: 0 <= x < CHUNK_SIZE && 0 <= z < CHUNK_SIZE && k != key ==>
          FaceCount(placed, k, x, z) == FaceCount(placed0, k, x, z))
    && (forall x, z :: 0 <= x < CHUNK_SIZE && 0 <= z < CHUNK_SIZE ==>
          FaceCount(placed, key, x, z) == FaceCount(placed0, key, x, z) + CoverCount(qs, x, z))
  }

  lemma PlacedSoFarEmpty(placed0: seq<PlacedQuad>, key: PlaneKey, none: seq<GreedyQuad>)
    requires none == []
    ensures PlacedSoFar(placed0, placed0, key, none)
  {
  }

  lemma PlacedSoFarStep(placed0: seq<PlacedQuad>, placed: seq<PlacedQuad>, key: PlaneKey, qs: seq<GreedyQuad>, q: GreedyQuad)
    requires PlacedSoFar(placed0, placed, key, qs)
    ensures PlacedSoFar(placed0, placed + [PlacedQuad(key, q)], key, qs + [q])
  {
    forall k, x, z | 0 <= x < CHUNK_SIZE && 0 <= z < CHUNK_SIZE
      ensures FaceCount(placed + [PlacedQuad(key, q)], k, x, z) == FaceCount(placed, k, x, z) + (if k == key && Covers(q, x, z) then 1 else 0)
    {
      FaceCountAppend(placed, PlacedQuad(key, q), k, x, z);
    }
    forall x, z | 0 <= x < CHUNK_SIZE && 0 <= z < CHUNK_SIZE
      ensures CoverCount(qs + [q], x, z) == CoverCount(qs, x, z) + (if Covers(q, x, z) then 1 else 0)
    {
      CountsAppend(qs, q, x, z);
    }
  }

  /** The per-plane body of the assembly loop: greedy-mesh a copy of the
      plane's rows and append every quad's corners and normal. */
  method MeshPlane(data: Planes, key: PlaneKey, placed0: seq<PlacedQuad>, vertices0: seq<Vec3i>, normals0: seq<nat>)
      returns (placed: seq<PlacedQuad>, vertices: seq<Vec3i>, normals: seq<nat>)
    requires key in data && |data[key]| == CHUNK_SIZE && key.axis < 6
    requires VerticesOf(placed0, vertices0, normals0)
    ensures VerticesOf(placed, vertices, normals)
    ensures forall k, x, z :: 0 <= x < CHUNK_SIZE && 0 <= z < CHUNK_SIZE ==>
              FaceCount(placed, k, x, z) == FaceCount(placed0, k, x, z) + (if k == key && data[key][x][z] then 1 else 0)
    ensures |placed0| <= |placed| && placed[..|placed0|] == placed0
    ensures forall i :: |placed0| <= i < |placed| ==> placed[i].key == key && WellFormed(placed[i].quad)
  {
    var rows := data[key];
    var planeData := new Word[CHUNK_SIZE](i requires 0 <= i < CHUNK_SIZE => rows[i]);
    assert planeData[..] == rows;
    var quads := GreedyMeshBinaryPlane(planeData);
    var faceDir := FromValue(key.axis);
    placed, vertices, normals := placed0, vertices0, normals0;
    var j := 0;
    PlacedSoFarEmpty(placed0, key, quads[..j]);
    while j < |quads|
      invariant 0 <= j <= |quads|
      invariant VerticesOf(placed, vertices, normals)
      invariant PlacedSoFar(placed0, placed, key, quads[..j])
      invariant |placed| == |placed0| + j && placed[..|placed0|] == placed0
      invariant forall i :: |placed0| <= i < |placed| ==> placed[i].key == key && WellFormed(placed[i].quad)
    {
      var vertices', normals' := AppendVertices(quads[j], vertices, normals, faceDir, key.plane, key.blockType);
      VerticesOfAppend(placed, vertices, normals, PlacedQuad(key, quads[j]), vertices', normals');
      assert quads[..j + 1] == quads[..j] + [quads[j]];
      PlacedSoFarStep(placed0, placed, key, quads[..j], quads[j]);
      assert (placed + [PlacedQuad(key, quads[j])])[..|placed0|] == placed[..|placed0|];
      placed := placed + [PlacedQuad(key, quads[j])];
      vertices, normals := vertices', normals';
      j := j + 1;
    }
    assert quads[..j] == quads;
  }

  /** Plane k comes before plane (a, t, p) in the assembly order: direction,
      then block type, then slice, as the loops over the ordered maps. */
  predicate KeyBefore(k: PlaneKey, a: int, t: int, p: int)
  {
    k.axis < a || (k.axis == a && (k.blockType < t || (k.blockType == t && k.plane < p)))
  }

  ghost predicate AssembledUpTo(data: Planes, placed: seq<PlacedQuad>, a: int, t: int, p: int)
  {
    forall k: PlaneKey, x, z :: k.axis < 6 && k.plane < CHUNK_SIZE && 0 <= x < CHUNK_SIZE && 0 <= z < CHUNK_SIZE ==>
      FaceCount(placed, k, x, z) == (if KeyBefore(k, a, t, p) && PlaneBit(data, k, x, z) then 1 else 0)
  }

  /** The assembly loop of the ChunkMesh constructor (with the slice as
      WorldToSample's `axis`): every set bit of every plane is covered by
      exactly one quad of that plane. */
  method Assemble(data: Planes) returns (placed: seq<PlacedQuad>, vertices: seq<Vec3i>, normals: seq<nat>)
    requires WellFormedPlanes(data)
    ensures VerticesOf(placed, vertices, normals)
    ensures forall k: PlaneKey, x, z :: k.axis < 6 && k.plane < CHUNK_SIZE && 0 <= x < CHUNK_SIZE && 0 <= z < CHUNK_SIZE ==>
              FaceCount(placed, k, x, z) == (if PlaneBit(data, k, x, z) then 1 else 0)
    ensures forall i :: 0 <= i < |placed| ==>
              WellFormed(placed[i].quad) && placed[i].key in data && placed[i].key.axis < 6 && placed[i].key.plane < CHUNK_SIZE
  {
    placed, vertices, normals := [], [], [];
    var axis := 0;
    while axis < 6
      invariant 0 <= axis <= 6
      invariant VerticesOf(placed, vertices, normals)
      invariant PlacedInPlanes(data, placed)
      invariant AssembledUpTo(data, placed, axis, 0, 0)
    {
      var blockType := 0;
      while blockType < 256
        invariant 0 <= blockType <= 256
        invariant VerticesOf(placed, vertices, normals)
        invariant PlacedInPlanes(data, placed)
        invariant AssembledUpTo(data, placed, axis, blockType, 0)
      {
        var plane := 0;
        while plane < CHUNK_SIZE
          invariant 0 <= plane <= CHUNK_SIZE
          invariant VerticesOf(placed, vertices, normals)
          invariant PlacedInPlanes(data, placed)
          invariant AssembledUpTo(data, placed, axis, blockType, plane)
        {
          var key := PlaneKey(axis, blockType, plane);
          if key in data {
            ghost var placed0 := placed;
            placed, vertices, normals := MeshPlane(data, key, placed, vertices, normals);
            AssembleStep(data, placed0, placed, key);
            forall i | 0 <= i < |placed|
              ensures WellFormed(placed[i].quad) && placed[i].key in data
            {
              if i < |placed0| {
                assert placed[i] == placed[..|placed0|][i];
              }
            }
          }
          plane := plane + 1;
        }
        blockType := blockType + 1;
      }
      axis := axis + 1;
    }
  }

  /** Every placed quad is a well-formed quad of a plane of `data`. */
  ghost predicate PlacedInPlanes(data: Planes, placed: seq<PlacedQuad>)
  {
    forall i :: 0 <= i < |placed| ==> WellFormed(placed[i].quad) && placed[i].key in data
  }

  lemma AssembleStep(data: Planes, placed0: seq<PlacedQuad>, placed: seq<PlacedQuad>, key: PlaneKey)
    requires key in data && |data[key]| == CHUNK_SIZE
    requires AssembledUpTo(data, placed0, key.axis, key.blockType, key.plane)
    requires forall k, x, z :: 0 <= x < CHUNK_SIZE && 0 <= z < CHUNK_SIZE ==>
               FaceCount(placed, k, x, z) == FaceCount(placed0, k, x, z) + (if k == key && data[key][x][z] then 1 else 0)
    ensures AssembledUpTo(data, placed, key.axis, key.blockType, key.plane + 1)
  {
  }

  /** The ChunkMesh constructor up to the vertex and normal lists: occupancy
      columns, face masks, grouping into planes, greedy meshing and corner
      generation.  Every exposed face of every solid voxel is covered by
      exactly one quad of the plane of its direction, type and slice, and no
      quad covers anything else. */
  method Build(v: Voxels) returns (placed: seq<PlacedQuad>, vertices: seq<Vec3i>, normals: seq<nat>)
    ensures VerticesOf(placed, vertices, normals)
    ensures forall k: PlaneKey, x, z :: k.axis < 6 && k.plane < CHUNK_SIZE && 0 <= x < CHUNK_SIZE && 0 <= z < CHUNK_SIZE ==>
              FaceCount(placed, k, x, z) ==
                (if Exposed(v, FromValue(k.axis), SamplePos(k.axis, x, k.plane, z)) &&
                    TypeAt(v, SamplePos(k.axis, x, k.plane, z).x, SamplePos(k.axis, x, k.plane, z).y, SamplePos(k.axis, x, k.plane, z).z) == k.blockType
                 then 1 else 0)
    ensures forall i :: 0 <= i < |placed| ==>
              WellFormed(placed[i].quad) && placed[i].key.axis < 6 && placed[i].key.plane < CHUNK_SIZE
  {
    var axisColumns := ConstructAxisBitset(v);
    var columnFaceMasks := ComputeFaceMasks(axisColumns);
    var data := GroupFaces(v, columnFaceMasks);
    PlanesHoldExposedFaces(v, axisColumns[..], columnFaceMasks[..], data);
    placed, vertices, normals := Assemble(data);
  }
  /** A placed quad counts for every cell it covers in its own plane. */
  lemma {:induction false} PlacedCounts(pq: seq<PlacedQuad>, i: nat, r: int, c: int)
    requires i < |pq| && Covers(pq[i].quad, r, c)
    ensures FaceCount(pq, pq[i].key, r, c) >= 1
  {
    if i < |pq| - 1 {
      PlacedCounts(pq[..|pq| - 1], i, r, c);
    }
  }

  /** What Build promises leaves no room for a stray quad: every cell of
      every placed quad is an exposed face of the quad's direction, block
      type and slice. */
  lemma BuiltQuadsOnFaces(v: Voxels, placed: seq<PlacedQuad>, i: nat, x: int, z: int)
    requires forall i :: 0 <= i < |placed| ==>
               WellFormed(placed[i].quad) && placed[i].key.axis < 6 && placed[i].key.plane < CHUNK_SIZE
    requires forall k: PlaneKey, x, z :: k.axis < 6 && k.plane < CHUNK_SIZE && 0 <= x < CHUNK_SIZE && 0 <= z < CHUNK_SIZE ==>
               FaceCount(placed, k, x, z) ==
                 (if Exposed(v, FromValue(k.axis), SamplePos(k.axis, x, k.plane, z)) &&
                     TypeAt(v, SamplePos(k.axis, x, k.plane, z).x, SamplePos(k.axis, x, k.plane, z).y, SamplePos(k.axis, x, k.plane, z).z) == k.blockType
                  then 1 else 0)
    requires i < |placed| && Covers(placed[i].quad, x, z)
    ensures 0 <= x < CHUNK_SIZE && 0 <= z < CHUNK_SIZE
    ensures var k := placed[i].key;
            Exposed(v, FromValue(k.axis), SamplePos(k.axis, x, k.plane, z)) &&
            TypeAt(v, SamplePos(k.axis, x, k.plane, z).x, SamplePos(k.axis, x, k.plane, z).y, SamplePos(k.axis, x, k.plane, z).z) == k.blockType
  {
    assert WellFormed(placed[i].quad);
    PlacedCounts(placed, i, x, z);
  }
}

=== FILE: priorityqueue.dfy ===
/** `priorityQueue<T>`: items kept in a `linkedList` ordered by a `uint32_t`
    priority, lowest first in ascending mode and highest first in
    descending mode; among equal priorities the earlier item leaves first. */
module PriorityQueues {
  import opened LinkedLists

  datatype Mode = Ascending | Descending

  datatype PNode<T> = PNode(item: T, priority: nat)

  /** Priority `a` may precede priority `b` in a queue of this mode. */
  predicate Before(mode: Mode, a: nat, b: nat)
  {
    if mode == Ascending then a <= b else a >= b
  }

  /** The priorities of the queued nodes, front first. */
  function Priorities<T>(s: seq<PNode<T>>): (ps: seq<nat>)
    ensures |ps| == |s| && forall k :: 0 <= k < |s| ==> ps[k] == s[k].priority
  {
    seq(|s|, k requires 0 <= k < |s| => s[k].priority)
  }

  /** The queue is in the order of its mode. */
  predicate InOrder(mode: Mode, ps: seq<nat>)
  {
    forall i, j :: 0 <= i < j < |ps| ==> Before(mode, ps[i], ps[j])
  }

  /** `r` is where `getPriorityIndex` places priority `p`: every entry in
      front of it may precede `p`, and the entry at `r`, if any, may not. */
  predicate IsPriorityIndex(mode: Mode, ps: seq<nat>, p: nat, r: nat)
  {
    && r <= |ps|
    && (forall k :: 0 <= k < r ==> Before(mode, ps[k], p))
    && (r < |ps| ==> !Before(mode, ps[r], p))
  }

  /** In an ordered queue the position is unique, every entry from it on
      is strictly behind `p` (so a new entry goes behind all entries of
      equal priority), and inserting there keeps the queue ordered. */
  lemma PriorityIndexPlacement(mode: Mode, ps: seq<nat>, p: nat, r: nat)
    requires InOrder(mode, ps) && IsPriorityIndex(mode, ps, p, r)
    ensures forall k :: r <= k < |ps| ==> !Before(mode, ps[k], p)
    ensures forall r' :: IsPriorityIndex(mode, ps, p, r') ==> r' == r
    ensures InOrder(mode, Insert(ps, r, p))
  {
    forall k | r <= k < |ps|
      ensures !Before(mode, ps[k], p)
    {
      assert Before(mode, ps[r], ps[k]) || k == r;
    }
    var ins := Insert(ps, r, p);
    forall i, j | 0 <= i < j < |ins|
      ensures Before(mode, ins[i], ins[j])
    {
      if i < r && j == r {
      } else if i < r && j > r {
        assert ins[j] == ps[j - 1];
      } else if i == r {
        assert ins[j] == ps[j - 1];
      } else if i > r {
        assert ins[i] == ps[i - 1] && ins[j] == ps[j - 1];
      }
    }
  }

  lemma PrioritiesOfInsert<T>(s: seq<PNode<T>>, i: nat, x: PNode<T>)
    requires i <= |s|
    ensures Priorities(Insert(s, i, x)) == Insert(Priorities(s), i, x.priority)
  {
    var ins := Insert(s, i, x);
    var l := Priorities(ins);
    var r := Insert(Priorities(s), i, x.priority);
    forall k | 0 <= k < |l|
      ensures l[k] == r[k]
    {
      if k < i {
        assert ins[k] == s[k];
      } else if k > i {
        assert ins[k] == s[k - 1];
      }
    }
  }

  /** The queue without its front is still in order. */
  lemma InOrderTail<T>(mode: Mode, s: seq<PNode<T>>)
    requires s != [] && InOrder(mode, Priorities(s))
    ensures Priorities(s[1..]) == Priorities(s)[1..]
    ensures InOrder(mode, Priorities(s[1..]))
  {
    var ps := Priorities(s);
    assert Priorities(s[1..]) == ps[1..];
    forall i, j | 0 <= i < j < |ps| - 1
      ensures Before(mode, ps[1..][i], ps[1..][j])
    {
      assert ps[1..][i] == ps[i + 1] && ps[1..][j] == ps[j + 1];
    }
  }

  /** The front of an ordered queue may precede every entry. */
  lemma FrontIsExtreme(mode: Mode, ps: seq<nat>)
    requires InOrder(mode, ps) && ps != []
    ensures forall k :: 0 <= k < |ps| ==> Before(mode, ps[0], ps[k])
  {
  }

  /** Priority `a` comes strictly ahead of priority `b`. */
  predicate Ahead(mode: Mode, a: nat, b: nat)
  {
    if mode == Ascending then a < b else a > b
  }

  /** The entry `operator[](index)` as written returns: the head for 0 and
      1, and the entry before `index` from there on. */
  function ReadAsWritten(index: nat): nat
  {
    if index == 0 then 0 else index - 1
  }

  /** Where the scans as written land when the intended index is `c` in a
      queue of `n` entries: at the front when `c` is, otherwise one entry
      further on, but not past the end. */
  function Shifted(c: nat, n: nat): nat
  {
    if c == 0 then 0 else if c < n then c + 1 else n
  }

  /** A scan that steps past the last entry, every entry before the last
      one and the front entry having been seen to precede `p`, lands at the
      end: the intended index is `|ps| - 1` or `|ps|`, and both shift to
      `|ps|`. */
  lemma ScanReachedEnd(mode: Mode, ps: seq<nat>, p: nat) returns (c: nat)
    requires ps != [] && Before(mode, ps[0], p)
    requires forall k :: 0 <= k < |ps| - 1 ==> Before(mode, ps[k], p)
    ensures IsPriorityIndex(mode, ps, p, c) && Shifted(c, |ps|) == |ps|
  {
    c := if Before(mode, ps[|ps| - 1], p) then |ps| else |ps| - 1;
  }

  /** A scan that stops at `index` inside the queue, having read entry
      `ReadAsWritten(index)` as the intended index, returns the intended
      index shifted: index 1 cannot occur, since the front entry, read
      twice, was seen to precede `p` the first time. */
  lemma ScanStopped(mode: Mode, ps: seq<nat>, p: nat, index: nat) returns (c: nat)
    requires index < |ps| && IsPriorityIndex(mode, ps, p, ReadAsWritten(index))
    requires index > 0 ==> Before(mode, ps[0], p)
    ensures IsPriorityIndex(mode, ps, p, c) && Shifted(c, |ps|) == index
  {
    c := ReadAsWritten(index);
    assert index != 1;
  }

  /** As written, ascending [1, 3, 5] given priority 2: the intended index
      is 1, the scans reading through `operator[]` stop at 2, which is
      `count - 1`, so the `emplace` as written appends and leaves
      [1, 3, 5, 2], out of order; inserting at the intended index keeps
      the order.  Given [1, 3] the scans stop at 2, the end, and the node
      is appended there too. */
  lemma EnqueueAsWrittenUnordered(c: nat, d: nat)
    requires IsPriorityIndex(Ascending, [1, 3, 5], 2, c)
    requires IsPriorityIndex(Ascending, [1, 3], 2, d)
    ensures c == 1 && Shifted(c, 3) == 2 == |[1, 3, 5]| - 1
    ensures !InOrder(Ascending, [1, 3, 5] + [2])
    ensures InOrder(Ascending, Insert([1, 3, 5], c, 2))
    ensures d == 1 && Shifted(d, 2) == 2 && !InOrder(Ascending, Insert([1, 3], Shifted(d, 2), 2))
  {
    assert c >= 2 ==> Before(Ascending, [1, 3, 5][1], 2);
    assert d >= 2 ==> Before(Ascending, [1, 3][1], 2);
    assert Before(Ascending, [1, 3, 5][0], 2);
    assert !Before(Ascending, ([1, 3, 5] + [2])[2], ([1, 3, 5] + [2])[3]);
    assert Insert([1, 3, 5], 1, 2) == [1, 2, 3, 5];
    assert Before(Ascending, [1, 3][0], 2);
    assert Insert([1, 3], 2, 2) == [1, 3, 2];
    assert !Before(Ascending, [1, 3, 2][1], [1, 3, 2][2]);
  }

  class PriorityQueue<T(0, ==)> {
    const queue: LinkedList<PNode<T>>
    const mode: Mode

    ghost predicate Valid()
      reads this, queue
    {
      queue.Valid() && InOrder(mode, Priorities(queue.Items()))
    }

    ghost function Items(): seq<PNode<T>>
      reads this, queue
      requires Valid()
    {
      queue.Items()
    }

    /** `priorityQueue(mode)` */
    constructor (mode: Mode)
      ensures Valid() && fresh(queue) && Items() == [] && this.mode == mode
    {
      queue := new LinkedList();
      this.mode := mode;
    }

    /** `empty()` */
    function Empty(): (e: bool)
      reads this, queue
      requires Valid()
      ensures e <==> Items() == []
    {
      queue.Size() == 0
    }

    /** `getPriorityIndex(priority)`: skip the entries that come strictly
        before `priority`, then the entries equal to it. */
    method GetPriorityIndex(priority: nat) returns (r: nat)
      requires Valid()
      ensures IsPriorityIndex(mode, Priorities(Items()), priority, r)
      ensures Items() == [] ==> r == 0
    {
      var size := queue.Size();
      if size == 0 {
        return 0;
      }
      if mode == Ascending {
        r := AscendingIndex(priority);
      } else {
        r := DescendingIndex(priority);
      }
    }

    /** The ascending branch: skip priorities below `priority`, then those
        equal to it. */
    method AscendingIndex(priority: nat) returns (r: nat)
      requires Valid() && mode == Ascending && Items() != []
      ensures IsPriorityIndex(mode, Priorities(Items()), priority, r)
    {
      ghost var ps := Priorities(Items());
      var size := queue.Size();
      var lastIndex := 0;
      var node := queue.Get(lastIndex);
      var lastPrio := node.priority;
      while lastPrio < priority
        invariant lastIndex < size && lastPrio == ps[lastIndex]
        invariant forall k :: 0 <= k < lastIndex ==> ps[k] <= priority
        decreases size - lastIndex
      {
        lastIndex := lastIndex + 1;
        if lastIndex == size {
          return lastIndex;
        }
        node := queue.Get(lastIndex);
        lastPrio := node.priority;
      }
      if lastPrio > priority {
        return lastIndex;
      }
      while lastPrio == priority
        invariant lastIndex < size && lastPrio == ps[lastIndex]
        invariant forall k :: 0 <= k < lastIndex ==> ps[k] <= priority
        invariant lastPrio >= priority
        decreases size - lastIndex
      {
        lastIndex := lastIndex + 1;
        if lastIndex == size {
          return lastIndex;
        }
        node := queue.Get(lastIndex);
        lastPrio := node.priority;
        assert Before(mode, ps[lastIndex - 1], ps[lastIndex]);
      }
      return lastIndex;
    }

    /** The descending branch: skip priorities above `priority`, then those
        equal to it. */
    method DescendingIndex(priority: nat) returns (r: nat)
      requires Valid() && mode == Descending && Items() != []
      ensures IsPriorityIndex(mode, Priorities(Items()), priority, r)
    {
      ghost var ps := Priorities(Items());
      var size := queue.Size();
      var lastIndex := 0;
      var node := queue.Get(lastIndex);
      var lastPrio := node.priority;
      while lastPrio > priority
        invariant lastIndex < size && lastPrio == ps[lastIndex]
        invariant forall k :: 0 <= k < lastIndex ==> ps[k] >= priority
        decreases size - lastIndex
      {
        lastIndex := lastIndex + 1;
        if lastIndex == size {
          return lastIndex;
        }
        node := queue.Get(lastIndex);
        lastPrio := node.priority;
      }
      // the source's `lastPrio > priority` test here can never hold
      while lastPrio == priority
        invariant lastIndex < size && lastPrio == ps[lastIndex]
        invariant forall k :: 0 <= k < lastIndex ==> ps[k] >= priority
        invariant lastPrio <= priority
        decreases size - lastIndex
      {
        lastIndex := lastIndex + 1;
        if lastIndex == size {
          return lastIndex;
        }
        node := queue.Get(lastIndex);
        lastPrio := node.priority;
        assert Before(mode, ps[lastIndex - 1], ps[lastIndex]);
      }
      assert !Before(mode, ps[lastIndex], priority);
      return lastIndex;
    }

    /** `enqueue(item, priority)`: the node is placed at its priority
        index, so the queue stays ordered and grows by one. */
    method Enqueue(item: T, priority: nat)
      requires Valid()
      modifies queue
      ensures Valid()
      ensures exists r :: IsPriorityIndex(mode, Priorities(old(Items())), priority, r) &&
                          Items() == Insert(old(Items()), r, PNode(item, priority))
    {
      var index := GetPriorityIndex(priority);
      ghost var items := Items();
      PriorityIndexPlacement(mode, Priorities(items), priority, index);
      queue.Emplace(PNode(item, priority), index);
      if index >= |items| {
        assert Items() == Insert(items, index, PNode(item, priority));
      }
      PrioritiesOfInsert(items, index, PNode(item, priority));
    }

    /** `getPriorityIndex(priority)` as written: the two scans of both
        branches, with each `m_queue[lastIndex]` read through the
        `operator[]` as written, so the scans see entry `lastIndex - 1`. */
    method GetPriorityIndexAsWritten(priority: nat) returns (r: nat, ghost c: nat)
      requires Valid()
      ensures IsPriorityIndex(mode, Priorities(Items()), priority, c) && r == Shifted(c, |Items()|)
    {
      ghost var ps := Priorities(Items());
      var size := queue.Size();
      assert |ps| == size == |Items()|;
      if size == 0 {
        assert IsPriorityIndex(mode, ps, priority, 0);
        return 0, 0;
      }
      var lastIndex := 0;
      var node := queue.GetAsWritten(lastIndex);
      var lastPrio := node.priority;
      while Ahead(mode, lastPrio, priority)
        invariant lastIndex < size && lastPrio == ps[ReadAsWritten(lastIndex)]
        invariant forall k :: 0 <= k < ReadAsWritten(lastIndex) ==> Ahead(mode, ps[k], priority)
        invariant lastIndex > 0 ==> Ahead(mode, ps[0], priority)
        decreases size - lastIndex
      {
        forall k | 0 <= k < ReadAsWritten(lastIndex + 1)
          ensures Ahead(mode, ps[k], priority)
        {
          if k == ReadAsWritten(lastIndex) {
            assert ps[k] == lastPrio;
          }
        }
        lastIndex := lastIndex + 1;
        if lastIndex == size {
          c := ScanReachedEnd(mode, ps, priority);
          return lastIndex, c;
        }
        node := queue.GetAsWritten(lastIndex);
        lastPrio := node.priority;
      }
      forall k | 0 <= k < ReadAsWritten(lastIndex)
        ensures Before(mode, ps[k], priority)
      {
        assert Ahead(mode, ps[k], priority);
      }
      if lastPrio > priority {
        assert IsPriorityIndex(mode, ps, priority, ReadAsWritten(lastIndex));
        c := ScanStopped(mode, ps, priority, lastIndex);
        return lastIndex, c;
      }
      r, c := SkipEqualAsWritten(priority, lastIndex, lastPrio);
    }

    /** The second scan of `getPriorityIndex` as written, from `from`, whose
        entry as read is `lastPrio`: skip the entries equal to `priority`. */
    method SkipEqualAsWritten(priority: nat, from: nat, lastPrio: nat) returns (r: nat, ghost c: nat)
      requires Valid() && from < |Items()|
      requires lastPrio == Priorities(Items())[ReadAsWritten(from)] && !Ahead(mode, lastPrio, priority)
      requires forall k :: 0 <= k < ReadAsWritten(from) ==> Before(mode, Priorities(Items())[k], priority)
      requires from > 0 ==> Before(mode, Priorities(Items())[0], priority)
      ensures IsPriorityIndex(mode, Priorities(Items()), priority, c) && r == Shifted(c, |Items()|)
    {
      ghost var ps := Priorities(Items());
      var size := queue.Size();
      var lastIndex := from;
      var lastPrio := lastPrio;
      while lastPrio == priority
        invariant lastIndex < size && lastPrio == ps[ReadAsWritten(lastIndex)]
        invariant forall k :: 0 <= k < ReadAsWritten(lastIndex) ==> Before(mode, ps[k], priority)
        invariant lastIndex > 0 ==> Before(mode, ps[0], priority)
        invariant !Ahead(mode, lastPrio, priority)
        decreases size - lastIndex
      {
        assert Before(mode, ps[0], ps[ReadAsWritten(lastIndex)]) || ReadAsWritten(lastIndex) == 0;
        forall k | 0 <= k < ReadAsWritten(lastIndex + 1)
          ensures Before(mode, ps[k], priority)
        {
          if k == ReadAsWritten(lastIndex) {
            assert ps[k] == priority;
          }
        }
        lastIndex := lastIndex + 1;
        if lastIndex == size {
          c := ScanReachedEnd(mode, ps, priority);
          return lastIndex, c;
        }
        var node := queue.GetAsWritten(lastIndex);
        lastPrio := node.priority;
        assert Before(mode, ps[ReadAsWritten(lastIndex - 1)], ps[lastIndex - 1]);
      }
      assert IsPriorityIndex(mode, ps, priority, ReadAsWritten(lastIndex));
      c := ScanStopped(mode, ps, priority, lastIndex);
      return lastIndex, c;
    }

    /** `enqueue(item, priority)` as written: the index comes from the scans
        as written and goes to the `emplace` as written, which appends when
        it is `count - 1`. */
    method EnqueueAsWritten(item: T, priority: nat)
      requires Valid()
      modifies queue
      ensures queue.Valid()
      ensures exists c :: IsPriorityIndex(mode, Priorities(old(Items())), priority, c) &&
                          var r := Shifted(c, |old(Items())|);
                          queue.Items() == (if 0 < r && r == |old(Items())| - 1
                                            then old(Items()) + [PNode(item, priority)]
                                            else Insert(old(Items()), r, PNode(item, priority)))
    {
      ghost var c;
      var index;
      index, c := GetPriorityIndexAsWritten(priority);
      ghost var items := Items();
      queue.EmplaceAsWritten(PNode(item, priority), index);
      if index >= |items| {
        assert queue.Items() == Insert(items, index, PNode(item, priority));
      }
    }

    /** `peek(outValue)`: false and `outValue` untouched when empty;
        otherwise the item at the front, whose priority may precede every
        queued priority. */
    method Peek(outValue: T) returns (found: bool, value: T)
      requires Valid()
      ensures found <==> Items() != []
      ensures found ==> value == Items()[0].item
      ensures found ==> forall k :: 0 <= k < |Items()| ==> Before(mode, Items()[0].priority, Items()[k].priority)
      ensures !found ==> value == outValue
    {
      if Empty() {
        return false, outValue;
      }
      var node := queue.Get(0);
      FrontIsExtreme(mode, Priorities(Items()));
      return true, node.item;
    }

    /** `dequeue()`: the front item leaves and is returned; the source
        does not check for an empty queue. */
    method Dequeue() returns (value: T)
      requires Valid() && Items() != []
      modifies queue
      ensures Valid()
      ensures value == old(Items())[0].item && Items() == old(Items())[1..]
      ensures forall k :: 0 <= k < |old(Items())| ==> Before(mode, old(Items())[0].priority, old(Items())[k].priority)
    {
      var node := queue.Get(0);
      FrontIsExtreme(mode, Priorities(Items()));
      InOrderTail(mode, Items());
      var _ := queue.RemoveAt(0);
      assert Delete(old(Items()), 0) == old(Items())[1..];
      return node.item;
    }
  }
}

=== FILE: queue.dfy ===
/** `queue<T>`: a first-in first-out queue kept in a `linkedList<T>`:
    items join at the tail and leave from the head. */
module Queues {
  import opened LinkedLists

  class Queue<T(0, ==)> {
    const list: LinkedList<T>

    ghost predicate Valid()
      reads this, list
    {
      list.Valid()
    }

    /** The queued items, the next one to leave first. */
    ghost function Items(): seq<T>
      reads this, list
      requires Valid()
    {
      list.Items()
    }

    /** `queue()` */
    constructor ()
      ensures Valid() && fresh(list) && Items() == []
    {
      list := new LinkedList();
    }

    /** `empty()` */
    function Empty(): (e: bool)
      reads this, list
      requires Valid()
      ensures e <==> Items() == []
    {
      list.Size() == 0
    }

    /** `enqueue(item)`: the item joins at the back. */
    method Enqueue(item: T)
      requires Valid()
      modifies list
      ensures Valid() && Items() == old(Items()) + [item]
    {
      list.Add(item);
    }

    /** `peek(outValue)`: false and `outValue` untouched on an empty queue;
        otherwise the front item, which stays queued. */
    method Peek(outValue: T) returns (found: bool, value: T)
      requires Valid()
      ensures found <==> Items() != []
      ensures found ==> value == Items()[0]
      ensures !found ==> value == outValue
    {
      if Empty() {
        return false, outValue;
      }
      value := list.Get(0);
      found := true;
    }

    /** `dequeue()`: the front item leaves the queue and is returned. The
        source reads the front without checking for emptiness (the list's
        `operator[]` asserts a non-empty list), hence the precondition. */
    method Dequeue() returns (value: T)
      requires Valid() && Items() != []
      modifies list
      ensures Valid()
      ensures value == old(Items())[0] && Items() == old(Items())[1..]
    {
      value := list.Get(0);
      var _ := list.RemoveAt(0);
      assert Delete(old(Items()), 0) == old(Items())[1..];
    }
  }

  /** Items leave in the order they joined: on a new queue, enqueueing
      `xs` one by one and then dequeueing `|xs|` times yields `xs`, and the
      queue is empty again. */
  method FirstInFirstOut<T(0, ==)>(xs: seq<T>) returns (out: seq<T>)
    ensures out == xs
  {
    var q := new Queue<T>();
    var i := 0;
    while i < |xs|
      invariant 0 <= i <= |xs|
      invariant q.Valid() && fresh(q.list) && q.Items() == xs[..i]
    {
      q.Enqueue(xs[i]);
      assert xs[..i + 1] == xs[..i] + [xs[i]];
      i := i + 1;
    }
    out := [];
    while |out| < |xs|
      invariant |out| <= |xs|
      invariant q.Valid() && fresh(q.list)
      invariant out == xs[..|out|] && q.Items() == xs[|out|..]
    {
      var x := q.Dequeue();
      out := out + [x];
    }
    assert q.Empty();
  }
}

=== FILE: rle.dfy ===
/** `runLengthEncoding<T>`: a list of (run length, object) pairs.

    The list of runs, a `linkedList<RLENode>` in the source, is a sequence
    field here; `m_data.last()` is its last element.  The comparer that
    `encode` is given is modelled as equality of objects. */
module RunLength {

  datatype Run<T> = Run(runLength: nat, obj: T)

  function Repeat<T>(x: T, n: nat): (s: seq<T>)
    ensures |s| == n && forall k :: 0 <= k < n ==> s[k] == x
  {
    if n == 0 then [] else Repeat(x, n - 1) + [x]
  }

  /** The objects the runs stand for, in order. */
  function Decode<T>(runs: seq<Run<T>>): seq<T>
  {
    if runs == [] then []
    else Decode(runs[..|runs| - 1]) + Repeat(runs[|runs| - 1].obj, runs[|runs| - 1].runLength)
  }

  lemma {:induction false} DecodeAppend<T>(a: seq<Run<T>>, b: seq<Run<T>>)
    ensures Decode(a + b) == Decode(a) + Decode(b)
  {
    if b == [] {
      assert a + b == a;
    } else {
      assert (a + b)[..|a + b| - 1] == a + b[..|b| - 1];
      DecodeAppend(a, b[..|b| - 1]);
    }
  }

  /** Every run is non-empty and neighbouring runs hold different objects:
      the shape `encode` produces. */
  predicate Canonical<T(==)>(runs: seq<Run<T>>)
  {
    && (forall i :: 0 <= i < |runs| ==> runs[i].runLength >= 1)
    && (forall i :: 0 < i < |runs| ==> runs[i - 1].obj != runs[i].obj)
  }

  /** Where the last run of a non-empty sequence starts. */
  function LastRunStart<T(==)>(s: seq<T>): (m: nat)
    requires |s| >= 1
    ensures m < |s|
    ensures forall k :: m <= k < |s| ==> s[k] == s[|s| - 1]
    ensures m == 0 || s[m - 1] != s[|s| - 1]
  {
    if |s| == 1 || s[|s| - 2] != s[|s| - 1] then |s| - 1 else LastRunStart(s[..|s| - 1])
  }

  /** What the `encode` loop keeps between iterations, over the elements
      `s` it reads: the runs emitted so far stand for `s[..start]`, and the
      pending run `s[start..index]` holds copies of `prev`. */
  ghost predicate Scanning<T>(s: seq<T>, emitted: seq<Run<T>>, index: nat, run: nat, prev: T)
  {
    && run + 1 <= index <= |s|
    && prev == s[index - run - 1]
    && (forall k :: index - run - 1 <= k < index ==> s[k] == prev)
    && Decode(emitted) == s[..index - run - 1]
    && Canonical(emitted)
    && (emitted != [] ==> emitted[|emitted| - 1].obj != prev)
  }

  lemma DecodeSnoc<T>(runs: seq<Run<T>>, r: Run<T>)
    ensures Decode(runs + [r]) == Decode(runs) + Repeat(r.obj, r.runLength)
  {
    assert (runs + [r])[..|runs|] == runs;
  }

  /** A slice of copies of `x` is a repetition of `x`. */
  lemma RepeatSlice<T>(s: seq<T>, lo: nat, hi: nat, x: T)
    requires lo <= hi <= |s|
    requires forall k :: lo <= k < hi ==> s[k] == x
    ensures Repeat(x, hi - lo) == s[lo..hi]
  {
  }

  /** An iteration that reads a copy of `prev` lengthens the pending run. */
  lemma ScanSame<T>(s: seq<T>, emitted: seq<Run<T>>, index: nat, run: nat, prev: T)
    requires Scanning(s, emitted, index, run, prev) && index < |s| && s[index] == prev
    ensures Scanning(s, emitted, index + 1, run + 1, prev)
  {
  }

  /** An iteration that reads a different object emits the pending run and
      starts a new one. */
  lemma ScanNew<T>(s: seq<T>, emitted: seq<Run<T>>, index: nat, run: nat, prev: T)
    requires Scanning(s, emitted, index, run, prev) && index < |s| && s[index] != prev
    ensures Scanning(s, emitted + [Run(run + 1, prev)], index + 1, 0, s[index])
  {
    var start := index - run - 1;
    DecodeSnoc(emitted, Run(run + 1, prev));
    RepeatSlice(s, start, index, prev);
    assert s[..index] == s[..start] + s[start..index];
  }

  lemma SnocAssoc<T>(a: seq<T>, b: seq<T>, x: T)
    ensures (a + b) + [x] == a + (b + [x])
  {
  }

  /** One iteration of the `encode` loop keeps the scan going. */
  lemma ScanStep<T>(s: seq<T>, emitted: seq<Run<T>>, index: nat, run: nat, prev: T)
    requires Scanning(s, emitted, index, run, prev) && index < |s|
    ensures s[index] == prev ==> Scanning(s, emitted, index + 1, run + 1, prev)
    ensures s[index] != prev ==> Scanning(s, emitted + [Run(run + 1, prev)], index + 1, 0, s[index])
  {
    if s[index] == prev {
      ScanSame(s, emitted, index, run, prev);
    } else {
      ScanNew(s, emitted, index, run, prev);
    }
  }

  /** The runs of a whole sequence once the pending run is flushed. */
  lemma ScanFlush<T>(s: seq<T>, emitted: seq<Run<T>>, run: nat, prev: T)
    requires Scanning(s, emitted, |s|, run, prev)
    ensures Decode(emitted + [Run(run + 1, prev)]) == s
    ensures Canonical(emitted + [Run(run + 1, prev)])
  {
    var start := |s| - run - 1;
    DecodeSnoc(emitted, Run(run + 1, prev));
    RepeatSlice(s, start, |s|, prev);
    assert s == s[..start] + s[start..];
  }

  /** Runs appended to a valid encoding keep the total in step. */
  lemma EncodedValid<T>(data0: seq<Run<T>>, total0: nat, emitted: seq<Run<T>>, s: seq<T>)
    requires total0 == |Decode(data0)| && forall i :: 0 <= i < |data0| ==> data0[i].runLength >= 1
    requires Decode(emitted) == s && Canonical(emitted)
    ensures Decode(data0 + emitted) == Decode(data0) + s
    ensures |Decode(data0 + emitted)| == total0 + |s|
    ensures forall i :: 0 <= i < |data0 + emitted| ==> (data0 + emitted)[i].runLength >= 1
  {
    DecodeAppend(data0, emitted);
    NonEmptyRuns(data0, emitted);
  }

  lemma NonEmptyRuns<T>(a: seq<Run<T>>, b: seq<Run<T>>)
    requires forall i :: 0 <= i < |a| ==> a[i].runLength >= 1
    requires forall i :: 0 <= i < |b| ==> b[i].runLength >= 1
    ensures forall i :: 0 <= i < |a + b| ==> (a + b)[i].runLength >= 1
  {
    forall i | 0 <= i < |a + b|
      ensures (a + b)[i].runLength >= 1
    {
      if i >= |a| {
        assert (a + b)[i] == b[i - |a|];
      }
    }
  }

  /** `add` as written, on the run list and `m_totalLength`: the runs
      stand for one more object, but the total grows by the number of runs
      added, so extending the last run leaves it unchanged. */
  function AddAsWritten<T(==)>(data: seq<Run<T>>, total: nat, obj: T): (r: (seq<Run<T>>, nat))
    ensures Decode(r.0) == Decode(data) + [obj]
    ensures |r.0| == |data| || |r.0| == |data| + 1
    ensures r.1 == total + |r.0| - |data|
  {
    if data != [] && data[|data| - 1].obj == obj then
      var init, last := data[..|data| - 1], data[|data| - 1];
      assert init + [last] == data;
      DecodeSnoc(init, last);
      DecodeSnoc(init, last.(runLength := last.runLength + 1));
      (init + [last.(runLength := last.runLength + 1)], total)
    else
      DecodeSnoc(data, Run(1, obj));
      assert Repeat(obj, 1) == [obj];
      (data + [Run(1, obj)], total + 1)
  }

  /** As written, adding the same object twice to an empty encoding stands
      for two objects but records a total length of 1. */
  lemma AddAsWrittenUndercounts<T>(x: T)
    ensures AddAsWritten([], 0, x) == ([Run(1, x)], 1)
    ensures AddAsWritten([Run(1, x)], 1, x) == ([Run(2, x)], 1)
    ensures |Decode([Run(2, x)])| == 2
  {
    assert [] + [Run(1, x)] == [Run(1, x)];
    assert [Run(1, x)][..0] + [Run(2, x)] == [Run(2, x)];
    assert [Run(2, x)][..0] == [];
  }

  /** The loop of `encode(objArray, arraySize)`, stopping at the last
      element and flushing the final run after it: the runs of the array
      are appended to `data0` and the total grows by its length. */
  method AppendRuns<T(==)>(objArray: seq<T>, data0: seq<Run<T>>, total0: nat)
      returns (runs: seq<Run<T>>, total: nat, ghost emitted: seq<Run<T>>)
    requires |objArray| >= 1
    ensures runs == data0 + emitted && total == total0 + |objArray|
    ensures Decode(emitted) == objArray && Canonical(emitted)
  {
    var prev := objArray[0];
    var run := 0;
    var index := 1;
    runs := data0;
    total := total0;
    emitted := [];
    assert objArray[..0] == [];
    while index < |objArray|
      invariant Scanning(objArray, emitted, index, run, prev)
      invariant runs == data0 + emitted
      invariant total == total0 + (index - run - 1)
    {
      var curr := objArray[index];
      ScanStep(objArray, emitted, index, run, prev);
      index := index + 1;
      run := run + 1;
      if prev != curr {
        SnocAssoc(data0, emitted, Run(run, prev));
        runs := runs + [Run(run, prev)];
        emitted := emitted + [Run(run, prev)];
        total := total + run;
        run := 0;
        prev := curr;
      }
    }
    ScanFlush(objArray, emitted, run, prev);
    SnocAssoc(data0, emitted, Run(run + 1, prev));
    runs := runs + [Run(run + 1, prev)];
    total := total + run + 1;
    emitted := emitted + [Run(run + 1, prev)];
  }

  /** The loop of `encode(objArray, arraySize)` as written: it also reads
      `objArray[arraySize]`, one element past the array, given here as
      `past`, and the run pending when the loop ends is never emitted. */
  method AppendRunsAsWritten<T(==)>(objArray: seq<T>, past: T, data0: seq<Run<T>>, total0: nat)
      returns (runs: seq<Run<T>>, total: nat, ghost emitted: seq<Run<T>>)
    requires |objArray| >= 1
    ensures runs == data0 + emitted && total == total0 + |Decode(emitted)| && Canonical(emitted)
    ensures past != objArray[|objArray| - 1] ==> Decode(emitted) == objArray
    ensures past == objArray[|objArray| - 1] ==> Decode(emitted) == objArray[..LastRunStart(objArray)]
  {
    var arraySize := |objArray|;
    ghost var ext := objArray + [past];
    var prev := objArray[0];
    var run := 0;
    var index := 1;
    runs := data0;
    total := total0;
    emitted := [];
    assert ext[..0] == [];
    while index <= arraySize
      invariant Scanning(ext, emitted, index, run, prev)
      invariant runs == data0 + emitted
      invariant total == total0 + (index - run - 1)
    {
      var curr := if index < arraySize then objArray[index] else past;
      assert curr == ext[index];
      ScanStep(ext, emitted, index, run, prev);
      index := index + 1;
      run := run + 1;
      if prev != curr {
        SnocAssoc(data0, emitted, Run(run, prev));
        runs := runs + [Run(run, prev)];
        emitted := emitted + [Run(run, prev)];
        total := total + run;
        run := 0;
        prev := curr;
      }
    }
    EmittedBeforePast(objArray, past, emitted, run, prev);
  }

  class RunLengthEncoding<T(==)> {
    var data: seq<Run<T>>
    var totalLength: nat

    /** `m_totalLength` counts the objects the runs stand for. */
    ghost predicate Valid()
      reads this
    {
      && totalLength == |Decode(data)|
      && forall i :: 0 <= i < |data| ==> data[i].runLength >= 1
    }

    /** `runLengthEncoding()` */
    constructor Empty()
      ensures Valid() && data == [] && totalLength == 0
    {
      data := [];
      totalLength := 0;
    }

    /** `runLengthEncoding(objArray, arraySize, comp)`: the encoding of the
        array, or an empty encoding when the array is empty. */
    constructor FromArray(objArray: seq<T>)
      ensures Valid() && Decode(data) == objArray && Canonical(data)
    {
      data := [];
      totalLength := 0;
      new;
      if |objArray| > 0 {
        Encode(objArray);
        assert data == [] + data;
      }
    }

    /** `add(obj)`: one more object at the end, counted in the total even
        when it only lengthens the last run. */
    method Add(obj: T)
      requires Valid()
      modifies this
      ensures Valid()
      ensures Decode(data) == old(Decode(data)) + [obj]
      ensures |data| == old(|data|) || |data| == old(|data|) + 1
    {
      if data != [] && data[|data| - 1].obj == obj {
        var last := data[|data| - 1];
        var before := data[..|data| - 1];
        data := before + [last.(runLength := last.runLength + 1)];
        totalLength := totalLength + 1;
        assert data[..|data| - 1] == before;
        assert old(data)[..|old(data)| - 1] == before;
        assert Repeat(obj, last.runLength + 1) == Repeat(obj, last.runLength) + [obj];
        return;
      }
      data := data + [Run(1, obj)];
      totalLength := totalLength + 1;
      DecodeAppend(old(data), [Run(1, obj)]);
      assert [Run(1, obj)][..0] == [];
    }

    /** `encode(objArray, arraySize)` with the loop stopping at the last
        element and the final run flushed after it: the runs of the array
        are appended and the total grows by its length. */
    method Encode(objArray: seq<T>)
      requires Valid()
      modifies this
      ensures Valid()
      ensures objArray == [] ==> data == old(data) && totalLength == old(totalLength)
      ensures objArray != [] ==> exists runs :: data == old(data) + runs && Decode(runs) == objArray && Canonical(runs)
      ensures Decode(data) == old(Decode(data)) + objArray
    {
      if |objArray| <= 0 {
        return;
      }
      var runs, total, emitted := AppendRuns(objArray, data, totalLength);
      EncodedValid(old(data), old(totalLength), emitted, objArray);
      data := runs;
      totalLength := total;
      assert data == old(data) + emitted;
    }

    /** `encode(objArray, arraySize)` as written: the loop also reads
        `objArray[arraySize]`, one element past the array, given here as
        `past`, and the run pending when the loop ends is never emitted.
        So the last run of the array is emitted only when the element past
        the end differs from it. */
    method EncodeAsWritten(objArray: seq<T>, past: T)
      requires Valid()
      modifies this
      ensures Valid()
      ensures objArray == [] ==> data == old(data) && totalLength == old(totalLength)
      ensures objArray != [] && past != objArray[|objArray| - 1] ==>
                Decode(data) == old(Decode(data)) + objArray
      ensures objArray != [] && past == objArray[|objArray| - 1] ==>
                Decode(data) == old(Decode(data)) + objArray[..LastRunStart(objArray)]
    {
      if |objArray| <= 0 {
        return;
      }
      var runs, total, emitted := AppendRunsAsWritten(objArray, past, data, totalLength);
      EncodedValid(data, totalLength, emitted, Decode(emitted));
      data := runs;
      totalLength := total;
    }
  }

  /** Where the as-written loop stops: the pending run ends at the element
      past the array, so what was emitted is the whole array when that
      element differs from the array's last, and the array without its
      last run otherwise. */
  lemma EmittedBeforePast<T>(s: seq<T>, past: T, emitted: seq<Run<T>>, run: nat, prev: T)
    requires |s| >= 1
    requires Scanning(s + [past], emitted, |s| + 1, run, prev)
    ensures past != s[|s| - 1] ==> Decode(emitted) == s
    ensures past == s[|s| - 1] ==> Decode(emitted) == s[..LastRunStart(s)]
  {
    var ext := s + [past];
    var start := |s| - run;
    assert ext[..start] == s[..start];
    assert ext[|s|] == past;
    assert run > 0 ==> ext[|s| - 1] == prev && ext[|s|] == prev;
    if 0 < start {
      ScanBoundary(ext, emitted, start, prev);
    }
    if past == s[|s| - 1] {
      var m := LastRunStart(s);
      assert forall k :: start <= k < |s| ==> s[k] == ext[k];
      RunStartUnique(s, start, m);
    }
  }

  /** The last run of a sequence starts at one place only. */
  lemma RunStartUnique<T>(s: seq<T>, a: nat, b: nat)
    requires a < |s| && b < |s|
    requires forall k :: a <= k < |s| ==> s[k] == s[|s| - 1]
    requires forall k :: b <= k < |s| ==> s[k] == s[|s| - 1]
    requires a == 0 || s[a - 1] != s[|s| - 1]
    requires b == 0 || s[b - 1] != s[|s| - 1]
    ensures a == b
  {
  }

  /** The object before the pending run differs from it: the last emitted
      run ends with a different object. */
  lemma ScanBoundary<T>(s: seq<T>, emitted: seq<Run<T>>, start: nat, prev: T)
    requires 0 < start <= |s| && Decode(emitted) == s[..start] && Canonical(emitted)
    requires emitted != [] ==> emitted[|emitted| - 1].obj != prev
    ensures s[start - 1] != prev
  {
    assert emitted != [];
    var last := emitted[|emitted| - 1];
    DecodeSnoc(emitted[..|emitted| - 1], last);
    assert emitted[..|emitted| - 1] + [last] == emitted;
    assert s[..start][start - 1] == last.obj;
  }

  /** A one-element array whose element past the end equals it encodes to
      nothing as written; the corrected loop encodes it as one run. */
  lemma SingleRunDropped<T>(x: T)
    ensures LastRunStart([x]) == 0 && [x][..LastRunStart([x])] == []
  {
  }
}
